=== FILE: README.md ===
# SkulBus in Dafny

SkulBus is a school-transport booking site. Parents book seats for their
students on trips run by saccos (transport co-operatives) and pay for them
by M-Pesa; saccos and administrators have dashboards of their own. This
project models the deterministic rules of the site and proves what they
guarantee and what they do not. There are two halves.

**Browser scripts** (`assets/js`), as pure functions over strings and
sequences:

- `PasswordStrength`: the password-strength meter.
- `Phone`: the Kenyan phone-number check and the two phone normalisers.
- `Email`: the e-mail check, shown equal to its regular expression.
- `Forms`: the two `validateForm` versions and the registration submit handler.
- `ClientSession`: the role guessed from an e-mail address, the dashboard
  table, and the 1-hour or 24-hour session expiry.
- `Tables`: the notification badges, the table search and column filters,
  the sort-direction toggle, the recent-activity list and the status colours.
- `Csv`: CSV export.

**PHP request handlers**, as pure transitions over an immutable store. One
request is one step.

- `Store`: users, schools, vehicles, drivers, students, trips, bookings,
  payments and notifications, each table kept in storage order, plus the
  session and an integrity invariant `Valid`.
- `ServerAuth`: the guards, login, account creation and notification helpers
  of `includes/auth.php`.
- `BookTrip`: `parent/book-trip.php`.
- `PaymentPage`: `parent/payment.php`.
- `RegisterPage`: `register.php`.
- `Landing`: `index.php`.

`Common` holds the shared string helpers: the JavaScript and PHP white-space
sets, trimming, ASCII lower-casing, substring search, UTF-8 and UTF-16
lengths, and decimal numbers. `Sorting` holds an insertion sort with its
permutation and ordering proofs.

The handlers are modelled as written. The model does not add guards the code
lacks, so several lemmas state the gaps outright:

- the seat count can go below zero, if the column is signed (`BookTrip.SeatsCanGoNegative`);
- a parent can book another parent's student (`BookTrip.OtherParentsStudentIsBooked`);
- a cancelled booking still blocks a new one (`BookTrip.CancelledBookingBlocks`);
- every payment POST records one more completed payment, even for a booking
  already paid (`PaymentPage.PostAlwaysPays`);
- a booking is confirmed whatever its previous status (`PaymentPage.PostRecordsPayment`);
- the recent-activity timer throws a ReferenceError before it touches the
  list, so no activity is ever added (`Tables.RecentActivityNeverAdds`);
  the corrected block is `Tables.UpdateRecentActivityFixed`;
- a failed INSERT during registration shows the database driver's message
  (`RegisterPage.FailedInsertShowsDriverMessage`);
- the search box never filters: its debounced listener loses `this` and
  throws a TypeError on every input event (`Tables.SearchListenerNeverFilters`);
  the corrected listener is `Tables.Search`.

What does hold is stated as invariants and partner lemmas:

- every handler keeps `Store.Valid` (unique ids, ids below the next-id
  counters, references to existing rows);
- booking keeps the seat ledger, seats plus bookings per trip (`BookTrip.SeatLedger`);
- the redirect after booking leads to a payment page that finds the new
  booking, has no payment for it yet and offers the form
  (`PaymentPage.BookThenPay`, `PaymentPage.BookThenPayPage`);
- a new account can log in at once (`RegisterPage.RegisteredCanLogin`).

`password_hash` and `password_verify` are not modelled. The hash is an
argument, because it is salted and so is not a function of the password.
Verification is a function parameter.

## Model

| member | source | states |
|---|---|---|
| PasswordStrength.Accumulate | assets/js/auth.js:111-137 | the checks run in order: each met criterion adds 25 points and each unmet one appends its hint |
| PasswordStrength.Calculate | assets/js/auth.js:110-139 | score is 25 times the number of criteria met, so it is one of 0, 25, 50, 75, 100; score + 25·(number of hints) = 100; the hints are those of the unmet criteria, in checking order |
| PasswordStrength.HintShownIffCriterionFails | assets/js/auth.js:114-136 | each of the four hints is present exactly when its criterion fails (length counted in UTF-16 units) |
| PasswordStrength.LabelOf | assets/js/auth.js:147-159 | Weak iff score < 50, Medium iff 50 ≤ score < 75, Strong iff score ≥ 75 |
| PasswordStrength.MeterShowsCriteria | assets/js/auth.js:142-160 | for a typed password the bar is 25 points wide per criterion met, and the text says "Strong password" iff at least three are met, "Medium password" iff two, "Weak password" iff at most one |
| PasswordStrength.LabelByCriteria | assets/js/auth.js:110-159 | Strong iff at least three criteria are met, Medium iff exactly two, Weak iff at most one |
| PasswordStrength.FullScoreIffNoFeedback | assets/js/auth.js:110-139 | score 100 iff no hint |
| PasswordStrength.ShortLowercaseIsWeak | assets/js/auth.js:114-136 | "abc" gets the length, upper-case and digit hints in that order, and is Weak |
| Phone.KeepDigits | assets/js/auth.js:333 | `replace(/\D/g, '')` keeps only digits, never lengthens, leaves an all-digit string alone, keeps a single digit and drops any other single character |
| Phone.KeepDigitsAppend | assets/js/auth.js:333 | the digits of a concatenation are the digits of each part, in order; with the single-character case this fixes what is kept |
| Phone.ValidatePhone | assets/js/main.js:194-197 | accepts iff 13 characters "+254" followed by 1 or 7 and 8 digits, or 10 characters '0' followed by 1 or 7 and 8 digits |
| Phone.ValidPhoneLength | assets/js/main.js:194-197 | an accepted number has length 13 (international, starts with '+') or 10 |
| Phone.SampleInternationalIsValid | assets/js/main.js:195 | "+254712345678" is accepted |
| Phone.NormaliseTel | assets/js/auth.js:331-345 | empty iff the input has no digit; otherwise '+' and digits from "254", or all digits starting with '0'; the output's digits are the input's digits, with a '0' put in front exactly when they start with neither "254" nor '0' |
| Phone.NormaliseTelIdempotent | assets/js/auth.js:331-345 | normalising twice is normalising once |
| Phone.ValidPhoneIsNormalised | assets/js/auth.js:333-342 | the normaliser leaves every number validatePhone accepts unchanged |
| Phone.FormatPhoneNumber | assets/js/app.js:180-192 | output starts with '0', is all digits, 1 to 10 characters; after the '0' come the first 9 digits of the input with one leading '0' dropped |
| Phone.FormatDigitFree | assets/js/app.js:181-191 | digit-free input gives "0" |
| Phone.FormatPhoneNumberIdempotent | assets/js/app.js:183-191 | formatting twice is formatting once |
| Phone.FormatKeepsLocalNumber | assets/js/app.js:180-192 | a valid local number is unchanged |
| Phone.FormatBreaksInternationalNumber | assets/js/app.js:180-192 | a valid +254 number becomes "0" followed by its first nine digits, which validatePhone rejects |
| Email.ValidateEmail | assets/js/main.js:188-191 | an accepted address has at least five characters and does not start with '@' |
| Email.ValidateEmailMatchesPattern | assets/js/main.js:188-191 | the check accepts exactly the strings `/^[^\s@]+@[^\s@]+\.[^\s@]+$/` matches |
| Email.ValidEmailShape | assets/js/main.js:188-191 | an accepted address has no white space and exactly one '@', not in first position |
| Forms.ErrorOf | assets/js/main.js:322-332 | Required iff the trimmed value is blank; any other error belongs to the input's type |
| Forms.NoErrorIffAcceptable | assets/js/main.js:324-332 | no error iff the trimmed value satisfies its type's rule |
| Forms.ErrorPriority | assets/js/main.js:324-332 | the error is the first failing rule in the order blank, e-mail, phone, password length |
| Forms.Revalidate | assets/js/main.js:311-341 | a required input is marked invalid iff its value is unacceptable; other inputs are untouched |
| Forms.ValidateForm | assets/js/main.js:307-345 | result true iff every required input is acceptable; each required input is marked iff unacceptable; values and types are kept |
| Forms.FeedbackMatchesMark | assets/js/main.js:334-340 | a required input has a feedback message iff it is marked, and the message is its error's |
| Forms.ValidateFormIgnoresOldMarks | assets/js/main.js:315-319 | old marks and messages do not affect the outcome |
| Forms.ValidateRequired | assets/js/app.js:162-177 | a required input is marked iff blank after trimming; true iff none is |
| Forms.StrictValidatorImpliesBlankCheck | assets/js/main.js:307-345 | a form main.js accepts is accepted by app.js's validator, and on forms without typed inputs the two agree |
| Forms.SubmitRegistration | assets/js/auth.js:42-68 | registration goes ahead iff the form validates and the passwords match; on a mismatch only "Passwords do not match" is shown |
| ClientSession.RoleFromEmail | assets/js/auth.js:279-284 | "parent" if the address contains it, else "sacco" if it contains that, else "admin" if it contains that, else "parent" |
| ClientSession.DashboardFor | assets/js/auth.js:287-295 | sacco and admin go to their dashboards, every other role to the parent dashboard |
| ClientSession.CheckAuthStatus | assets/js/auth.js:298-318 | returns the stored user iff there is one and it has not expired; an expired one is removed and logout runs |
| ClientSession.SessionLifetime | assets/js/auth.js:298-318 | the record handleLogin stores is accepted by checkAuthStatus exactly while at most 24 hours (remembered) or 1 hour (not remembered) have passed since login |
| ClientSession.ExpiryIsPermanent | assets/js/auth.js:304-312 | an expired session is expired at every later time |
| ClientSession.LogoutClearsSession | assets/js/auth.js:309-311 | after an expired check the next check finds no user |
| ClientSession.SubmitLogin | assets/js/auth.js:21-34 | logs in iff the form validates; the session is valid at once and the dashboard is the guessed role's |
| ClientSession.GuessedRoleDashboard | assets/js/auth.js:279-294 | the dashboard reached follows the first role name in the address |
| Tables.JsParseIntSign | assets/js/dashboard.js:206 | parseInt of blank text is NaN, and a negative result needs a leading '-' after the white space |
| Tables.ReadCount | assets/js/dashboard.js:206 | parseInt or else 0: NaN reads as 0, and whenever parseInt finds a number the reading is that number |
| Tables.JsParseIntRoundTrip | assets/js/dashboard.js:206 | parseInt reads back any rendered count |
| Tables.JsParseIntStopsAtNonDigit | assets/js/dashboard.js:206 | parseInt stops at the first non-digit after a number |
| Tables.UpdateNotificationCount | assets/js/dashboard.js:203-211 | new count = max(0, old − 1), with unreadable text read as 0; text is the new count; shown iff count > 0 |
| Tables.TwoClicks | assets/js/dashboard.js:206-208 | two clicks take two off the count, never going below zero |
| Tables.ZeroIsStable | assets/js/dashboard.js:206-209 | from a count of at most 1, the badge reads "0", is hidden, and stays so |
| Tables.UpdateNotificationBadge | assets/js/app.js:146-152 | the text written reads back as the count under parseInt-or-0, negative counts included, and the badge is displayed iff that reading is positive |
| Tables.BadgesAgree | assets/js/app.js:149-150 | both badges use the same display rule, and `ReadCount` reads the text `UpdateNotificationBadge` writes back as its count; so, if `.notification-badge` and `.navbar .badge` name the same element, dashboard.js reads back what app.js wrote |
| Tables.FilterTable | assets/js/dashboard.js:322-330 | one flag per row; a row is shown iff the term is empty or its lower-cased text contains the term |
| Tables.SearchListener | assets/js/dashboard.js:295-301 | as written: every input event ends in a TypeError, because the debounced call drops `this`, and no row's display changes |
| Tables.SearchListenerNeverFilters | assets/js/dashboard.js:296 | with every row visible, a search some row does not match leaves that row shown as written, where the corrected listener hides it |
| Tables.Search | assets/js/dashboard.js:294-302 | corrected listener: one flag per row; a row is shown iff nothing was typed or its text contains what was typed, both sides lower-cased |
| Tables.SearchFindsMatches | assets/js/dashboard.js:296-327 | corrected listener: a row containing the typed text, in any letter case, stays visible |
| Tables.LongerSearchShowsFewer | assets/js/dashboard.js:326-327 | corrected listener: extending the search only hides rows |
| Tables.FilterByColumn | assets/js/dashboard.js:333-341 | a row is shown iff the filter is empty or the lower-cased cell (or "" when missing) contains the lower-cased filter |
| Tables.MissingCellHidden | assets/js/dashboard.js:337-338 | a row lacking the column is shown iff the filter is empty |
| Tables.ColumnOfIndex | assets/js/dashboard.js:312 | a `data-column` holding an index in decimal selects that column; a blank one selects column 0 |
| Tables.SearchTable | assets/js/app.js:66-88 | the first row is left as it was; every other row is shown iff one of its cells contains the lower-cased filter |
| Tables.EmptySearchHidesCelllessRows | assets/js/app.js:74-85 | with an empty filter, exactly the rows with no cell are hidden |
| Tables.SortTable | assets/js/dashboard.js:78-111 | order "asc" unless it was "asc"; only the clicked header is marked, with the matching direction; the rows are a permutation of the old ones |
| Tables.SortTableOrders | assets/js/dashboard.js:85-99 | with a consistent comparator the rows come out in the clicked direction |
| Tables.ClicksAlternate | assets/js/dashboard.js:82-83 | each click flips the direction, whichever column is clicked; an unsorted table goes ascending, then descending |
| Tables.UpdateRecentActivity | assets/js/dashboard.js:265-286 | as written: the callback ends in a ReferenceError exactly when the draw fires, and the list is never changed |
| Tables.RecentActivityNeverAdds | assets/js/dashboard.js:266 | as written the list is the same after every pass, and when the draw fires on a list of fewer than 5 it differs from what the corrected block leaves |
| Tables.UpdateRecentActivityFixed | assets/js/dashboard.js:265-286 | corrected block: unchanged unless the draw fires; then the item comes first, the rest is a prefix of the old list, and the length grows by one iff the list had fewer than 5 |
| Tables.AddActivity | assets/js/dashboard.js:279-285 | corrected block: the new item comes first; the result is a prefix of item + old list; one item is dropped iff the list had more than 5 |
| Tables.ActivityCap | assets/js/dashboard.js:281-285 | corrected block: a list of at most 5 keeps at most 5; a full one loses its last item |
| Tables.LongListKeepsLength | assets/js/dashboard.js:283-284 | corrected block: a list already longer than 5 keeps its length |
| Tables.StatusColor | assets/js/app.js:215-227 | the result is a Bootstrap colour, and any status outside the eight listed gets "secondary" |
| Tables.StatusColorGroups | assets/js/app.js:216-225 | the colour of each listed status |
| Tables.StatusColorMeaning | assets/js/app.js:215-227 | for every status: green iff confirmed or approved, red iff cancelled or rejected, yellow iff pending |
| Csv.Texts | assets/js/dashboard.js:350-351 | each exported cell text is the cell, trimmed in the dashboard version |
| Csv.QuoteEach | assets/js/app.js:122 | each cell of a row is quoted in place |
| Csv.LineEach | assets/js/app.js:120-123 | each row becomes one line |
| Csv.QuoteAsWritten | assets/js/app.js:122 | the text between two quotes, unchanged |
| Csv.QuotedAsWrittenMisread | assets/js/app.js:122 | a quoted text containing '"' does not read back as that text |
| Csv.ExportAsWrittenLosesQuotes | assets/js/app.js:120-123 | a table with a '"' in a cell does not read back as its texts |
| Csv.QuoteField | assets/js/dashboard.js:351 | the corrected quoting equals the written one on texts without '"' |
| Csv.ReadFieldQuoted | assets/js/dashboard.js:351 | a field quoted by the corrected rule reads back as its text |
| Csv.ReadRecordLine | assets/js/dashboard.js:349-352 | a line of such fields reads back as its cells |
| Csv.ParseLines | assets/js/dashboard.js:349-352 | the joined lines read back as the rows |
| Csv.ExportRoundTrip | assets/js/dashboard.js:349-352 | the corrected export of a non-empty table reads back as its cell texts |
| Csv.Export | assets/js/dashboard.js:344-352 | corrected export: a table with a row, and a cell in every row, reads back as its cell texts |
| Csv.ExportsAgreeWithoutQuotes | assets/js/app.js:120-123 | where no text holds '"', the corrected export is byte-for-byte the written one |
| Sorting.Sort | parent/book-trip.php:20 | the result is a permutation of the input |
| Sorting.SortSorted | parent/book-trip.php:20 | with a total preorder the result is ordered |
| Sorting.SortSameElements | parent/book-trip.php:20 | the result has exactly the input's elements |
| Store.FirstIndex | includes/db.php:29-32 | the first matching row: none before it matches, none at all when absent |
| Store.First | includes/db.php:29-32 | getRow: the first matching row, or none iff no row matches |
| Store.Filter | includes/db.php:35-38 | getRows: only matching rows, each matching row as often as it is stored, in storage order (a subsequence of the table) |
| Store.UserByIdUnique | includes/auth.php:16-17 | with unique ids the lookup by id finds that row |
| Store.DecrementSeats | parent/book-trip.php:39 | the trip with that id loses one seat, with no lower bound; others unchanged |
| Store.ConfirmBooking | parent/payment.php:48 | the booking with that id becomes confirmed; others unchanged |
| Store.MarkRead | includes/auth.php:102-105 | the notification with that id becomes read; others unchanged |
| Store.DecrementSeatsKeepsTrips | parent/book-trip.php:39 | the set of trip ids is unchanged |
| Store.ConfirmBookingKeepsBookings | parent/payment.php:48 | the set of booking ids is unchanged |
| ServerAuth.GetCurrentUser | includes/auth.php:11-18 | none when logged out; otherwise the user row with the session's id, none iff no row has it |
| ServerAuth.HasRole | includes/auth.php:21-24 | true iff there is a current user and its stored role is the one asked for |
| ServerAuth.RequireLogin | includes/auth.php:27-32 | proceeds iff logged in, else redirects to ../login.php |
| ServerAuth.RequireRole | includes/auth.php:35-41 | login check first, then ../index.php on a role mismatch; proceeds iff the role matches |
| ServerAuth.RequireRoleGivesUser | includes/auth.php:35-41 | past the guard there is a current user with that role; the cached session role is irrelevant |
| ServerAuth.DeletedUserGoesToIndex | includes/auth.php:21-41 | a session whose user row is gone is sent to the index page, not to login |
| ServerAuth.Login | includes/auth.php:44-55 | succeeds iff a user has that address and the password verifies; only then are id, role and name set, otherwise the session is untouched |
| ServerAuth.Register | includes/auth.php:65-86 | fails with "Email already exists" iff the address is taken; otherwise fails with the driver's message iff the INSERT is rejected; otherwise exactly one user row, holding the hash, is appended under the next id |
| ServerAuth.RegisterThenLogin | includes/auth.php:44-82 | a new account logs in at once when the hash verifies the password |
| ServerAuth.RegisterKeepsValid | includes/auth.php:79-80 | registration keeps the store valid |
| ServerAuth.AddNotification | includes/auth.php:89-92 | one unread notification is appended under the next id |
| ServerAuth.MarkNotificationAsRead | includes/auth.php:102-105 | only rows with that id change, and they become read |
| ServerAuth.AddNotificationCounts | includes/auth.php:89-99 | a notification adds one to its addressee's unread count and nothing to anyone else's |
| ServerAuth.UnreadOfMarkRead | includes/auth.php:95-105 | marking read lowers the user's unread count by one iff that notification was unread and theirs |
| ServerAuth.MarkReadCounts | includes/auth.php:95-105 | the same, for the store |
| ServerAuth.MarkReadIdempotent | includes/auth.php:102-105 | marking read twice is marking read once |
| ServerAuth.AddNotificationKeepsValid | includes/auth.php:89-92 | a notification for an existing user keeps the store valid |
| ServerAuth.MarkReadKeepsValid | includes/auth.php:102-105 | marking read keeps the store valid |
| BookTrip.ListStudents | parent/book-trip.php:9-11 | exactly the current parent's students whose school exists |
| BookTrip.ListTrips | parent/book-trip.php:14-20 | a permutation of the listable trips |
| BookTrip.ListTripsMembers | parent/book-trip.php:14-19 | exactly the trips departing today or later with a seat left (and their joined rows present) |
| BookTrip.DepartsNoLaterIsOrder | parent/book-trip.php:20 | ordering by date then time is a total preorder |
| BookTrip.ListTripsOrdered | parent/book-trip.php:20 | the trips come earliest first |
| BookTrip.BookTripPost | parent/book-trip.php:23-54 | a duplicate for the trip and student, whatever its status, fails and changes nothing; otherwise, if trip and student exist, one pending booking is added for the current parent, the trip loses a seat, one notification is added, and the redirect names the new id |
| BookTrip.FirstOfAppended | parent/book-trip.php:42-43 | the lookup after the insert finds the booking just inserted |
| BookTrip.SeatLedger | parent/book-trip.php:35-39 | for every trip, seats plus bookings on it is the same before and after |
| BookTrip.SeatsCanGoNegative | parent/book-trip.php:39 | booking a trip with no seat left succeeds and leaves -1 |
| BookTrip.OtherParentsStudentIsBooked | parent/book-trip.php:24-36 | a student of another parent is booked, under the posting parent |
| BookTrip.CancelledBookingBlocks | parent/book-trip.php:29-32 | a cancelled booking still makes the POST fail as a duplicate |
| BookTrip.SecondPostRefused | parent/book-trip.php:29-36 | posting the same trip and student again is refused |
| BookTrip.LocationNamesBooking | parent/book-trip.php:48 | the redirect's booking_id parses back to the new id |
| BookTrip.BookTripKeepsValid | parent/book-trip.php:35-46 | a POST keeps the store valid |
| BookTrip.BookTripPage | parent/book-trip.php:3-54 | the role guard first; without a POST the form shows the lists; a POST that books redirects with the booked store to the handler's location, and a failed POST shows the form with the failure's message and the store unchanged |
| PaymentPage.FindBooking | parent/payment.php:14-20 | finds a booking with that id, owned by the parent, whose trip, student and sacco exist; none iff there is no such booking |
| PaymentPage.TransactionRef | parent/payment.php:40 | exactly "TXN", then `time()` in decimal, then the four random digits; so all digits after "TXN" |
| PaymentPage.PayPost | parent/payment.php:34-56 | one completed payment appended, the booking confirmed, one notification added, nothing else changed |
| PaymentPage.Page | parent/payment.php:3-61 | the role guard first; past it the view is shown iff the id is truthy and names a joined booking of the parent, and it shows that booking; a POST's store is the payment handler's; the form is shown iff the first payment is not completed |
| PaymentPage.MissingIdRedirects | parent/payment.php:6-11 | a missing, "" or "0" id goes to bookings.php with no change |
| PaymentPage.ForeignBookingRedirects | parent/payment.php:14-25 | an id naming no booking of this parent goes to bookings.php with no change, even on a POST |
| PaymentPage.PostRecordsPayment | parent/payment.php:36-48 | the payment's amount is the trip's cost per seat, completed, by mpesa, with a TXN reference; the booking is confirmed whatever its status and the others are unchanged |
| PaymentPage.PostAlwaysPays | parent/payment.php:34-48 | every POST adds a completed payment, even for a booking already paid |
| PaymentPage.FirstPayment | parent/payment.php:28 | a payment row for the booking, none iff the booking has no payment |
| PaymentPage.FirstPaymentAfterPost | parent/payment.php:43-56 | after a POST the first payment is the earlier one if any, else the new one |
| PaymentPage.PostShowsFirstPayment | parent/payment.php:56 | the page then shows that payment; with no earlier payment the form is hidden |
| PaymentPage.BookingsOnConfirm | parent/payment.php:48 | confirming changes no trip's booking count |
| PaymentPage.PaymentKeepsSeatLedger | parent/payment.php:48 | trips and booking counts are unchanged by a payment |
| PaymentPage.PaymentKeepsValid | parent/payment.php:43-51 | a POST keeps the store valid |
| PaymentPage.BookThenPay | parent/payment.php:14-28 | the redirect after a booking leads to a page that finds the new booking and has no payment for it yet |
| PaymentPage.NextBookingIdTruthy | parent/payment.php:8 | the decimal text of a booking id a valid store hands out passes the `!$booking_id` check |
| PaymentPage.BookThenPayPage | parent/payment.php:3-61 | a successful booking POST redirects to payment.php with the new id, and that page, for the same session, is the view of the new booking with no payment and the form offered |
| RegisterPage.Trimmed | register.php:11-17 | password, confirmation, role and school id are passed on as sent |
| RegisterPage.TrimmedIdempotent | register.php:11-13 | trimming the fields again changes nothing |
| RegisterPage.Check | register.php:19-24 | missing field iff a field is empty in PHP's sense after trimming; then mismatch; then fewer than 6 bytes; passes iff none applies |
| RegisterPage.Page | register.php:10-33 | a refused form keeps the store and shows its message; otherwise register is called with the trimmed fields and the message of what it throws, or the success message, is shown |
| RegisterPage.PageAddsOneUser | register.php:25-31 | success iff every check passes, the address is new and the INSERT is accepted; then exactly one user built from the trimmed fields is added, otherwise nothing changes and an error is shown |
| RegisterPage.FailedInsertShowsDriverMessage | register.php:25-30 | a rejected INSERT shows "Query execution failed: " followed by the driver's message and adds no user |
| RegisterPage.StoredFieldsTrimmed | register.php:11-13 | the stored name, address and phone have no surrounding blanks |
| RegisterPage.PaddedZeroIsMissing | register.php:11-20 | a name of "0" with blanks around it counts as missing |
| RegisterPage.ThreeWideCharactersAreLongEnough | register.php:23 | three non-ASCII characters pass the 6-byte length check |
| RegisterPage.MissingFieldFirst | register.php:19-24 | an empty address is reported before any password problem |
| RegisterPage.RegisteredCanLogin | register.php:25-28 | the new account logs in with the trimmed address and the password |
| RegisterPage.PageKeepsValid | register.php:25-31 | the page keeps the store valid |
| Landing.Index | index.php:5-21 | landing page iff not logged in; parent, sacco and admin go to their dashboards; any other role, or a missing user row, goes to login.php |
| Landing.RedirectPassesGuard | index.php:7-16 | the dashboard chosen lets the same session past its role guard |
| Landing.CachedRoleIgnored | index.php:6-7 | the role cached in the session plays no part |
| Landing.ServerAndClientDisagreeOnUnknownRoles | index.php:17-18 | on a role outside the three, the server sends the user to login.php while the browser script picks the parent dashboard |

## Left out

- The DOM, Bootstrap, modals, tooltips, scrolling, printing and the Blob download are not modelled. A table is a sequence of rows of cell texts.
- Timers are not modelled: debounce, throttle, setTimeout, setInterval and the simulated API delays.
- Random values, the clock and the network are parameters. This covers updateRecentActivity's draw and item, `time()` and `rand()` in the transaction reference, and the current date.
- showRandomNotification, updateDashboardStats and generateId are left out. They are random by design.
- formatCurrency, formatDate and formatTime are left out because they depend on locale and floating point.
- The sort comparator (parseFloat and localeCompare) is an abstract parameter `cmp`.
- toLowerCase is modelled on ASCII letters only. Other letters are kept as they are.
- Lookups in object literals (getStatusColor, redirectToDashboard, the demo credentials) also find inherited keys such as "constructor". The model treats those keys as absent.
- password_hash and password_verify are not modelled. The stored hash is an argument and verification is a parameter.
- localStorage and JSON are not modelled. The stored session is a record. A login time `new Date` cannot read is `None`, and such a session never expires.
- Request ids are natural numbers. MySQL's lenient conversion of strings such as "12abc" to numbers is not modelled. The payment page's booking_id is read as a plain decimal.
- E-mail lookups compare exactly. MySQL collations that ignore letter case are not modelled.
- Foreign keys are assumed enforced. A booking insert for a missing trip or student fails with "Query execution failed: " followed by the driver's message.
- The catch branch of the payment POST (parent/payment.php:58-60) is not modelled. With the booking found, its inserts cannot fail under the foreign keys.
- BookTrip.SeatsCanGoNegative: assumes the `available_seats` column is signed, so `available_seats - 1` at 0 stores -1. The schema is not part of this model. With an UNSIGNED column in strict mode, MySQL would reject the update, and the booking would fail inside the try instead.
- Equal departure date and time leave the SQL order open. The model fixes the stable order.
- logout in includes/auth.php only destroys the session and redirects. The schools query of register.php and the HTML rendering are left out.
- includes/db.php getCount and the three dashboard pages are left out. They are read-only projections, and getCount returns the result's row count rather than the count.
- Concurrency is left out. One request is one atomic step, so the race between the duplicate check, the insert and the seat update is not modelled.
- ClientSession.CheckAuthStatus compares elapsed milliseconds with the limit in whole milliseconds. The floating-point division by 3,600,000 in the script is not modelled.
- Tables.JsParseIntRoundTrip: numbers are exact integers here, while parseInt returns a double. In the browser the round trip holds only below 2^53, and a count of 10^21 or more is written as "1e+21" and read back as 1.
- Tables.ReadCount: the reading is an exact integer; parseInt returns a double, which rounds numbers from 2^53 on.
- Tables.JsParseIntStopsAtNonDigit: the same gap; the prefix is read exactly only below 2^53.
- Tables.UpdateNotificationCount: the count is an exact integer; the script's double cannot hold counts from 2^53 on exactly.
- Tables.TwoClicks: holds in the browser only for counts below 2^53, for the same reason.
- Tables.UpdateNotificationBadge: the read-back holds in the browser only for counts of magnitude below 2^53.
- Tables.BadgesAgree: holds in the browser only for counts below 2^53, for the same reason. It also assumes that app.js's `.notification-badge` (assets/js/app.js:147) and dashboard.js's `.navbar .badge` (assets/js/dashboard.js:204) select the same element. No page markup is part of this model, so the lemma relates the two functions, not two elements.
- Tables.ColumnOfIndex: holds in the browser only for indexes below 2^53, for the same reason.
- Forms.FeedbackMatchesMark: each input has its own feedback slot. The script finds the message through the input's parent element, so two required inputs under one parent share one message, and the later input's pass can remove the earlier one's fresh message. The lemma holds when every required input has a parent of its own.
- Forms.ValidateFormIgnoresOldMarks: the same one-input-per-parent assumption.
- Forms.Revalidate: the same one-input-per-parent assumption.
- ServerAuth.UnreadCount: its own contract only bounds the count. What the count means is stated by ServerAuth.AddNotificationCounts and ServerAuth.MarkReadCounts.
- Tables.SortTable: the comparator reads the clicked cell of every row it compares (assets/js/dashboard.js:85-86). A body row with no cell at that index, in a table of two or more rows, throws a TypeError after `data-sort-order` has flipped (:82), so the rows and the header marks stay as they were. The model assumes every row has the clicked cell and always permutes the rows and marks the header.
- The code has none of these guards:
  - seats are decremented without a lower bound;
  - a payment confirms a booking whatever its status;
  - a payment POST does not check for an earlier payment;
  - the duplicate check also counts cancelled bookings.

## Findings

| source | as written | input that shows it | evidently intended | confidence | as-written member | corrected member |
|---|---|---|---|---|---|---|
| assets/js/app.js:122 | each cell is written as `"` + text + `"`, and a `"` inside the text is not doubled | a one-cell table whose text is `a"b` exports `"a"b"`, which a CSV reader following section 2, rule 7 of RFC 4180 does not read back as `a"b` | quotes inside a field doubled, so the file reads back as the table | not executed | Csv.ExportAsWrittenLosesQuotes | Csv.ExportRoundTrip |
| assets/js/dashboard.js:351 | the same quoting, on the trimmed text | the same one-cell table | the same | not executed | Csv.ExportAsWrittenLosesQuotes | Csv.ExportRoundTrip |
| assets/js/dashboard.js:266 | inside the block of the 30% draw, `activities` is read before the block's own `const activities` further down, which is a ReferenceError (temporal dead zone) | any pass of the timer whose draw fires | read the outer list of three activities, with the inner binding renamed, so that the item is inserted and the list capped at five | high, not executed | Tables.RecentActivityNeverAdds | Tables.UpdateRecentActivityFixed |
| assets/js/dashboard.js:296 | the search listener is wrapped in debounce, whose delayed call `func(...args)` (assets/js/main.js:210) leaves `this` unbound, so `this.value.toLowerCase()` throws a TypeError | typing any text into a search box over a table with a row that does not contain it | read the value from the event's target (or bind `this` in debounce), so the table is filtered | high, not executed | Tables.SearchListenerNeverFilters | Tables.Search |

=== FILE: book_trip.dfy ===
/** parent/book-trip.php: the lists a parent chooses from, and the POST
    that books a trip for a student. The POST reads, inserts and updates
    with no transaction; here one request is one step. Nothing bounds the
    seat count from below and the student's owner is not checked: the
    model keeps both gaps. */
module BookTrip {
  import opened Common
  import opened Store
  import ServerAuth
  import Sorting

  // ---------------------------------------------------------------------
  // The lists
  // ---------------------------------------------------------------------

  /** A student row survives the join with schools when its school exists. */
  predicate ListedStudent(st: Store, parentId: nat, s: Student) {
    s.parentId == parentId && s.schoolId in st.schools
  }

  /** The students offered: the parent's own, in storage order. */
  function ListStudents(st: Store, parentId: nat): (r: seq<Student>)
    ensures forall i :: 0 <= i < |r| ==> r[i] in st.students && ListedStudent(st, parentId, r[i])
    ensures forall k :: 0 <= k < |st.students| && ListedStudent(st, parentId, st.students[k]) ==>
      st.students[k] in r
  {
    Filter(st.students, (s: Student) => ListedStudent(st, parentId, s))
  }

  /** A trip row is listed when it departs today or later, has a seat left,
      and its sacco, vehicle and driver rows exist (the joins). */
  predicate ListedTrip(st: Store, today: int, t: Trip) {
    && t.departureDate >= today && t.availableSeats > 0
    && UserById(st, t.saccoId).Some? && t.vehicleId in st.vehicles && t.driverId in st.drivers
  }

  /** ORDER BY departure_date, departure_time. */
  function DepartsNoLater(a: Trip, b: Trip): bool {
    a.departureDate < b.departureDate
    || (a.departureDate == b.departureDate && a.departureTime <= b.departureTime)
  }

  /** The trips offered. Rows with equal date and time may come in any
      order; the model fixes one. */
  function ListTrips(st: Store, today: int): (r: seq<Trip>)
    ensures multiset(r) == multiset(Filter(st.trips, (t: Trip) => ListedTrip(st, today, t)))
  {
    Sorting.Sort(Filter(st.trips, (t: Trip) => ListedTrip(st, today, t)), DepartsNoLater)
  }

  /** Exactly the trips departing from today with a seat left are listed. */
  lemma ListTripsMembers(st: Store, today: int)
    ensures forall i :: 0 <= i < |ListTrips(st, today)| ==>
      ListTrips(st, today)[i] in st.trips && ListedTrip(st, today, ListTrips(st, today)[i])
    ensures forall k :: 0 <= k < |st.trips| && ListedTrip(st, today, st.trips[k]) ==> st.trips[k] in ListTrips(st, today)
  {
    var listed := Filter(st.trips, (t: Trip) => ListedTrip(st, today, t));
    var r := ListTrips(st, today);
    assert multiset(r) == multiset(listed);
    SameMembers(r, listed);
  }

  /** Sequences with the same multiset have the same members. */
  lemma SameMembers<T>(a: seq<T>, b: seq<T>)
    requires multiset(a) == multiset(b)
    ensures forall i :: 0 <= i < |a| ==> a[i] in b
    ensures forall k :: 0 <= k < |b| ==> b[k] in a
  {
    forall i | 0 <= i < |a| ensures a[i] in b {
      assert a[i] in multiset(a);
    }
    forall k | 0 <= k < |b| ensures b[k] in a {
      assert b[k] in multiset(b);
    }
  }

  lemma DepartsNoLaterIsOrder()
    ensures Sorting.Total(DepartsNoLater) && Sorting.Transitive(DepartsNoLater)
  {
  }

  /** The trips come earliest first. */
  lemma ListTripsOrdered(st: Store, today: int)
    ensures Sorting.SortedBy(ListTrips(st, today), DepartsNoLater)
  {
    DepartsNoLaterIsOrder();
    Sorting.SortSorted(Filter(st.trips, (t: Trip) => ListedTrip(st, today, t)), DepartsNoLater);
  }

  // ---------------------------------------------------------------------
  // The POST
  // ---------------------------------------------------------------------

  const AlreadyBooked := "This student is already booked for this trip."
  const BookedNotice := "Booking created successfully. Please proceed to payment."

  /** Why a POST failed: the duplicate check, or an exception from the
      insert carrying the driver's message. */
  datatype BookFailure = Duplicate | QueryError(driverMessage: string)

  /** The message the page shows for a failure. */
  function FailureMessage(f: BookFailure): string {
    match f
    case Duplicate => AlreadyBooked
    case QueryError(m) => QueryFailed + m
  }

  datatype BookOutcome =
    | Booked(store: Store, bookingId: nat, location: string)
    | BookFailed(store: Store, failure: BookFailure)

  /** Some booking already exists for this trip and student, whatever its
      status. */
  predicate AlreadyHasBooking(st: Store, tripId: nat, studentId: nat) {
    First(st.bookings, (b: Booking) => b.tripId == tripId && b.studentId == studentId).Some?
  }

  /** The insert is accepted by the foreign keys. */
  predicate InsertAccepted(st: Store, tripId: nat, studentId: nat) {
    TripById(st, tripId).Some? && StudentById(st, studentId).Some?
  }

  /** The booking a POST inserts. */
  function NewBooking(st: Store, parentId: nat, tripId: nat, studentId: nat): Booking {
    Booking(st.nextBookingId, tripId, studentId, parentId, Pending)
  }

  /** The handler, for the current parent `parentId`. `dbError` is what the
      database driver reports when the insert breaks a foreign key. */
  function BookTripPost(st: Store, parentId: nat, tripId: nat, studentId: nat, dbError: string): (r: BookOutcome)
    ensures r.BookFailed? ==> r.store == st
    ensures r.BookFailed? && r.failure == Duplicate <==> AlreadyHasBooking(st, tripId, studentId)
    ensures r.BookFailed? && r.failure != Duplicate ==> r.failure == QueryError(dbError)
    ensures r.Booked? <==> !AlreadyHasBooking(st, tripId, studentId) && InsertAccepted(st, tripId, studentId)
    ensures r.Booked? ==>
      && r.bookingId == st.nextBookingId
      && r.store.bookings == st.bookings + [NewBooking(st, parentId, tripId, studentId)]
      && r.store.trips == DecrementSeats(st.trips, tripId)
      && r.store.notifications == st.notifications + [Notification(st.nextNotificationId, parentId, BookedNotice, "success", false)]
      && r.store == st.(bookings := r.store.bookings, trips := r.store.trips, notifications := r.store.notifications,
                        nextBookingId := st.nextBookingId + 1, nextNotificationId := st.nextNotificationId + 1)
      && r.location == "payment.php?booking_id=" + NatToString(r.bookingId)
  {
    if AlreadyHasBooking(st, tripId, studentId) then BookFailed(st, Duplicate)
    else if !InsertAccepted(st, tripId, studentId) then BookFailed(st, QueryError(dbError))
    else
      var b := NewBooking(st, parentId, tripId, studentId);
      var st1 := st.(bookings := st.bookings + [b], nextBookingId := st.nextBookingId + 1);
      var st2 := st1.(trips := DecrementSeats(st1.trips, tripId));
      var found := First(st2.bookings, (x: Booking) => x.tripId == tripId && x.studentId == studentId && x.parentId == parentId);
      assert found == Some(b) by {
        FirstOfAppended(st.bookings, b, tripId, studentId, parentId);
      }
      var id := found.value.id;
      var st3 := ServerAuth.AddNotification(st2, parentId, BookedNotice, "success");
      Booked(st3, id, "payment.php?booking_id=" + NatToString(id))
  }

  /** After a failed duplicate check, the booking looked up again is the one
      just inserted. */
  lemma FirstOfAppended(bs: seq<Booking>, b: Booking, tripId: nat, studentId: nat, parentId: nat)
    requires First(bs, (x: Booking) => x.tripId == tripId && x.studentId == studentId).None?
    requires b.tripId == tripId && b.studentId == studentId && b.parentId == parentId
    ensures First(bs + [b], (x: Booking) => x.tripId == tripId && x.studentId == studentId && x.parentId == parentId) == Some(b)
  {
    var p := (x: Booking) => x.tripId == tripId && x.studentId == studentId && x.parentId == parentId;
    var i := FirstIndex(bs + [b], p);
    assert p((bs + [b])[|bs|]);
    assert i == Some(|bs|) by {
      assert forall k :: 0 <= k < |bs| ==> !p((bs + [b])[k]);
    }
  }

  // ---------------------------------------------------------------------
  // What the POST guarantees and what it does not
  // ---------------------------------------------------------------------

  /** The available seats of the first trip row with an id. */
  function SeatsOf(st: Store, tripId: nat): int {
    match TripById(st, tripId)
    case None => 0
    case Some(t) => t.availableSeats
  }

  lemma FirstIndexSameIds(xs: seq<Trip>, ys: seq<Trip>, tid: nat)
    requires |xs| == |ys|
    requires forall k :: 0 <= k < |xs| ==> xs[k].id == ys[k].id
    ensures FirstIndex(xs, (t: Trip) => t.id == tid) == FirstIndex(ys, (t: Trip) => t.id == tid)
  {
  }

  /** One booking, one seat: for every trip, available seats plus the
      bookings on it stay the same across a POST. */
  lemma SeatLedger(st: Store, parentId: nat, tripId: nat, studentId: nat, dbError: string, tid: nat)
    ensures var r := BookTripPost(st, parentId, tripId, studentId, dbError);
            SeatsOf(r.store, tid) + BookingsOn(r.store.bookings, tid) == SeatsOf(st, tid) + BookingsOn(st.bookings, tid)
  {
    var r := BookTripPost(st, parentId, tripId, studentId, dbError);
    if r.Booked? {
      var b := NewBooking(st, parentId, tripId, studentId);
      BookingsOnAppend(st.bookings, b, tid);
      FirstIndexSameIds(st.trips, r.store.trips, tid);
      var p := (t: Trip) => t.id == tid;
      var i := FirstIndex(st.trips, p);
      if i.Some? {
        assert r.store.trips[i.value] == if tid == tripId then st.trips[i.value].(availableSeats := st.trips[i.value].availableSeats - 1) else st.trips[i.value];
      } else {
        assert TripById(st, tripId).Some?;
        assert tid != tripId;
      }
    }
  }

  /** No lower bound: booking a trip with no seat left succeeds, provided
      the trip and the student exist, and leaves it at -1. */
  lemma SeatsCanGoNegative(st: Store, parentId: nat, tripId: nat, studentId: nat, dbError: string)
    requires !AlreadyHasBooking(st, tripId, studentId) && InsertAccepted(st, tripId, studentId)
    requires SeatsOf(st, tripId) == 0
    ensures BookTripPost(st, parentId, tripId, studentId, dbError).Booked?
    ensures SeatsOf(BookTripPost(st, parentId, tripId, studentId, dbError).store, tripId) == -1
  {
    SeatLedger(st, parentId, tripId, studentId, dbError, tripId);
    BookingsOnAppend(st.bookings, NewBooking(st, parentId, tripId, studentId), tripId);
  }

  /** Ownership is not checked: a parent can book another parent's student,
      and the booking is recorded under the parent who posted. */
  lemma OtherParentsStudentIsBooked(st: Store, parentId: nat, tripId: nat, studentId: nat, dbError: string)
    requires !AlreadyHasBooking(st, tripId, studentId) && InsertAccepted(st, tripId, studentId)
    requires StudentById(st, studentId).value.parentId != parentId
    ensures var r := BookTripPost(st, parentId, tripId, studentId, dbError);
            r.Booked? && r.store.bookings[|st.bookings|].parentId == parentId
            && r.store.bookings[|st.bookings|].parentId != StudentById(st, studentId).value.parentId
  {
  }

  /** A cancelled booking still blocks booking the same student again. */
  lemma CancelledBookingBlocks(st: Store, parentId: nat, k: nat, dbError: string)
    requires k < |st.bookings| && st.bookings[k].status == Cancelled
    ensures var b := st.bookings[k];
            BookTripPost(st, parentId, b.tripId, b.studentId, dbError) == BookFailed(st, Duplicate)
  {
    var b := st.bookings[k];
    assert (b.tripId == b.tripId && b.studentId == b.studentId);
    var p := (x: Booking) => x.tripId == b.tripId && x.studentId == b.studentId;
    assert p(st.bookings[k]);
  }

  /** A second POST for the same trip and student is refused. */
  lemma SecondPostRefused(st: Store, parentId: nat, tripId: nat, studentId: nat, dbError: string, dbError2: string)
    requires BookTripPost(st, parentId, tripId, studentId, dbError).Booked?
    ensures var st2 := BookTripPost(st, parentId, tripId, studentId, dbError).store;
            BookTripPost(st2, parentId, tripId, studentId, dbError2) == BookFailed(st2, Duplicate)
  {
    var st2 := BookTripPost(st, parentId, tripId, studentId, dbError).store;
    var p := (x: Booking) => x.tripId == tripId && x.studentId == studentId;
    assert p(st2.bookings[|st.bookings|]);
  }

  /** The location names the new booking's id in decimal. */
  lemma LocationNamesBooking(st: Store, parentId: nat, tripId: nat, studentId: nat, dbError: string)
    requires BookTripPost(st, parentId, tripId, studentId, dbError).Booked?
    ensures var r := BookTripPost(st, parentId, tripId, studentId, dbError);
            var prefix := "payment.php?booking_id=";
            r.location[..|prefix|] == prefix
            && ParseDecimal(r.location[|prefix|..]) == Some(r.bookingId)
  {
    var r := BookTripPost(st, parentId, tripId, studentId, dbError);
    ParseDecimalRoundTrip(r.bookingId);
    assert r.location[|"payment.php?booking_id="|..] == NatToString(r.bookingId);
  }

  lemma BookedBookingIdsOk(st: Store, parentId: nat, tripId: nat, studentId: nat, dbError: string)
    requires BookingIdsOk(st) && BookTripPost(st, parentId, tripId, studentId, dbError).Booked?
    ensures BookingIdsOk(BookTripPost(st, parentId, tripId, studentId, dbError).store)
  {
    var st2 := BookTripPost(st, parentId, tripId, studentId, dbError).store;
    var b := NewBooking(st, parentId, tripId, studentId);
    assert st2.bookings == st.bookings + [b] && st2.nextBookingId == st.nextBookingId + 1;
    AppendedIdsOk(st.bookings, b, st.nextBookingId);
  }

  /** A row appended under the next id keeps the ids in range and
      distinct. */
  lemma AppendedIdsOk(bs: seq<Booking>, b: Booking, next: nat)
    requires next >= 1
    requires forall i :: 0 <= i < |bs| ==> 1 <= bs[i].id < next
    requires forall i, j :: 0 <= i < j < |bs| ==> bs[i].id != bs[j].id
    requires b.id == next
    ensures forall i :: 0 <= i < |bs + [b]| ==> 1 <= (bs + [b])[i].id < next + 1
    ensures forall i, j :: 0 <= i < j < |bs + [b]| ==> (bs + [b])[i].id != (bs + [b])[j].id
  {
    var cs := bs + [b];
    assert forall k :: 0 <= k < |bs| ==> cs[k] == bs[k];
  }

  lemma BookedNotificationIdsOk(st: Store, parentId: nat, tripId: nat, studentId: nat, dbError: string)
    requires NotificationIdsOk(st) && BookTripPost(st, parentId, tripId, studentId, dbError).Booked?
    ensures NotificationIdsOk(BookTripPost(st, parentId, tripId, studentId, dbError).store)
  {
    var st2 := BookTripPost(st, parentId, tripId, studentId, dbError).store;
    assert forall k :: 0 <= k < |st.notifications| ==> st2.notifications[k] == st.notifications[k];
  }

  lemma BookedTripIdsOk(st: Store, parentId: nat, tripId: nat, studentId: nat, dbError: string)
    requires StudentAndTripIdsOk(st) && BookTripPost(st, parentId, tripId, studentId, dbError).Booked?
    ensures StudentAndTripIdsOk(BookTripPost(st, parentId, tripId, studentId, dbError).store)
  {
    var st2 := BookTripPost(st, parentId, tripId, studentId, dbError).store;
    assert forall k :: 0 <= k < |st2.trips| ==> st2.trips[k].id == st.trips[k].id;
  }

  lemma BookedReferencesOk(st: Store, parentId: nat, tripId: nat, studentId: nat, dbError: string)
    requires Valid(st) && HasUser(st, parentId) && BookTripPost(st, parentId, tripId, studentId, dbError).Booked?
    ensures ReferencesOk(BookTripPost(st, parentId, tripId, studentId, dbError).store)
  {
    var st2 := BookTripPost(st, parentId, tripId, studentId, dbError).store;
    BookedKeepsRows(st, parentId, tripId, studentId, dbError);
    BookedBookingRefsOk(st, parentId, tripId, studentId, dbError);
    forall i | 0 <= i < |st2.payments| ensures HasBooking(st2, st2.payments[i].bookingId) {
      assert st2.payments[i] == st.payments[i];
    }
    forall i | 0 <= i < |st2.notifications| ensures HasUser(st2, st2.notifications[i].toUserId) {
      if i < |st.notifications| {
        assert st2.notifications[i] == st.notifications[i];
      }
    }
  }

  /** Every trip, booking and user row present before a booking is still
      there after it. */
  lemma BookedKeepsRows(st: Store, parentId: nat, tripId: nat, studentId: nat, dbError: string)
    requires BookTripPost(st, parentId, tripId, studentId, dbError).Booked?
    ensures var st2 := BookTripPost(st, parentId, tripId, studentId, dbError).store;
            && st2.users == st.users && st2.students == st.students
            && (forall id :: HasTrip(st, id) ==> HasTrip(st2, id))
            && (forall id :: HasBooking(st, id) ==> HasBooking(st2, id))
  {
    var st2 := BookTripPost(st, parentId, tripId, studentId, dbError).store;
    forall id | HasTrip(st, id) ensures HasTrip(st2, id) {
      DecrementSeatsKeepsTrips(st, tripId, id);
    }
    forall id | HasBooking(st, id) ensures HasBooking(st2, id) {
      var k :| 0 <= k < |st.bookings| && st.bookings[k].id == id;
      assert st2.bookings[k].id == id;
    }
  }

  /** The booking rows, old and new, reference existing rows. */
  lemma BookedBookingRefsOk(st: Store, parentId: nat, tripId: nat, studentId: nat, dbError: string)
    requires Valid(st) && HasUser(st, parentId) && BookTripPost(st, parentId, tripId, studentId, dbError).Booked?
    ensures var st2 := BookTripPost(st, parentId, tripId, studentId, dbError).store;
            forall i :: 0 <= i < |st2.bookings| ==>
              HasTrip(st2, st2.bookings[i].tripId) && HasStudent(st2, st2.bookings[i].studentId)
              && HasUser(st2, st2.bookings[i].parentId)
  {
    var st2 := BookTripPost(st, parentId, tripId, studentId, dbError).store;
    BookedKeepsRows(st, parentId, tripId, studentId, dbError);
    assert HasTrip(st, tripId) by {
      var i := FirstIndex(st.trips, (t: Trip) => t.id == tripId);
      assert st.trips[i.value].id == tripId;
    }
    assert HasStudent(st, studentId) by {
      var i := FirstIndex(st.students, (s: Student) => s.id == studentId);
      assert st.students[i.value].id == studentId;
    }
    forall i | 0 <= i < |st2.bookings|
      ensures HasTrip(st2, st2.bookings[i].tripId) && HasStudent(st2, st2.bookings[i].studentId)
              && HasUser(st2, st2.bookings[i].parentId)
    {
      if i < |st.bookings| {
        assert st2.bookings[i] == st.bookings[i];
      }
    }
  }

  /** A POST keeps the store's integrity. */
  lemma BookTripKeepsValid(st: Store, parentId: nat, tripId: nat, studentId: nat, dbError: string)
    requires Valid(st) && HasUser(st, parentId)
    ensures Valid(BookTripPost(st, parentId, tripId, studentId, dbError).store)
  {
    var o := BookTripPost(st, parentId, tripId, studentId, dbError);
    if o.Booked? {
      assert o.store.users == st.users && o.store.nextUserId == st.nextUserId;
      assert o.store.payments == st.payments && o.store.nextPaymentId == st.nextPaymentId;
      assert UserIdsOk(o.store) && PaymentIdsOk(o.store);
      BookedBookingIdsOk(st, parentId, tripId, studentId, dbError);
      BookedNotificationIdsOk(st, parentId, tripId, studentId, dbError);
      BookedTripIdsOk(st, parentId, tripId, studentId, dbError);
      BookedReferencesOk(st, parentId, tripId, studentId, dbError);
    }
  }

  // ---------------------------------------------------------------------
  // The page
  // ---------------------------------------------------------------------

  /** A POST names a trip and a student by id. */
  datatype BookRequest = BookRequest(tripId: nat, studentId: nat)

  datatype BookPage =
    | BookRedirect(store: Store, location: string)
    | BookForm(store: Store, message: string, students: seq<Student>, trips: seq<Trip>)

  /** The whole request: the role guard, the lists (read before the POST is
      handled), then the POST if there is one. */
  function BookTripPage(st: Store, sess: Session, today: int, post: Option<BookRequest>, dbError: string): (r: BookPage)
    ensures ServerAuth.RequireRole(st, sess, "parent") != ServerAuth.Proceed ==>
      r == BookRedirect(st, ServerAuth.RequireRole(st, sess, "parent").location)
    ensures r.BookForm? ==> r.store == st
    ensures r.BookForm? && post.None? ==> r.message == ""
    ensures ServerAuth.RequireRole(st, sess, "parent") == ServerAuth.Proceed && r.BookForm? ==>
      var u := ServerAuth.GetCurrentUser(st, sess).value;
      r.students == ListStudents(st, u.id) && r.trips == ListTrips(st, today)
    ensures ServerAuth.RequireRole(st, sess, "parent") == ServerAuth.Proceed && post.None? ==> r.BookForm?
    ensures ServerAuth.RequireRole(st, sess, "parent") == ServerAuth.Proceed && post.Some? ==>
      var u := ServerAuth.GetCurrentUser(st, sess).value;
      var o := BookTripPost(st, u.id, post.value.tripId, post.value.studentId, dbError);
      && (o.Booked? ==> r == BookRedirect(o.store, o.location))
      && (o.BookFailed? ==> r.BookForm? && r.message == FailureMessage(o.failure))
  {
    match ServerAuth.RequireRole(st, sess, "parent")
    case RedirectTo(l) => BookRedirect(st, l)
    case Proceed =>
      var u := ServerAuth.GetCurrentUser(st, sess).value;
      var students := ListStudents(st, u.id);
      var trips := ListTrips(st, today);
      match post
      case None => BookForm(st, "", students, trips)
      case Some(req) =>
        match BookTripPost(st, u.id, req.tripId, req.studentId, dbError)
        case Booked(st2, _, location) => BookRedirect(st2, location)
        case BookFailed(_, failure) => BookForm(st, FailureMessage(failure), students, trips)
  }
}

=== FILE: client_session.dfy ===
/** The browser-side login of assets/js/auth.js: the role guessed from an
    e-mail address, the dashboard each role is sent to, the session record
    kept in local storage and its expiry rule. */
module ClientSession {
  import opened Common
  import Forms

  /** getUserRoleFromEmail: the first of "parent", "sacco", "admin" that
      occurs in the address, and "parent" when none does. */
  function RoleFromEmail(email: string): (r: string)
    ensures r == "parent" || r == "sacco" || r == "admin"
    ensures r == "sacco" <==> !Contains(email, "parent") && Contains(email, "sacco")
    ensures r == "admin" <==>
      !Contains(email, "parent") && !Contains(email, "sacco") && Contains(email, "admin")
    ensures r == "parent" <==>
      Contains(email, "parent") || (!Contains(email, "sacco") && !Contains(email, "admin"))
  {
    if Contains(email, "parent") then "parent"
    else if Contains(email, "sacco") then "sacco"
    else if Contains(email, "admin") then "admin"
    else "parent"
  }

  const ParentDashboard := "dashboards/parent-dashboard.html"
  const SaccoDashboard := "dashboards/sacco-dashboard.html"
  const AdminDashboard := "dashboards/admin-dashboard.html"

  /** redirectToDashboard: the page a role is sent to; any role other than
      the three known ones goes to the parent dashboard. */
  function DashboardFor(role: string): (page: string)
    ensures page == SaccoDashboard <==> role == "sacco"
    ensures page == AdminDashboard <==> role == "admin"
    ensures page == ParentDashboard <==> role != "sacco" && role != "admin"
  {
    if role == "parent" then ParentDashboard
    else if role == "sacco" then SaccoDashboard
    else if role == "admin" then AdminDashboard
    else ParentDashboard
  }

  /** The record handleLogin stores under `currentUser`. The login time is
      kept as milliseconds since the epoch; `None` stands for a time string
      that `new Date` cannot read. */
  datatype StoredUser = StoredUser(email: string, role: string, loginTime: Option<int>, rememberMe: bool)

  const HourMs: int := 1000 * 60 * 60

  /** How long a session lasts: 24 hours when remembered, else 1 hour. */
  function MaxAgeMs(rememberMe: bool): (ms: int)
    ensures ms == (if rememberMe then 24 else 1) * 3_600_000
  {
    (if rememberMe then 24 else 1) * HourMs
  }

  /** `hoursDiff > maxHours`. A time `new Date` cannot read gives NaN, and
      every comparison with NaN is false, so such a session never expires. */
  predicate Expired(u: StoredUser, now: int) {
    u.loginTime.Some? && now - u.loginTime.value > MaxAgeMs(u.rememberMe)
  }

  /** The outcome of checkAuthStatus: the user it returns (or false), the
      stored record afterwards, and whether logout ran. */
  datatype AuthStatus = AuthStatus(current: Option<StoredUser>, stored: Option<StoredUser>, loggedOut: bool)

  /** checkAuthStatus. */
  function CheckAuthStatus(stored: Option<StoredUser>, now: int): (r: AuthStatus)
    ensures r.current.Some? <==> stored.Some? && !Expired(stored.value, now)
    ensures r.current.Some? ==> r.current == stored && r.stored == stored
    ensures r.loggedOut <==> stored.Some? && Expired(stored.value, now)
    ensures r.loggedOut ==> r.stored.None? && r.current.None?
    ensures stored.None? ==> r == AuthStatus(None, None, false)
  {
    match stored
    case None => AuthStatus(None, None, false)
    case Some(u) =>
      if Expired(u, now) then AuthStatus(None, None, true)
      else AuthStatus(Some(u), Some(u), false)
  }

  /** The record handleLogin stores: the demo role if one was given,
      otherwise the role guessed from the address. */
  function HandleLogin(email: string, rememberMe: bool, demoRole: Option<string>, now: int): (u: StoredUser)
    ensures u.email == email && u.loginTime == Some(now) && u.rememberMe == rememberMe
    ensures demoRole.Some? && demoRole.value != "" ==> u.role == demoRole.value
    ensures demoRole.None? || demoRole.value == "" ==> u.role == RoleFromEmail(email)
  {
    var role := if demoRole.Some? && demoRole.value != "" then demoRole.value else RoleFromEmail(email);
    StoredUser(email, role, Some(now), rememberMe)
  }

  /** A session is still valid during the hour after login, and during the
      whole day after it when remembered; it is expired afterwards. */
  lemma SessionLifetime(email: string, rememberMe: bool, demoRole: Option<string>, login: int, now: int)
    requires login <= now
    ensures var u := HandleLogin(email, rememberMe, demoRole, login);
            CheckAuthStatus(Some(u), now).current.Some?
            <==> now - login <= (if rememberMe then 24 else 1) * 3_600_000
  {
  }

  /** Once a session has expired it stays expired. */
  lemma ExpiryIsPermanent(u: StoredUser, t: int, later: int)
    requires Expired(u, t) && t <= later
    ensures CheckAuthStatus(Some(u), later).loggedOut
  {
  }

  /** Logging out is final: after an expired check nothing is stored, so the
      next check finds no session. */
  lemma LogoutClearsSession(u: StoredUser, t: int, later: int)
    requires Expired(u, t)
    ensures CheckAuthStatus(CheckAuthStatus(Some(u), t).stored, later).current.None?
  {
  }

  /** The login form's submit listener: validate, then store the session and
      go to the dashboard of the role guessed from the address. */
  datatype LoginSubmit = LoginBlocked | LoggedIn(user: StoredUser, dashboard: string)

  function SubmitLogin(form: seq<Forms.Field>, email: string, rememberMe: bool, now: int): (r: LoginSubmit)
    ensures r.LoggedIn? <==> Forms.ValidateForm(form).valid
    ensures r.LoggedIn? ==> r.user.role == RoleFromEmail(email) && r.dashboard == DashboardFor(r.user.role)
    ensures r.LoggedIn? ==> CheckAuthStatus(Some(r.user), now).current == Some(r.user)
  {
    if !Forms.ValidateForm(form).valid then LoginBlocked
    else
      var u := HandleLogin(email, rememberMe, None, now);
      LoggedIn(u, DashboardFor(u.role))
  }

  /** A user sent to a dashboard by the guessed role lands on the dashboard
      the address names first. */
  lemma GuessedRoleDashboard(email: string)
    ensures Contains(email, "parent") ==> DashboardFor(RoleFromEmail(email)) == ParentDashboard
    ensures !Contains(email, "parent") && Contains(email, "sacco") ==>
      DashboardFor(RoleFromEmail(email)) == SaccoDashboard
  {
  }
}

=== FILE: common.dfy ===
/** Shared vocabulary of the model: optional and fallible results, the
    character classes the browser scripts and the PHP pages test, trimming,
    substring search, string lengths as JavaScript and PHP count them, and
    decimal rendering and parsing of numbers. */
module Common {

  datatype Option<+T> = None | Some(value: T)

  datatype Result<+T, +E> = Ok(value: T) | Err(error: E)

  // ---------------------------------------------------------------------
  // Character classes
  // ---------------------------------------------------------------------

  /** The characters JavaScript's `\s` and `String.prototype.trim` treat as
      white space: the WhiteSpace and LineTerminator productions of
      ECMAScript (tab, line feed, vertical tab, form feed, carriage return,
      space, no-break space, the Zs category, line and paragraph separators,
      and the byte-order mark). */
  predicate IsJsSpace(c: char) {
    || c == '\t' || c == '\n' || c == '\U{0B}' || c == '\U{0C}' || c == '\r'
    || c == ' ' || c == '\U{A0}' || c == '\U{1680}'
    || ('\U{2000}' <= c <= '\U{200A}')
    || c == '\U{2028}' || c == '\U{2029}' || c == '\U{202F}' || c == '\U{205F}'
    || c == '\U{3000}' || c == '\U{FEFF}'
  }

  /** The characters PHP's `trim` strips when given no character list:
      space, tab, line feed, carriage return, NUL and vertical tab. */
  predicate IsPhpTrimChar(c: char) {
    c == ' ' || c == '\t' || c == '\n' || c == '\r' || c == '\0' || c == '\U{0B}'
  }

  predicate IsDigit(c: char) { '0' <= c <= '9' }
  predicate IsLower(c: char) { 'a' <= c <= 'z' }
  predicate IsUpper(c: char) { 'A' <= c <= 'Z' }

  predicate AllDigits(s: string) {
    forall i :: 0 <= i < |s| ==> IsDigit(s[i])
  }

  predicate HasCharWhere(s: string, p: char -> bool) {
    exists i :: 0 <= i < |s| && p(s[i])
  }

  /** Lower-casing of the ASCII letters; every other character is kept. */
  function LowerChar(c: char): (r: char)
    ensures IsUpper(c) ==> IsLower(r)
    ensures !IsUpper(c) ==> r == c
  {
    if IsUpper(c) then (c as int + 32) as char else c
  }

  function Lower(s: string): (r: string)
    ensures |r| == |s|
    ensures forall i :: 0 <= i < |s| ==> r[i] == LowerChar(s[i])
  {
    if s == [] then [] else [LowerChar(s[0])] + Lower(s[1..])
  }

  lemma LowerIdempotent(s: string)
    ensures Lower(Lower(s)) == Lower(s)
  {
  }

  lemma LowerAppend(a: string, b: string)
    ensures Lower(a + b) == Lower(a) + Lower(b)
  {
  }

  // ---------------------------------------------------------------------
  // Trimming
  // ---------------------------------------------------------------------

  /** Drops the leading characters that satisfy `ws`. */
  function TrimStart(s: string, ws: char -> bool): (r: string)
    ensures |r| <= |s| && r == s[|s| - |r|..]
    ensures forall k :: 0 <= k < |s| - |r| ==> ws(s[k])
    ensures r == [] || !ws(r[0])
  {
    if s != [] && ws(s[0]) then TrimStart(s[1..], ws) else s
  }

  /** Drops the trailing characters that satisfy `ws`. */
  function TrimEnd(s: string, ws: char -> bool): (r: string)
    ensures |r| <= |s| && r == s[..|r|]
    ensures forall k :: |r| <= k < |s| ==> ws(s[k])
    ensures r == [] || !ws(r[|r| - 1])
  {
    if s != [] && ws(s[|s| - 1]) then TrimEnd(s[..|s| - 1], ws) else s
  }

  function Trim(s: string, ws: char -> bool): (r: string)
    ensures exists i, j :: 0 <= i <= j <= |s| && r == s[i..j]
    ensures r == [] || (!ws(r[0]) && !ws(r[|r| - 1]))
    ensures r == [] <==> forall k :: 0 <= k < |s| ==> ws(s[k])
  {
    var a := TrimStart(s, ws);
    var b := TrimEnd(a, ws);
    assert b == s[|s| - |a|..|s| - |a| + |b|];
    b
  }

  /** `String.prototype.trim` of JavaScript. */
  function JsTrim(s: string): string {
    Trim(s, IsJsSpace)
  }

  /** PHP's `trim` with its default character list. */
  function PhpTrim(s: string): string {
    Trim(s, IsPhpTrimChar)
  }

  lemma {:induction false} TrimStartFixed(s: string, ws: char -> bool)
    requires s == [] || !ws(s[0])
    ensures TrimStart(s, ws) == s
  {
  }

  lemma {:induction false} TrimEndFixed(s: string, ws: char -> bool)
    requires s == [] || !ws(s[|s| - 1])
    ensures TrimEnd(s, ws) == s
  {
  }

  /** Trimming twice is trimming once. */
  lemma TrimIdempotent(s: string, ws: char -> bool)
    ensures Trim(Trim(s, ws), ws) == Trim(s, ws)
  {
    TrimFixed(Trim(s, ws), ws);
  }

  /** A string with no trimmed character at either end is its own trim. */
  lemma TrimFixed(t: string, ws: char -> bool)
    requires t == [] || (!ws(t[0]) && !ws(t[|t| - 1]))
    ensures Trim(t, ws) == t
  {
    TrimStartFixed(t, ws);
    TrimEndFixed(t, ws);
  }

  /** Padding made only of trimmed characters is removed, and nothing
      else is. */
  lemma {:induction false} TrimStartPadded(pad: string, core: string, ws: char -> bool)
    requires forall k :: 0 <= k < |pad| ==> ws(pad[k])
    requires core == [] || !ws(core[0])
    ensures TrimStart(pad + core, ws) == core
  {
    if pad == [] {
      assert pad + core == core;
      TrimStartFixed(core, ws);
    } else {
      assert (pad + core)[1..] == pad[1..] + core;
      TrimStartPadded(pad[1..], core, ws);
    }
  }

  lemma {:induction false} TrimEndPadded(core: string, pad: string, ws: char -> bool)
    requires forall k :: 0 <= k < |pad| ==> ws(pad[k])
    requires core == [] || !ws(core[|core| - 1])
    ensures TrimEnd(core + pad, ws) == core
  {
    if pad == [] {
      assert core + pad == core;
      TrimEndFixed(core, ws);
    } else {
      var s := core + pad;
      assert s[..|s| - 1] == core + pad[..|pad| - 1];
      TrimEndPadded(core, pad[..|pad| - 1], ws);
    }
  }

  lemma TrimPadded(before: string, core: string, after: string, ws: char -> bool)
    requires forall k :: 0 <= k < |before| ==> ws(before[k])
    requires forall k :: 0 <= k < |after| ==> ws(after[k])
    requires core != [] && !ws(core[0]) && !ws(core[|core| - 1])
    ensures Trim(before + core + after, ws) == core
  {
    assert before + core + after == before + (core + after);
    TrimStartPadded(before, core + after, ws);
    TrimEndPadded(core, after, ws);
  }

  // ---------------------------------------------------------------------
  // Substrings
  // ---------------------------------------------------------------------

  ghost predicate OccursAt(s: string, sub: string, i: int) {
    0 <= i && i + |sub| <= |s| && s[i..i + |sub|] == sub
  }

  /** `String.prototype.includes` of JavaScript (the substring test). */
  function Contains(s: string, sub: string): (r: bool)
    ensures r <==> exists i :: OccursAt(s, sub, i)
  {
    if sub <= s then
      assert OccursAt(s, sub, 0);
      true
    else if s == [] then
      false
    else
      var r := Contains(s[1..], sub);
      assert r ==> exists i :: OccursAt(s, sub, i) by {
        if r {
          var i :| OccursAt(s[1..], sub, i);
          assert OccursAt(s, sub, i + 1);
        }
      }
      assert forall i :: OccursAt(s, sub, i) ==> i > 0 && OccursAt(s[1..], sub, i - 1) by {
        forall i | OccursAt(s, sub, i)
          ensures i > 0 && OccursAt(s[1..], sub, i - 1)
        {
          assert s[1..][i - 1..i - 1 + |sub|] == s[i..i + |sub|];
        }
      }
      r
  }

  lemma ContainsEmpty(s: string)
    ensures Contains(s, "")
  {
    assert OccursAt(s, "", 0);
  }

  /** A string contains every one of its own substrings' substrings. */
  lemma ContainsTransitive(s: string, t: string, u: string)
    requires Contains(s, t) && Contains(t, u)
    ensures Contains(s, u)
  {
    var i :| OccursAt(s, t, i);
    var j :| OccursAt(t, u, j);
    assert forall k :: 0 <= k < |t| ==> s[i + k] == t[k] by {
      forall k | 0 <= k < |t| ensures s[i + k] == t[k] {
        assert s[i..i + |t|][k] == t[k];
      }
    }
    assert forall k :: 0 <= k < |u| ==> s[i + j + k] == u[k] by {
      forall k | 0 <= k < |u| ensures s[i + j + k] == u[k] {
        assert t[j..j + |u|][k] == u[k];
      }
    }
    assert s[i + j..i + j + |u|] == u;
    assert OccursAt(s, u, i + j);
  }

  /** Lower-casing both sides keeps an occurrence. */
  lemma ContainsLower(s: string, t: string)
    requires Contains(s, t)
    ensures Contains(Lower(s), Lower(t))
  {
    var i :| OccursAt(s, t, i);
    var ls := Lower(s);
    forall k | 0 <= k < |t| ensures ls[i..i + |t|][k] == Lower(t)[k] {
      assert ls[i + k] == LowerChar(s[i + k]);
      assert s[i + k] == s[i..i + |t|][k];
    }
    assert ls[i..i + |t|] == Lower(t);
    assert OccursAt(ls, Lower(t), i);
  }

  // ---------------------------------------------------------------------
  // Lengths as the runtimes count them
  // ---------------------------------------------------------------------

  /** JavaScript's `length`: UTF-16 code units, so a character outside the
      Basic Multilingual Plane counts twice. */
  function Utf16Length(s: string): (n: nat)
    ensures |s| <= n <= 2 * |s|
  {
    if s == [] then 0 else (if s[0] as int >= 0x1_0000 then 2 else 1) + Utf16Length(s[1..])
  }

  /** PHP's `strlen`: bytes of the UTF-8 encoding. */
  function Utf8Length(s: string): (n: nat)
    ensures |s| <= n <= 4 * |s|
  {
    if s == [] then 0
    else
      var c := s[0] as int;
      (if c < 0x80 then 1 else if c < 0x800 then 2 else if c < 0x1_0000 then 3 else 4)
      + Utf8Length(s[1..])
  }

  // ---------------------------------------------------------------------
  // Decimal numbers
  // ---------------------------------------------------------------------

  function DigitChar(d: nat): (c: char)
    requires d < 10
    ensures IsDigit(c)
  {
    ('0' as int + d) as char
  }

  function DigitValue(c: char): (d: nat)
    requires IsDigit(c)
    ensures d < 10 && DigitChar(d) == c
  {
    c as int - '0' as int
  }

  /** The decimal rendering JavaScript's `String(n)` and PHP's string
      interpolation give a non-negative integer. */
  function NatToString(n: nat): (s: string)
    ensures s != [] && AllDigits(s)
    ensures s[0] == '0' ==> n == 0 && s == "0"
    decreases n
  {
    if n < 10 then [DigitChar(n)] else NatToString(n / 10) + [DigitChar(n % 10)]
  }

  /** The value of a string of decimal digits, most significant first. */
  function DigitsValue(s: string): nat
    requires AllDigits(s)
  {
    if s == [] then 0 else 10 * DigitsValue(s[..|s| - 1]) + DigitValue(s[|s| - 1])
  }

  /** A string that consists of decimal digits only, read as a number. */
  function ParseDecimal(s: string): (r: Option<nat>)
    ensures r.Some? <==> s != [] && AllDigits(s)
  {
    if s != [] && AllDigits(s) then Some(DigitsValue(s)) else None
  }

  lemma {:induction false} DigitsValueOfNatToString(n: nat)
    ensures DigitsValue(NatToString(n)) == n
    decreases n
  {
    if n >= 10 {
      var s := NatToString(n);
      assert s[..|s| - 1] == NatToString(n / 10);
      DigitsValueOfNatToString(n / 10);
    }
  }

  /** Rendering a number and reading it back gives the number. */
  lemma ParseDecimalRoundTrip(n: nat)
    ensures ParseDecimal(NatToString(n)) == Some(n)
  {
    DigitsValueOfNatToString(n);
  }

  /** JavaScript's `String(i)` for an integer. */
  function IntToString(i: int): (s: string)
    ensures s != []
    ensures i >= 0 ==> s == NatToString(i)
    ensures i < 0 ==> s[0] == '-' && s[1..] == NatToString(-i)
  {
    if i >= 0 then NatToString(i) else "-" + NatToString(-i)
  }

  // ---------------------------------------------------------------------
  // Joining
  // ---------------------------------------------------------------------

  /** `Array.prototype.join(sep)` over strings. */
  function Join(sep: string, parts: seq<string>): (r: string)
    ensures parts == [] ==> r == []
    ensures |parts| == 1 ==> r == parts[0]
  {
    if parts == [] then []
    else if |parts| == 1 then parts[0]
    else parts[0] + sep + Join(sep, parts[1..])
  }
}

=== FILE: csv.dfy ===
/** exportTableToCSV, in its two versions: assets/js/app.js writes each
    cell's text as it is, assets/js/dashboard.js trims it first. Both wrap
    every cell in double quotes, join cells with ',' and rows with '\n'.
    A quoted field in the sense of RFC 4180 (section 2, rule 7) must write
    a '"' inside it as '""'; neither version does, so the corrected export
    `Export` is modelled next to the one as written, `ExportAsWritten`. */
module Csv {
  import opened Common

  /** The text exported for a cell: trimmed by the dashboard version. */
  function CellText(cell: string, trim: bool): string {
    if trim then JsTrim(cell) else cell
  }

  /** The cell texts of a table, row by row. */
  function Texts(table: seq<seq<string>>, trim: bool): (r: seq<seq<string>>)
    ensures |r| == |table|
    ensures forall i :: 0 <= i < |table| ==> |r[i]| == |table[i]|
    ensures forall i, j :: 0 <= i < |table| && 0 <= j < |table[i]| ==> r[i][j] == CellText(table[i][j], trim)
  {
    seq(|table|, i requires 0 <= i < |table| =>
      seq(|table[i]|, j requires 0 <= j < |table[i]| => CellText(table[i][j], trim)))
  }

  /** `cells.map(quote)`. */
  function QuoteEach(cells: seq<string>, quote: string -> string): (r: seq<string>)
    ensures |r| == |cells|
    ensures forall j :: 0 <= j < |cells| ==> r[j] == quote(cells[j])
  {
    if cells == [] then [] else [quote(cells[0])] + QuoteEach(cells[1..], quote)
  }

  /** One line: the quoted cells joined with ','. */
  function Line(cells: seq<string>, quote: string -> string): string {
    Join(",", QuoteEach(cells, quote))
  }

  /** `rows.map(row => Line(row))`. */
  function LineEach(rows: seq<seq<string>>, quote: string -> string): (r: seq<string>)
    ensures |r| == |rows|
    ensures forall i :: 0 <= i < |rows| ==> r[i] == Line(rows[i], quote)
  {
    if rows == [] then [] else [Line(rows[0], quote)] + LineEach(rows[1..], quote)
  }

  /** All lines joined with '\n'. */
  function Serialise(rows: seq<seq<string>>, quote: string -> string): string {
    Join("\n", LineEach(rows, quote))
  }

  // ---------------------------------------------------------------------
  // Reading CSV back (RFC 4180, every field quoted)
  // ---------------------------------------------------------------------

  /** The number of '"' characters in a string. */
  function QuoteCount(s: string): nat {
    if s == [] then 0 else (if s[0] == '"' then 1 else 0) + QuoteCount(s[1..])
  }

  /** Reads the inside of a quoted field up to its closing quote, turning
      each '""' into one '"'; returns the field and what follows the
      closing quote. Every '"' in the field took two characters and the
      closing quote one. */
  function ReadBody(t: string): (r: Option<(string, string)>)
    ensures r.Some? ==> |t| == |r.value.0| + QuoteCount(r.value.0) + 1 + |r.value.1|
  {
    if t == [] then None
    else if t[0] == '"' then
      if |t| >= 2 && t[1] == '"' then
        match ReadBody(t[2..])
        case None => None
        case Some(p) => Some((['"'] + p.0, p.1))
      else Some(([], t[1..]))
    else
      match ReadBody(t[1..])
      case None => None
      case Some(p) => Some(([t[0]] + p.0, p.1))
  }

  /** One quoted field. */
  function ReadField(s: string): (r: Option<(string, string)>)
    ensures r.Some? ==> |r.value.1| < |s|
  {
    if s != [] && s[0] == '"' then ReadBody(s[1..]) else None
  }

  /** One record: quoted fields separated by ','. Returns the fields and
      what follows the last one. */
  function ReadRecord(s: string): (r: Option<(seq<string>, string)>)
    ensures r.Some? ==> |r.value.0| >= 1 && |r.value.1| < |s|
    ensures r.Some? ==> ReadField(s).Some? && r.value.0[0] == ReadField(s).value.0
    ensures r.Some? && |r.value.0| == 1 ==> r.value.1 == ReadField(s).value.1
    decreases |s|
  {
    match ReadField(s)
    case None => None
    case Some(p) =>
      var (f, rest) := p;
      if rest != [] && rest[0] == ',' then
        match ReadRecord(rest[1..])
        case None => None
        case Some(q) => Some(([f] + q.0, q.1))
      else Some(([f], rest))
  }

  /** A whole file: records separated by '\n'. */
  function ParseTable(s: string): (r: Option<seq<seq<string>>>)
    ensures r.Some? ==> |r.value| >= 1 && ReadRecord(s).Some? && r.value[0] == ReadRecord(s).value.0
    ensures r.Some? && |r.value| == 1 ==> ReadRecord(s).value.1 == []
    decreases |s|
  {
    match ReadRecord(s)
    case None => None
    case Some(p) =>
      var (rec, rest) := p;
      if rest == [] then Some([rec])
      else if rest[0] == '\n' then
        match ParseTable(rest[1..])
        case None => None
        case Some(more) => Some([rec] + more)
      else None
  }

  // ---------------------------------------------------------------------
  // The export as written
  // ---------------------------------------------------------------------

  /** `"${text}"`: the text between two quotes, unchanged. */
  function QuoteAsWritten(text: string): (q: string)
    ensures |q| == |text| + 2 && q[0] == '"' && q[|q| - 1] == '"' && q[1..|q| - 1] == text
  {
    "\"" + text + "\""
  }

  function ExportAsWritten(table: seq<seq<string>>, trim: bool): string {
    Serialise(Texts(table, trim), QuoteAsWritten)
  }

  /** A field read back from a cell written as is can equal that cell only
      if the cell has no '"'. */
  lemma {:induction false} QuotedAsWrittenMisread(text: string)
    requires '"' in text
    ensures ReadField(QuoteAsWritten(text)) != Some((text, ""))
  {
    QuoteCountPositive(text);
  }

  lemma {:induction false} QuoteCountPositive(s: string)
    requires '"' in s
    ensures QuoteCount(s) > 0
  {
    if s[0] != '"' {
      assert '"' in s[1..];
      QuoteCountPositive(s[1..]);
    }
  }

  /** The discrepancy: a one-cell table whose text holds a '"' does not
      read back as that table. */
  lemma ExportAsWrittenLosesQuotes(cell: string, trim: bool)
    requires '"' in CellText(cell, trim)
    ensures ParseTable(ExportAsWritten([[cell]], trim)) != Some(Texts([[cell]], trim))
  {
    var text := CellText(cell, trim);
    var s := ExportAsWritten([[cell]], trim);
    var texts := Texts([[cell]], trim);
    assert texts[0] == [text];
    assert texts == [[text]];
    assert QuoteEach([text], QuoteAsWritten) == [QuoteAsWritten(text)];
    assert LineEach([[text]], QuoteAsWritten) == [QuoteAsWritten(text)];
    assert s == QuoteAsWritten(text);
    QuotedAsWrittenMisread(text);
  }

  // ---------------------------------------------------------------------
  // The corrected export
  // ---------------------------------------------------------------------

  /** One character with a '"' doubled. */
  function DoubleChar(c: char): string {
    if c == '"' then ['"', '"'] else [c]
  }

  function Double(s: string): (r: string)
    ensures |r| == |s| + QuoteCount(s)
    ensures '"' !in s ==> r == s
  {
    if s == [] then []
    else DoubleChar(s[0]) + Double(s[1..])
  }

  /** A cell as RFC 4180 quotes it. */
  function QuoteField(text: string): (q: string)
    ensures '"' !in text ==> q == QuoteAsWritten(text)
  {
    "\"" + Double(text) + "\""
  }

  /** exportTableToCSV with the quoting corrected: a table with at least
      one row, and a cell in every row, reads back as its cell texts. */
  function Export(table: seq<seq<string>>, trim: bool): (csv: string)
    ensures |table| >= 1 && (forall i :: 0 <= i < |table| ==> |table[i]| >= 1) ==>
      ParseTable(csv) == Some(Texts(table, trim))
  {
    var rows := Texts(table, trim);
    if |table| >= 1 && (forall i :: 0 <= i < |table| ==> |table[i]| >= 1) then
      ParseLines(rows);
      Serialise(rows, QuoteField)
    else
      Serialise(rows, QuoteField)
  }

  /** The three ways ReadBody takes its first step. */
  lemma ReadBodyClose(rest: string)
    requires rest == [] || rest[0] != '"'
    ensures ReadBody(['"'] + rest) == Some(([], rest))
  {
    assert (['"'] + rest)[1..] == rest;
  }

  lemma ReadBodyPair(d: string)
    ensures ReadBody(['"', '"'] + d) ==
      match ReadBody(d) case None => None case Some(p) => Some((['"'] + p.0, p.1))
  {
    assert (['"', '"'] + d)[2..] == d;
  }

  lemma ReadBodyPlain(c: char, d: string)
    requires c != '"'
    ensures ReadBody([c] + d) ==
      match ReadBody(d) case None => None case Some(p) => Some(([c] + p.0, p.1))
  {
    assert ([c] + d)[1..] == d;
  }

  /** After the closing quote, a '"' would be read as part of a doubled
      quote, hence the condition on what follows. */
  lemma {:induction false} ReadBodyDouble(text: string, rest: string)
    requires rest == [] || rest[0] != '"'
    ensures ReadBody(Double(text) + "\"" + rest) == Some((text, rest))
  {
    if text == [] {
      assert Double(text) + "\"" + rest == ['"'] + rest;
      ReadBodyClose(rest);
    } else {
      var d := Double(text[1..]) + "\"" + rest;
      ReadBodyDouble(text[1..], rest);
      var h := DoubleChar(text[0]);
      var x := Double(text[1..]);
      DoubleSplit(text);
      ConcatRegroup(h, x, "\"", rest);
      ReadBodyHead(text[0], d, (text[1..], rest));
      assert [text[0]] + text[1..] == text;
    }
  }

  lemma ConcatRegroup(a: string, b: string, c: string, d: string)
    ensures a + b + c + d == a + (b + c + d)
  {
  }

  /** The first character of a doubled text, then the rest doubled. */
  lemma DoubleSplit(text: string)
    requires text != []
    ensures Double(text) == DoubleChar(text[0]) + Double(text[1..])
  {
  }

  /** Reading one doubled character in front of a body that reads. */
  lemma ReadBodyHead(c: char, d: string, p: (string, string))
    requires ReadBody(d) == Some(p)
    ensures ReadBody(DoubleChar(c) + d) == Some(([c] + p.0, p.1))
  {
    if c == '"' {
      ReadBodyPair(d);
    } else {
      ReadBodyPlain(c, d);
    }
  }

  lemma ReadFieldQuoted(text: string, rest: string)
    requires rest == [] || rest[0] != '"'
    ensures ReadField(QuoteField(text) + rest) == Some((text, rest))
  {
    var body := Double(text) + "\"" + rest;
    ConcatRegroup("\"", Double(text), "\"", rest);
    assert QuoteField(text) + rest == ['"'] + body;
    assert (['"'] + body)[1..] == body;
    ReadBodyDouble(text, rest);
  }

  /** A line of quoted cells followed by anything but ',' reads back as
      those cells. */
  lemma {:induction false} ReadRecordLine(cells: seq<string>, rest: string)
    requires |cells| >= 1
    requires rest == [] || (rest[0] != ',' && rest[0] != '"')
    ensures ReadRecord(Line(cells, QuoteField) + rest) == Some((cells, rest))
    decreases |cells|
  {
    var quoted := QuoteEach(cells, QuoteField);
    var s := Line(cells, QuoteField) + rest;
    if |cells| == 1 {
      assert s == QuoteField(cells[0]) + rest;
      ReadFieldQuoted(cells[0], rest);
      assert cells == [cells[0]];
    } else {
      var l1 := Line(cells[1..], QuoteField);
      var tail := l1 + rest;
      LineSplit(cells);
      ConcatRegroup(QuoteField(cells[0]), ",", l1, rest);
      assert s == QuoteField(cells[0]) + ("," + tail);
      ReadFieldQuoted(cells[0], "," + tail);
      ReadRecordLine(cells[1..], rest);
      ReadRecordStep(s, cells[0], tail, cells[1..], rest);
      assert [cells[0]] + cells[1..] == cells;
    }
  }

  /** The first quoted cell, a comma, then the other cells. */
  lemma LineSplit(cells: seq<string>)
    requires |cells| >= 2
    ensures Line(cells, QuoteField) == QuoteField(cells[0]) + "," + Line(cells[1..], QuoteField)
  {
    var quoted := QuoteEach(cells, QuoteField);
    assert quoted[1..] == QuoteEach(cells[1..], QuoteField);
  }

  /** A field followed by a comma and a record that reads. */
  lemma ReadRecordStep(s: string, f: string, tail: string, more: seq<string>, rest: string)
    requires ReadField(s) == Some((f, "," + tail))
    requires ReadRecord(tail) == Some((more, rest))
    ensures ReadRecord(s) == Some(([f] + more, rest))
  {
    assert ("," + tail)[1..] == tail;
  }

  /** Lines of quoted cells read back as the rows they came from. */
  lemma {:induction false} ParseLines(rows: seq<seq<string>>)
    requires |rows| >= 1
    requires forall i :: 0 <= i < |rows| ==> |rows[i]| >= 1
    ensures ParseTable(Serialise(rows, QuoteField)) == Some(rows)
    decreases |rows|
  {
    var s := Serialise(rows, QuoteField);
    if |rows| == 1 {
      assert s == Line(rows[0], QuoteField) + [];
      ReadRecordLine(rows[0], []);
      assert rows == [rows[0]];
    } else {
      var tail := Serialise(rows[1..], QuoteField);
      SerialiseSplit(rows);
      ReadRecordLine(rows[0], "\n" + tail);
      ParseLines(rows[1..]);
      ParseTableStep(s, rows[0], tail, rows[1..]);
      assert [rows[0]] + rows[1..] == rows;
    }
  }

  /** The first line, a line break, then the other lines. */
  lemma SerialiseSplit(rows: seq<seq<string>>)
    requires |rows| >= 2
    ensures Serialise(rows, QuoteField) == Line(rows[0], QuoteField) + ("\n" + Serialise(rows[1..], QuoteField))
  {
    var lines := LineEach(rows, QuoteField);
    assert lines[1..] == LineEach(rows[1..], QuoteField);
  }

  /** A record followed by a line break and a table that reads. */
  lemma ParseTableStep(s: string, rec: seq<string>, tail: string, more: seq<seq<string>>)
    requires ReadRecord(s) == Some((rec, "\n" + tail))
    requires ParseTable(tail) == Some(more)
    ensures ParseTable(s) == Some([rec] + more)
  {
    assert ("\n" + tail)[1..] == tail;
  }

  /** The corrected export reads back as the exported texts, for every table
      with at least one row and a cell in every row. */
  lemma ExportRoundTrip(table: seq<seq<string>>, trim: bool)
    requires |table| >= 1
    requires forall i :: 0 <= i < |table| ==> |table[i]| >= 1
    ensures ParseTable(Export(table, trim)) == Some(Texts(table, trim))
  {
    ParseLines(Texts(table, trim));
  }

  /** Where no cell text holds a '"', the corrected export writes exactly
      what the export as written does. */
  lemma ExportsAgreeWithoutQuotes(table: seq<seq<string>>, trim: bool)
    requires forall i, j :: 0 <= i < |table| && 0 <= j < |table[i]| ==> '"' !in CellText(table[i][j], trim)
    ensures Export(table, trim) == ExportAsWritten(table, trim)
  {
    var texts := Texts(table, trim);
    forall i | 0 <= i < |texts|
      ensures Line(texts[i], QuoteField) == Line(texts[i], QuoteAsWritten)
    {
      assert QuoteEach(texts[i], QuoteField) == QuoteEach(texts[i], QuoteAsWritten);
    }
    assert LineEach(texts, QuoteField) == LineEach(texts, QuoteAsWritten);
  }
}

=== FILE: email.dfy ===
/** validateEmail of assets/js/main.js: the pattern
    `/^[^\s@]+@[^\s@]+\.[^\s@]+$/`, stated as the language it accepts and
    decided by locating the '@'. */
module Email {
  import opened Common

  /** `[^\s@]`: neither JavaScript white space nor '@'. */
  predicate Plain(c: char) { !IsJsSpace(c) && c != '@' }

  predicate AllPlain(t: string) {
    forall k :: 0 <= k < |t| ==> Plain(t[k])
  }

  /** The strings the pattern matches: one '@' with something before it,
      a '.' in what follows with something on each side, and no white space
      or further '@' anywhere. */
  ghost predicate MatchesEmailPattern(s: string) {
    exists at, dot :: && 0 < at && at + 1 < dot < |s| - 1
                      && s[at] == '@' && s[dot] == '.'
                      && forall k :: 0 <= k < |s| && k != at ==> Plain(s[k])
  }

  /** Position of the first occurrence of `c`. */
  function IndexOf(s: string, c: char): (r: Option<nat>)
    ensures r.None? <==> c !in s
    ensures r.Some? ==> r.value < |s| && s[r.value] == c && c !in s[..r.value]
  {
    if s == [] then None
    else if s[0] == c then Some(0)
    else
      match IndexOf(s[1..], c)
      case None => None
      case Some(i) =>
        assert s[..i + 1] == [s[0]] + s[1..][..i];
        Some(i + 1)
  }

  /** The domain part has a '.' that is neither its first nor its last
      character. */
  predicate HasInnerDot(d: string) {
    exists i :: 1 <= i < |d| - 1 && d[i] == '.'
  }

  /** validateEmail. An accepted address does not start with '@' and has
      at least five characters, as in "a@b.c". */
  function ValidateEmail(s: string): (ok: bool)
    ensures ok ==> |s| >= 5 && s[0] != '@'
  {
    match IndexOf(s, '@')
    case None => false
    case Some(at) =>
      && 0 < at && AllPlain(s[..at])
      && AllPlain(s[at + 1..]) && HasInnerDot(s[at + 1..])
  }

  /** validateEmail accepts exactly the strings the pattern describes. */
  lemma ValidateEmailMatchesPattern(s: string)
    ensures ValidateEmail(s) <==> MatchesEmailPattern(s)
  {
    if ValidateEmail(s) {
      var at := IndexOf(s, '@').value;
      var d := s[at + 1..];
      var i :| 1 <= i < |d| - 1 && d[i] == '.';
      forall k | 0 <= k < |s| && k != at ensures Plain(s[k]) {
        if k < at {
          assert s[..at][k] == s[k];
        } else {
          assert d[k - at - 1] == s[k];
        }
      }
      assert s[at + 1 + i] == '.';
      assert MatchesEmailPattern(s);
    }
    if MatchesEmailPattern(s) {
      var at, dot :| && 0 < at && at + 1 < dot < |s| - 1
                     && s[at] == '@' && s[dot] == '.'
                     && forall k :: 0 <= k < |s| && k != at ==> Plain(s[k]);
      assert '@' in s;
      var first := IndexOf(s, '@').value;
      assert first == at by {
        assert s[first] == '@' && !Plain(s[first]);
      }
      var d := s[at + 1..];
      assert d[dot - at - 1] == '.';
      assert HasInnerDot(d);
      assert AllPlain(s[..at]);
      assert AllPlain(d);
    }
  }

  /** An accepted address holds exactly one '@' and no white space. */
  lemma ValidEmailShape(s: string)
    requires ValidateEmail(s)
    ensures exists at :: 0 < at < |s| && s[at] == '@' && forall k :: 0 <= k < |s| && s[k] == '@' ==> k == at
    ensures forall k :: 0 <= k < |s| ==> !IsJsSpace(s[k])
  {
    ValidateEmailMatchesPattern(s);
  }
}

=== FILE: forms.dfy ===
/** Client-side form validation: validateForm of assets/js/main.js (one
    error per required input, chosen in a fixed priority), the simpler
    validateForm of assets/js/app.js (blank check only), and the
    registration submit handler of assets/js/auth.js. */
module Forms {
  import opened Common
  import Email
  import Phone

  /** The `type` of an input as the validators test it; selects and text
      areas fall under `OtherInput`. */
  datatype InputKind = EmailInput | TelInput | PasswordInput | OtherInput

  /** A form control: its type, its value, whether it carries the `required`
      attribute, whether it is marked `is-invalid`, and the text of the
      `invalid-feedback` element after it, if any. */
  datatype Field = Field(kind: InputKind, value: string, required: bool,
                         invalid: bool, feedback: Option<string>)

  datatype FieldError = Required | InvalidEmail | InvalidPhone | ShortPassword

  function Message(e: FieldError): string {
    match e
    case Required => "This field is required"
    case InvalidEmail => "Please enter a valid email address"
    case InvalidPhone => "Please enter a valid phone number"
    case ShortPassword => "Password must be at least 6 characters"
  }

  /** The rule each kind of input must satisfy, stated on the trimmed value
      and independently of the order the script tests things in. */
  ghost predicate Acceptable(kind: InputKind, raw: string) {
    var v := JsTrim(raw);
    && v != ""
    && (kind == EmailInput ==> Email.MatchesEmailPattern(v))
    && (kind == TelInput ==> Phone.ValidatePhone(v))
    && (kind == PasswordInput ==> Utf16Length(v) >= 6)
  }

  /** The error main.js picks for one required input: blank first, then a
      bad e-mail address, then a bad phone number, then a short password.
      Every test is made on the trimmed value. */
  function ErrorOf(kind: InputKind, raw: string): (r: Option<FieldError>)
    ensures r == Some(Required) <==> JsTrim(raw) == ""
    ensures r.Some? && r.value != Required ==>
      match r.value
      case InvalidEmail => kind == EmailInput
      case InvalidPhone => kind == TelInput
      case ShortPassword => kind == PasswordInput
      case Required => false
  {
    var v := JsTrim(raw);
    if v == "" then Some(Required)
    else if kind == EmailInput && !Email.ValidateEmail(v) then Some(InvalidEmail)
    else if kind == TelInput && !Phone.ValidatePhone(v) then Some(InvalidPhone)
    else if kind == PasswordInput && Utf16Length(v) < 6 then Some(ShortPassword)
    else None
  }

  /** An input gets no error exactly when it satisfies its rule. */
  lemma NoErrorIffAcceptable(kind: InputKind, raw: string)
    ensures ErrorOf(kind, raw).None? <==> Acceptable(kind, raw)
  {
    Email.ValidateEmailMatchesPattern(JsTrim(raw));
  }

  /** The error shown for an input is the first failing rule in the order
      blank, e-mail, phone, password length. */
  lemma ErrorPriority(kind: InputKind, raw: string)
    ensures var v := JsTrim(raw);
            ErrorOf(kind, raw) == Some(InvalidEmail) <==>
              v != "" && kind == EmailInput && !Email.MatchesEmailPattern(v)
    ensures var v := JsTrim(raw);
            ErrorOf(kind, raw) == Some(InvalidPhone) <==>
              v != "" && kind == TelInput && !Phone.ValidatePhone(v)
    ensures var v := JsTrim(raw);
            ErrorOf(kind, raw) == Some(ShortPassword) <==>
              v != "" && kind == PasswordInput && Utf16Length(v) < 6
  {
    Email.ValidateEmailMatchesPattern(JsTrim(raw));
  }

  /** One control after main.js's validateForm has looked at it: previous
      marks are removed, then the error (if any) is marked and shown. */
  function Revalidate(f: Field): (g: Field)
    ensures g.kind == f.kind && g.value == f.value && g.required == f.required
    ensures !f.required ==> g == f
    ensures f.required ==> (g.invalid <==> !Acceptable(f.kind, f.value))
  {
    NoErrorIffAcceptable(f.kind, f.value);
    if !f.required then f
    else
      match ErrorOf(f.kind, f.value)
      case None => f.(invalid := false, feedback := None)
      case Some(e) => f.(invalid := true, feedback := Some(Message(e)))
  }

  datatype Validation = Validation(fields: seq<Field>, valid: bool)

  /** validateForm of main.js. */
  function ValidateForm(form: seq<Field>): (r: Validation)
    ensures |r.fields| == |form|
    ensures forall i :: 0 <= i < |form| ==>
      r.fields[i].kind == form[i].kind && r.fields[i].value == form[i].value
      && r.fields[i].required == form[i].required
    ensures forall i :: 0 <= i < |form| && !form[i].required ==> r.fields[i] == form[i]
    ensures forall i :: 0 <= i < |form| && form[i].required ==>
      (r.fields[i].invalid <==> !Acceptable(form[i].kind, form[i].value))
    ensures r.valid <==> forall i :: 0 <= i < |form| && form[i].required ==>
      Acceptable(form[i].kind, form[i].value)
  {
    var fields := seq(|form|, i requires 0 <= i < |form| => Revalidate(form[i]));
    assert forall i :: 0 <= i < |form| ==> fields[i] == Revalidate(form[i]);
    var valid := forall i :: 0 <= i < |fields| && fields[i].required ==> !fields[i].invalid;
    Validation(fields, valid)
  }

  /** The message under a required input is the one for its error, and it
      is there exactly when the input is marked. */
  lemma FeedbackMatchesMark(form: seq<Field>, i: int)
    requires 0 <= i < |form| && form[i].required
    ensures var f := ValidateForm(form).fields[i];
            (f.feedback.Some? <==> f.invalid)
            && (f.invalid ==> f.feedback == Some(Message(ErrorOf(form[i].kind, form[i].value).value)))
  {
  }

  /** The outcome for required controls depends only on their types and
      values: whatever marks an earlier run left, the result is the same. */
  lemma ValidateFormIgnoresOldMarks(form: seq<Field>, other: seq<Field>)
    requires |form| == |other|
    requires forall i :: 0 <= i < |form| ==>
      if form[i].required
      then other[i].required && form[i].kind == other[i].kind && form[i].value == other[i].value
      else other[i] == form[i]
    ensures ValidateForm(form) == ValidateForm(other)
  {
    assert ValidateForm(form).fields == ValidateForm(other).fields;
  }

  /** validateForm of app.js: a required control is marked exactly when its
      trimmed value is blank; feedback elements are not touched. */
  function ValidateRequired(form: seq<Field>): (r: Validation)
    ensures |r.fields| == |form|
    ensures forall i :: 0 <= i < |form| ==>
      r.fields[i] == (if form[i].required then form[i].(invalid := JsTrim(form[i].value) == "") else form[i])
    ensures r.valid <==> forall i :: 0 <= i < |form| && form[i].required ==> JsTrim(form[i].value) != ""
  {
    Validation(
      seq(|form|, i requires 0 <= i < |form| =>
        if form[i].required then form[i].(invalid := JsTrim(form[i].value) == "") else form[i]),
      forall i :: 0 <= i < |form| && form[i].required ==> JsTrim(form[i].value) != "")
  }

  /** main.js is the stricter of the two validators: a form it accepts is
      accepted by app.js too, and they agree on forms with no typed inputs. */
  lemma StrictValidatorImpliesBlankCheck(form: seq<Field>)
    ensures ValidateForm(form).valid ==> ValidateRequired(form).valid
    ensures (forall i :: 0 <= i < |form| ==> form[i].kind == OtherInput) ==>
      ValidateForm(form).valid == ValidateRequired(form).valid
  {
  }

  // ---------------------------------------------------------------------
  // The registration form's submit handler (assets/js/auth.js)
  // ---------------------------------------------------------------------

  /** The values read from the registration form with FormData (untrimmed). */
  datatype RegistrationData = RegistrationData(
    fullName: string, email: string, phone: string, role: string,
    school: string, region: string, password: string, confirmPassword: string)

  datatype RegistrationSubmit =
    | Blocked(fields: seq<Field>)
    | Notified(message: string, kind: string, fields: seq<Field>)
    | Registering(data: RegistrationData, fields: seq<Field>)

  /** The submit listener: validate the form, then compare the password
      with its confirmation, and only then hand over to handleRegistration. */
  function SubmitRegistration(form: seq<Field>, data: RegistrationData): (r: RegistrationSubmit)
    ensures r.fields == ValidateForm(form).fields
    ensures r.Registering? <==> ValidateForm(form).valid && data.password == data.confirmPassword
    ensures r.Registering? ==> r.data == data
    ensures r.Notified? <==> ValidateForm(form).valid && data.password != data.confirmPassword
    ensures r.Notified? ==> r.message == "Passwords do not match" && r.kind == "danger"
  {
    var v := ValidateForm(form);
    if !v.valid then Blocked(v.fields)
    else if data.password != data.confirmPassword then
      Notified("Passwords do not match", "danger", v.fields)
    else Registering(data, v.fields)
  }
}

=== FILE: landing.dfy ===
/** index.php: visitors get the landing page; a logged-in user is sent to
    the dashboard of the role stored in their user row. */
module Landing {
  import opened Common
  import opened Store
  import ServerAuth
  import ClientSession

  datatype LandingResult = Redirect(location: string) | LandingPage

  const ParentHome := "parent/dashboard.php"
  const SaccoHome := "sacco/dashboard.php"
  const AdminHome := "admin/dashboard.php"
  const LoginPage := "login.php"

  /** The dashboard of each known role, relative to the site root. */
  function HomeOf(role: string): Option<string> {
    if role == "parent" then Some(ParentHome)
    else if role == "sacco" then Some(SaccoHome)
    else if role == "admin" then Some(AdminHome)
    else None
  }

  /** The switch on the current user's role. A session whose user row is
      gone has no role, which falls to the default branch. */
  function Index(st: Store, sess: Session): (r: LandingResult)
    ensures r == LandingPage <==> !ServerAuth.IsLoggedIn(sess)
    ensures ServerAuth.IsLoggedIn(sess) && ServerAuth.GetCurrentUser(st, sess).None? ==> r == Redirect(LoginPage)
    ensures ServerAuth.HasRole(st, sess, "parent") ==> r == Redirect(ParentHome)
    ensures ServerAuth.HasRole(st, sess, "sacco") ==> r == Redirect(SaccoHome)
    ensures ServerAuth.HasRole(st, sess, "admin") ==> r == Redirect(AdminHome)
    ensures r == Redirect(LoginPage) <==>
      ServerAuth.IsLoggedIn(sess)
      && !ServerAuth.HasRole(st, sess, "parent") && !ServerAuth.HasRole(st, sess, "sacco")
      && !ServerAuth.HasRole(st, sess, "admin")
  {
    if !ServerAuth.IsLoggedIn(sess) then LandingPage
    else
      match ServerAuth.GetCurrentUser(st, sess)
      case None => Redirect(LoginPage)
      case Some(u) =>
        match HomeOf(u.role)
        case Some(home) => Redirect(home)
        case None => Redirect(LoginPage)
  }

  /** A dashboard redirect always lands on a page whose role guard lets the
      same session through: the role read here is the one requireRole reads. */
  lemma RedirectPassesGuard(st: Store, sess: Session, role: string)
    requires HomeOf(role).Some? && Index(st, sess) == Redirect(HomeOf(role).value)
    ensures ServerAuth.RequireRole(st, sess, role) == ServerAuth.Proceed
  {
    var u := ServerAuth.GetCurrentUser(st, sess).value;
    assert HomeOf(u.role) == HomeOf(role);
  }

  /** The roles stored in the session play no part: only the user row does. */
  lemma CachedRoleIgnored(st: Store, sess: Session, cachedRole: Option<string>)
    ensures Index(st, sess.(userRole := cachedRole)) == Index(st, sess)
  {
  }

  /** On the three known roles the server agrees with the browser's
      redirectToDashboard about which dashboard is meant; on any other role
      the browser picks the parent dashboard while the server sends the
      user to the login page. */
  lemma ServerAndClientDisagreeOnUnknownRoles(st: Store, sess: Session)
    requires ServerAuth.GetCurrentUser(st, sess).Some?
    ensures var role := ServerAuth.GetCurrentUser(st, sess).value.role;
            HomeOf(role).None? ==>
              Index(st, sess) == Redirect(LoginPage)
              && ClientSession.DashboardFor(role) == ClientSession.ParentDashboard
    ensures var role := ServerAuth.GetCurrentUser(st, sess).value.role;
            role == "sacco" <==> (Index(st, sess) == Redirect(SaccoHome)
                                  && ClientSession.DashboardFor(role) == ClientSession.SaccoDashboard)
  {
  }
}

=== FILE: password.dfy ===
/** The password-strength meter of the registration form
    (assets/js/auth.js): four criteria worth 25 points each, a hint for every
    criterion that is not met, and a three-way label with its colours. */
module PasswordStrength {
  import opened Common

  datatype Strength = Strength(score: int, feedback: seq<string>)

  datatype Label = Weak | Medium | Strong

  /** What the meter shows: bar width in percent, bar class, text, text class. */
  datatype Display = Display(widthPercent: int, barClass: string, text: string, textClass: string)

  const LengthHint := "At least 8 characters"
  const LowerHint := "Lowercase letter"
  const UpperHint := "Uppercase letter"
  const DigitHint := "Number"

  /** The hints in the order the criteria are checked. */
  const Hints: seq<string> := [LengthHint, LowerHint, UpperHint, DigitHint]

  /** `password.length >= 8`, where length counts UTF-16 code units. */
  predicate LongEnough(p: string) { Utf16Length(p) >= 8 }
  predicate HasLowercase(p: string) { HasCharWhere(p, IsLower) }
  predicate HasUppercase(p: string) { HasCharWhere(p, IsUpper) }
  predicate HasDigit(p: string) { HasCharWhere(p, IsDigit) }

  /** Whether each criterion holds, in the order of `Hints`. */
  function Criteria(p: string): seq<bool> {
    [LongEnough(p), HasLowercase(p), HasUppercase(p), HasDigit(p)]
  }

  /** How many of the flags are set. */
  function Count(met: seq<bool>): (n: nat)
    ensures n <= |met|
  {
    if met == [] then 0 else (if met[0] then 1 else 0) + Count(met[1..])
  }

  /** How many criteria the password meets. */
  function MetCount(p: string): (n: nat)
    ensures n <= 4
  {
    Count(Criteria(p))
  }

  /** `h` is the hint of some criterion that fails. */
  ghost predicate HintOfFailed(met: seq<bool>, hints: seq<string>, h: string) {
    exists i :: 0 <= i < |met| && i < |hints| && !met[i] && hints[i] == h
  }

  /** The hints whose criterion fails, keeping their order. */
  function Unmet(met: seq<bool>, hints: seq<string>): (r: seq<string>)
    requires |met| == |hints|
    ensures |r| + Count(met) == |met|
    ensures forall h :: h in r <==> HintOfFailed(met, hints, h)
  {
    if met == [] then []
    else
      var rest := Unmet(met[1..], hints[1..]);
      assert forall h :: HintOfFailed(met, hints, h)
                         <==> (!met[0] && hints[0] == h) || HintOfFailed(met[1..], hints[1..], h) by {
        forall h ensures HintOfFailed(met, hints, h)
                         <==> (!met[0] && hints[0] == h) || HintOfFailed(met[1..], hints[1..], h) {
          if HintOfFailed(met, hints, h) {
            var i :| 0 <= i < |met| && i < |hints| && !met[i] && hints[i] == h;
            if i > 0 {
              assert !met[1..][i - 1] && hints[1..][i - 1] == h;
            }
          }
          if HintOfFailed(met[1..], hints[1..], h) {
            var i :| 0 <= i < |met[1..]| && i < |hints[1..]| && !met[1..][i] && hints[1..][i] == h;
            assert !met[i + 1] && hints[i + 1] == h;
          }
        }
      }
      (if met[0] then [] else [hints[0]]) + rest
  }

  /** The checks of calculatePasswordStrength run in order over the flags:
      a met criterion adds 25 points, an unmet one appends its hint. */
  function Accumulate(acc: Strength, met: seq<bool>, hints: seq<string>): (r: Strength)
    requires |met| == |hints|
    ensures r.score == acc.score + 25 * Count(met)
    ensures r.feedback == acc.feedback + Unmet(met, hints)
    decreases |met|
  {
    if met == [] then acc
    else
      var next := if met[0] then acc.(score := acc.score + 25)
                  else acc.(feedback := acc.feedback + [hints[0]]);
      Accumulate(next, met[1..], hints[1..])
  }

  /** calculatePasswordStrength. */
  function Calculate(p: string): (r: Strength)
    ensures r.score == 25 * MetCount(p)
    ensures r.score in {0, 25, 50, 75, 100}
    ensures r.score + 25 * |r.feedback| == 100
    ensures r.feedback == Unmet(Criteria(p), Hints)
  {
    Accumulate(Strength(0, []), Criteria(p), Hints)
  }

  ghost predicate Distinct(hints: seq<string>) {
    forall i, j :: 0 <= i < j < |hints| ==> hints[i] != hints[j]
  }

  lemma HintInUnmet(met: seq<bool>, hints: seq<string>, k: int)
    requires |met| == |hints| && 0 <= k < |met| && Distinct(hints)
    ensures hints[k] in Unmet(met, hints) <==> !met[k]
  {
    if HintOfFailed(met, hints, hints[k]) {
      var i :| 0 <= i < |met| && i < |hints| && !met[i] && hints[i] == hints[k];
      assert i == k;
    }
  }

  /** A hint is shown exactly when its own criterion fails. */
  lemma HintShownIffCriterionFails(p: string)
    ensures LengthHint in Calculate(p).feedback <==> !LongEnough(p)
    ensures LowerHint in Calculate(p).feedback <==> !HasLowercase(p)
    ensures UpperHint in Calculate(p).feedback <==> !HasUppercase(p)
    ensures DigitHint in Calculate(p).feedback <==> !HasDigit(p)
  {
    var c := Criteria(p);
    assert Distinct(Hints);
    HintInUnmet(c, Hints, 0);
    HintInUnmet(c, Hints, 1);
    HintInUnmet(c, Hints, 2);
    HintInUnmet(c, Hints, 3);
  }

  /** The label updatePasswordStrength picks from a score. */
  function LabelOf(score: int): (l: Label)
    ensures l == Weak <==> score < 50
    ensures l == Medium <==> 50 <= score < 75
    ensures l == Strong <==> score >= 75
  {
    if score < 50 then Weak else if score < 75 then Medium else Strong
  }

  /** updatePasswordStrength: the bar is as wide as the score and the label
      picks the colour. */
  function ShowStrength(s: Strength): (d: Display)
    ensures d.widthPercent == s.score
    ensures LabelOf(s.score) == Weak ==>
      d == Display(s.score, "progress-bar bg-danger", "Weak password", "text-danger")
    ensures LabelOf(s.score) == Medium ==>
      d == Display(s.score, "progress-bar bg-warning", "Medium password", "text-warning")
    ensures LabelOf(s.score) == Strong ==>
      d == Display(s.score, "progress-bar bg-success", "Strong password", "text-success")
  {
    match LabelOf(s.score)
    case Weak => Display(s.score, "progress-bar bg-danger", "Weak password", "text-danger")
    case Medium => Display(s.score, "progress-bar bg-warning", "Medium password", "text-warning")
    case Strong => Display(s.score, "progress-bar bg-success", "Strong password", "text-success")
  }

  /** A password is labelled by how many criteria it meets: Strong means at
      least three, Medium exactly two, Weak at most one. */
  lemma LabelByCriteria(p: string)
    ensures LabelOf(Calculate(p).score) == Strong <==> MetCount(p) >= 3
    ensures LabelOf(Calculate(p).score) == Medium <==> MetCount(p) == 2
    ensures LabelOf(Calculate(p).score) == Weak <==> MetCount(p) <= 1
  {
  }

  /** What the meter shows for a typed password: the bar is 25 points wide
      per criterion met, and the text reads "Strong password" exactly when
      at least three criteria are met, "Medium password" exactly when two
      are, and "Weak password" otherwise. */
  lemma MeterShowsCriteria(p: string)
    ensures ShowStrength(Calculate(p)).widthPercent == 25 * MetCount(p)
    ensures ShowStrength(Calculate(p)).text == "Strong password" <==> MetCount(p) >= 3
    ensures ShowStrength(Calculate(p)).text == "Medium password" <==> MetCount(p) == 2
    ensures ShowStrength(Calculate(p)).text == "Weak password" <==> MetCount(p) <= 1
  {
  }

  /** The meter is full exactly when no hint is shown. */
  lemma FullScoreIffNoFeedback(p: string)
    ensures Calculate(p).score == 100 <==> Calculate(p).feedback == []
  {
  }

  /** Example: a short all-lowercase password meets one criterion and is
      Weak, and its hints come in the checking order. */
  lemma ShortLowercaseIsWeak()
    ensures Calculate("abc").feedback == [LengthHint, UpperHint, DigitHint]
    ensures LabelOf(Calculate("abc").score) == Weak
  {
    assert IsLower("abc"[0]);
    assert !LongEnough("abc");
    assert !HasUppercase("abc");
    assert !HasDigit("abc");
    var c := Criteria("abc");
    assert c == [false, true, false, false];
    assert Unmet(c[3..], Hints[3..]) == [DigitHint];
    assert Unmet(c[2..], Hints[2..]) == [UpperHint, DigitHint];
    assert Unmet(c[1..], Hints[1..]) == [UpperHint, DigitHint];
  }
}

=== FILE: payment.dfy ===
/** parent/payment.php: the page that shows a booking of the current parent
    and records a simulated M-Pesa payment for it. The POST handler does
    not look at earlier payments or at the booking's status: it always
    adds a completed payment and marks the booking confirmed. */
module PaymentPage {
  import opened Common
  import opened Store
  import ServerAuth
  import BookTrip

  const BookingsLocation := "bookings.php"
  const PaidNotice := "Payment successful! Your booking has been confirmed."

  /** `!$booking_id`: a missing parameter, "" and "0" are all false in PHP. */
  predicate PhpFalsy(v: Option<string>) {
    v.None? || v.value == "" || v.value == "0"
  }

  /** The booking row of the joined query: that id, owned by the parent,
      with its trip, its student and the trip's sacco present. */
  predicate Joined(st: Store, id: nat, parentId: nat, b: Booking) {
    && b.id == id && b.parentId == parentId
    && TripById(st, b.tripId).Some? && StudentById(st, b.studentId).Some?
    && UserById(st, TripById(st, b.tripId).value.saccoId).Some?
  }

  /** The booking lookup, with its trip. The parameter is compared with
      numeric ids, read here as a decimal number. */
  function FindBooking(st: Store, param: string, parentId: nat): (r: Option<(Booking, Trip)>)
    ensures ParseDecimal(param).None? ==> r.None?
    ensures r.Some? ==> var id := ParseDecimal(param).value;
      r.value.0 in st.bookings && Joined(st, id, parentId, r.value.0)
      && Some(r.value.1) == TripById(st, r.value.0.tripId)
    ensures ParseDecimal(param).Some? && r.None? ==>
      forall k :: 0 <= k < |st.bookings| ==> !Joined(st, ParseDecimal(param).value, parentId, st.bookings[k])
  {
    match ParseDecimal(param)
    case None => None
    case Some(id) =>
      match First(st.bookings, (b: Booking) => Joined(st, id, parentId, b))
      case None => None
      case Some(b) => Some((b, TripById(st, b.tripId).value))
  }

  /** `SELECT * FROM payments WHERE booking_id = ?`, first row. */
  function FirstPayment(st: Store, bookingId: nat): (r: Option<Payment>)
    ensures r.None? <==> forall k :: 0 <= k < |st.payments| ==> st.payments[k].bookingId != bookingId
    ensures r.Some? ==> r.value in st.payments && r.value.bookingId == bookingId
  {
    First(st.payments, (p: Payment) => p.bookingId == bookingId)
  }

  /** The form is offered unless the payment found is completed. */
  predicate FormShown(p: Option<Payment>) {
    !(p.Some? && p.value.status == PaymentCompleted)
  }

  /** 'TXN' . time() . rand(1000, 9999). */
  function TransactionRef(now: nat, rand: nat): (r: string)
    requires 1000 <= rand <= 9999
    ensures |r| >= 8 && r[..3] == "TXN" && AllDigits(r[3..])
    ensures r[|r| - 4..] == NatToString(rand)
    ensures r == "TXN" + NatToString(now) + NatToString(rand)
  {
    var t := NatToString(now);
    var d := NatToString(rand);
    assert |d| == 4 by { FourDigits(rand); }
    var r := "TXN" + t + d;
    assert r[3..] == t + d;
    r
  }

  lemma FourDigits(n: nat)
    requires 1000 <= n <= 9999
    ensures |NatToString(n)| == 4
  {
    assert NatToString(n) == NatToString(n / 10) + [DigitChar(n % 10)];
    assert NatToString(n / 10) == NatToString(n / 100) + [DigitChar(n / 10 % 10)];
    assert NatToString(n / 100) == NatToString(n / 1000) + [DigitChar(n / 100 % 10)];
  }

  /** What the POST reads: the phone number (not used further), the clock
      and the random draw. */
  datatype PayRequest = PayRequest(phone: string, now: nat, rand: nat)

  /** The payment a POST inserts. */
  function NewPayment(st: Store, b: Booking, t: Trip, req: PayRequest): Payment
    requires 1000 <= req.rand <= 9999
  {
    Payment(st.nextPaymentId, b.id, t.costPerSeat, PaymentCompleted, "mpesa", TransactionRef(req.now, req.rand), req.now)
  }

  /** The POST: insert the payment, confirm the booking, notify the parent. */
  function PayPost(st: Store, parentId: nat, b: Booking, t: Trip, req: PayRequest): (r: Store)
    requires 1000 <= req.rand <= 9999
    ensures r.payments == st.payments + [NewPayment(st, b, t, req)]
    ensures r.bookings == ConfirmBooking(st.bookings, b.id)
    ensures r.notifications == st.notifications + [Notification(st.nextNotificationId, parentId, PaidNotice, "success", false)]
    ensures r == st.(payments := r.payments, bookings := r.bookings, notifications := r.notifications,
                     nextPaymentId := st.nextPaymentId + 1, nextNotificationId := st.nextNotificationId + 1)
  {
    var st1 := st.(payments := st.payments + [NewPayment(st, b, t, req)], nextPaymentId := st.nextPaymentId + 1);
    var st2 := st1.(bookings := ConfirmBooking(st1.bookings, b.id));
    ServerAuth.AddNotification(st2, parentId, PaidNotice, "success")
  }

  datatype PayPage =
    | PayRedirect(store: Store, location: string)
    | PayView(store: Store, success: string, booking: Booking, trip: Trip, payment: Option<Payment>, formShown: bool)

  /** The whole request. */
  function Page(st: Store, sess: Session, param: Option<string>, post: Option<PayRequest>): (r: PayPage)
    requires post.Some? ==> 1000 <= post.value.rand <= 9999
    ensures ServerAuth.RequireRole(st, sess, "parent") != ServerAuth.Proceed ==>
      r == PayRedirect(st, ServerAuth.RequireRole(st, sess, "parent").location)
    ensures r.PayRedirect? && ServerAuth.RequireRole(st, sess, "parent") == ServerAuth.Proceed ==>
      r == PayRedirect(st, BookingsLocation)
    ensures r.PayView? ==> r.formShown == FormShown(r.payment) && r.payment == FirstPayment(r.store, r.booking.id)
    ensures r.PayView? && post.None? ==> r.store == st && r.success == ""
    ensures r.PayView? && post.Some? ==> r.success == PaidNotice
    ensures ServerAuth.RequireRole(st, sess, "parent") == ServerAuth.Proceed ==>
      var u := ServerAuth.GetCurrentUser(st, sess).value;
      && (r.PayView? <==> !PhpFalsy(param) && FindBooking(st, param.value, u.id).Some?)
      && (r.PayView? ==> (r.booking, r.trip) == FindBooking(st, param.value, u.id).value)
      && (r.PayView? && post.Some? ==> r.store == PayPost(st, u.id, r.booking, r.trip, post.value))
  {
    match ServerAuth.RequireRole(st, sess, "parent")
    case RedirectTo(l) => PayRedirect(st, l)
    case Proceed =>
      var u := ServerAuth.GetCurrentUser(st, sess).value;
      if PhpFalsy(param) then PayRedirect(st, BookingsLocation)
      else
        match FindBooking(st, param.value, u.id)
        case None => PayRedirect(st, BookingsLocation)
        case Some(found) =>
          var (b, t) := found;
          match post
          case None =>
            var p := FirstPayment(st, b.id);
            PayView(st, "", b, t, p, FormShown(p))
          case Some(req) =>
            var st2 := PayPost(st, u.id, b, t, req);
            var p := FirstPayment(st2, b.id);
            PayView(st2, PaidNotice, b, t, p, FormShown(p))
  }

  // ---------------------------------------------------------------------
  // Guards
  // ---------------------------------------------------------------------

  /** No usable booking id: back to the bookings list, nothing changed. */
  lemma MissingIdRedirects(st: Store, sess: Session, param: Option<string>, post: Option<PayRequest>)
    requires post.Some? ==> 1000 <= post.value.rand <= 9999
    requires ServerAuth.RequireRole(st, sess, "parent") == ServerAuth.Proceed
    requires PhpFalsy(param)
    ensures Page(st, sess, param, post) == PayRedirect(st, BookingsLocation)
  {
  }

  /** A booking id that names no booking of this parent: back to the list,
      nothing changed, even on a POST. */
  lemma ForeignBookingRedirects(st: Store, sess: Session, id: nat, post: Option<PayRequest>)
    requires post.Some? ==> 1000 <= post.value.rand <= 9999
    requires ServerAuth.RequireRole(st, sess, "parent") == ServerAuth.Proceed
    requires forall k :: 0 <= k < |st.bookings| && st.bookings[k].id == id ==>
      st.bookings[k].parentId != ServerAuth.GetCurrentUser(st, sess).value.id
    ensures Page(st, sess, Some(NatToString(id)), post) == PayRedirect(st, BookingsLocation)
  {
    ParseDecimalRoundTrip(id);
  }

  // ---------------------------------------------------------------------
  // The POST
  // ---------------------------------------------------------------------

  /** A POST records one completed M-Pesa payment of the trip's cost per
      seat, with a "TXN" reference, and confirms the booking whatever its
      status was; every other booking is left as it was. */
  lemma PostRecordsPayment(st: Store, sess: Session, param: Option<string>, req: PayRequest)
    requires 1000 <= req.rand <= 9999
    requires Page(st, sess, param, Some(req)).PayView?
    ensures var r := Page(st, sess, param, Some(req));
            var p := r.store.payments[|st.payments|];
            && |r.store.payments| == |st.payments| + 1
            && r.store.payments[..|st.payments|] == st.payments
            && p.bookingId == r.booking.id && p.amount == r.trip.costPerSeat
            && p.status == PaymentCompleted && p.paymentMethod == "mpesa"
            && p.transactionRef[..3] == "TXN"
    ensures var r := Page(st, sess, param, Some(req));
            && |r.store.bookings| == |st.bookings|
            && (forall k :: 0 <= k < |st.bookings| && st.bookings[k].id == r.booking.id ==>
                  r.store.bookings[k] == st.bookings[k].(status := Confirmed))
            && (forall k :: 0 <= k < |st.bookings| && st.bookings[k].id != r.booking.id ==>
                  r.store.bookings[k] == st.bookings[k])
  {
  }

  /** The number of completed payments recorded for a booking. */
  function CompletedPayments(ps: seq<Payment>, bookingId: nat): (n: nat)
    ensures n <= |ps|
  {
    if ps == [] then 0
    else (if ps[0].bookingId == bookingId && ps[0].status == PaymentCompleted then 1 else 0)
         + CompletedPayments(ps[1..], bookingId)
  }

  lemma {:induction false} CompletedPaymentsAppend(ps: seq<Payment>, p: Payment, bookingId: nat)
    ensures CompletedPayments(ps + [p], bookingId)
         == CompletedPayments(ps, bookingId) + (if p.bookingId == bookingId && p.status == PaymentCompleted then 1 else 0)
  {
    if ps != [] {
      assert (ps + [p])[1..] == ps[1..] + [p];
      CompletedPaymentsAppend(ps[1..], p, bookingId);
    } else {
      assert [] + [p] == [p];
    }
  }

  /** Nothing stops a second payment: every POST adds one more completed
      payment for the booking, so a booking paid before ends up paid
      twice. */
  lemma PostAlwaysPays(st: Store, sess: Session, param: Option<string>, req: PayRequest)
    requires 1000 <= req.rand <= 9999
    requires Page(st, sess, param, Some(req)).PayView?
    ensures var r := Page(st, sess, param, Some(req));
            CompletedPayments(r.store.payments, r.booking.id) == CompletedPayments(st.payments, r.booking.id) + 1
  {
    var r := Page(st, sess, param, Some(req));
    CompletedPaymentsAppend(st.payments, r.store.payments[|st.payments|], r.booking.id);
    assert r.store.payments == st.payments + [r.store.payments[|st.payments|]];
  }

  lemma FirstPaymentAfterPost(st: Store, parentId: nat, b: Booking, t: Trip, req: PayRequest)
    requires 1000 <= req.rand <= 9999
    ensures FirstPayment(PayPost(st, parentId, b, t, req), b.id)
         == if FirstPayment(st, b.id).Some? then FirstPayment(st, b.id) else Some(NewPayment(st, b, t, req))
  {
    var q := (p: Payment) => p.bookingId == b.id;
    var ps := st.payments + [NewPayment(st, b, t, req)];
    assert q(ps[|st.payments|]);
    var i := FirstIndex(st.payments, q);
    var j := FirstIndex(ps, q);
    if i.Some? {
      assert ps[i.value] == st.payments[i.value];
      assert j == i;
    } else {
      assert j == Some(|st.payments|);
    }
  }

  /** After a POST the page shows the booking's first payment: the new one
      when there was none, so the form is hidden; an earlier payment
      otherwise, whatever its status. */
  lemma PostShowsFirstPayment(st: Store, sess: Session, param: Option<string>, req: PayRequest)
    requires 1000 <= req.rand <= 9999
    requires Page(st, sess, param, Some(req)).PayView?
    ensures var r := Page(st, sess, param, Some(req));
            FirstPayment(st, r.booking.id).Some? ==> r.payment == FirstPayment(st, r.booking.id)
    ensures var r := Page(st, sess, param, Some(req));
            FirstPayment(st, r.booking.id).None? ==> r.payment == Some(r.store.payments[|st.payments|]) && !r.formShown
  {
    var r := Page(st, sess, param, Some(req));
    var u := ServerAuth.GetCurrentUser(st, sess).value;
    assert r.store == PayPost(st, u.id, r.booking, r.trip, req);
    FirstPaymentAfterPost(st, u.id, r.booking, r.trip, req);
  }

  /** Confirming a booking keeps every trip's booking count, so the seat
      ledger is untouched by payments. */
  lemma {:induction false} BookingsOnConfirm(bs: seq<Booking>, id: nat, tripId: nat)
    ensures BookingsOn(ConfirmBooking(bs, id), tripId) == BookingsOn(bs, tripId)
  {
    if bs != [] {
      assert ConfirmBooking(bs, id)[1..] == ConfirmBooking(bs[1..], id);
      BookingsOnConfirm(bs[1..], id, tripId);
    }
  }

  lemma PaymentKeepsSeatLedger(st: Store, sess: Session, param: Option<string>, req: PayRequest, tid: nat)
    requires 1000 <= req.rand <= 9999
    requires Page(st, sess, param, Some(req)).PayView?
    ensures var st2 := Page(st, sess, param, Some(req)).store;
            st2.trips == st.trips && BookingsOn(st2.bookings, tid) == BookingsOn(st.bookings, tid)
  {
    var r := Page(st, sess, param, Some(req));
    BookingsOnConfirm(st.bookings, r.booking.id, tid);
  }

  /** A POST keeps the store's integrity. */
  lemma PaymentKeepsValid(st: Store, sess: Session, param: Option<string>, req: PayRequest)
    requires 1000 <= req.rand <= 9999
    requires Valid(st)
    ensures Valid(Page(st, sess, param, Some(req)).store)
  {
    var r := Page(st, sess, param, Some(req));
    if r.PayView? {
      var st2 := r.store;
      var u := ServerAuth.GetCurrentUser(st, sess).value;
      assert HasUser(st, u.id) by {
        var k :| 0 <= k < |st.users| && st.users[k] == u;
      }
      assert HasBooking(st, r.booking.id) by {
        var k :| 0 <= k < |st.bookings| && st.bookings[k] == r.booking;
      }
      assert st2 == PayPost(st, u.id, r.booking, r.trip, req);
      PaymentKeepsValidStep(st, u.id, r.booking, r.trip, req);
    }
  }

  lemma PayPostIdsOk(st: Store, parentId: nat, b: Booking, t: Trip, req: PayRequest)
    requires 1000 <= req.rand <= 9999
    requires BookingIdsOk(st) && PaymentIdsOk(st) && NotificationIdsOk(st)
    ensures var st2 := PayPost(st, parentId, b, t, req);
            BookingIdsOk(st2) && PaymentIdsOk(st2) && NotificationIdsOk(st2)
  {
    var st2 := PayPost(st, parentId, b, t, req);
    assert BookingIdsOk(st2) by {
      assert forall k :: 0 <= k < |st2.bookings| ==> st2.bookings[k].id == st.bookings[k].id;
    }
    assert PaymentIdsOk(st2) by {
      assert forall k :: 0 <= k < |st.payments| ==> st2.payments[k] == st.payments[k];
    }
    assert NotificationIdsOk(st2) by {
      assert forall k :: 0 <= k < |st.notifications| ==> st2.notifications[k] == st.notifications[k];
    }
  }

  lemma PayPostReferencesOk(st: Store, parentId: nat, b: Booking, t: Trip, req: PayRequest)
    requires 1000 <= req.rand <= 9999
    requires ReferencesOk(st) && HasUser(st, parentId) && HasBooking(st, b.id)
    ensures ReferencesOk(PayPost(st, parentId, b, t, req))
  {
    var st2 := PayPost(st, parentId, b, t, req);
    assert st2.users == st.users && st2.trips == st.trips && st2.students == st.students;
    forall id | HasBooking(st, id) ensures HasBooking(st2, id) {
      ConfirmBookingKeepsBookings(st, b.id, id);
    }
    forall i | 0 <= i < |st2.bookings|
      ensures HasTrip(st2, st2.bookings[i].tripId) && HasStudent(st2, st2.bookings[i].studentId)
              && HasUser(st2, st2.bookings[i].parentId)
    {
      assert st2.bookings[i].tripId == st.bookings[i].tripId;
      assert st2.bookings[i].studentId == st.bookings[i].studentId;
      assert st2.bookings[i].parentId == st.bookings[i].parentId;
    }
    forall i | 0 <= i < |st2.payments| ensures HasBooking(st2, st2.payments[i].bookingId) {
      if i < |st.payments| {
        assert st2.payments[i] == st.payments[i];
      }
    }
    forall i | 0 <= i < |st2.notifications| ensures HasUser(st2, st2.notifications[i].toUserId) {
      if i < |st.notifications| {
        assert st2.notifications[i] == st.notifications[i];
      }
    }
  }

  lemma PaymentKeepsValidStep(st: Store, parentId: nat, b: Booking, t: Trip, req: PayRequest)
    requires 1000 <= req.rand <= 9999
    requires Valid(st) && HasUser(st, parentId) && HasBooking(st, b.id)
    ensures Valid(PayPost(st, parentId, b, t, req))
  {
    PayPostIdsOk(st, parentId, b, t, req);
    PayPostReferencesOk(st, parentId, b, t, req);
  }

  // ---------------------------------------------------------------------
  // From book-trip.php to payment.php
  // ---------------------------------------------------------------------

  /** The trip a booked POST decremented is still found, with the same
      sacco. */
  lemma TripAfterBooking(st: Store, tripId: nat)
    requires TripById(st, tripId).Some?
    ensures TripById(st.(trips := DecrementSeats(st.trips, tripId)), tripId).Some?
    ensures TripById(st.(trips := DecrementSeats(st.trips, tripId)), tripId).value.saccoId
         == TripById(st, tripId).value.saccoId
  {
    var ts := DecrementSeats(st.trips, tripId);
    BookTrip.FirstIndexSameIds(st.trips, ts, tripId);
  }

  /** A booking appended behind rows with other ids is the one the lookup
      finds. */
  lemma FindAppended(st: Store, bs: seq<Booking>, nb: Booking, param: string, parentId: nat)
    requires st.bookings == bs + [nb] && ParseDecimal(param) == Some(nb.id)
    requires forall k :: 0 <= k < |bs| ==> bs[k].id != nb.id
    requires Joined(st, nb.id, parentId, nb)
    ensures FindBooking(st, param, parentId).Some? && FindBooking(st, param, parentId).value.0 == nb
  {
    var p := (b: Booking) => Joined(st, nb.id, parentId, b);
    assert p(st.bookings[|bs|]);
    assert forall k :: 0 <= k < |bs| ==> !p(st.bookings[k]);
    assert FirstIndex(st.bookings, p) == Some(|bs|);
  }

  /** Payments only name existing bookings, so an id not yet handed out has
      none. */
  lemma NoPaymentForNextBooking(st: Store)
    requires Valid(st)
    ensures FirstPayment(st, st.nextBookingId).None?
  {
    forall k | 0 <= k < |st.payments| ensures st.payments[k].bookingId != st.nextBookingId {
      assert HasBooking(st, st.payments[k].bookingId);
    }
  }

  /** A booking id handed out by a valid store is never "0", so PHP reads
      its decimal text as true. */
  lemma NextBookingIdTruthy(st: Store)
    requires Valid(st)
    ensures !PhpFalsy(Some(NatToString(st.nextBookingId)))
  {
    ParseDecimalRoundTrip(st.nextBookingId);
  }

  /** The redirect a successful booking sends leads to a payment page that
      finds the new booking, provided the trip's sacco has a user row (the
      page joins on it). */
  lemma BookThenPay(st: Store, parentId: nat, tripId: nat, studentId: nat, dbError: string)
    requires Valid(st)
    requires BookTrip.BookTripPost(st, parentId, tripId, studentId, dbError).Booked?
    requires UserById(st, TripById(st, tripId).value.saccoId).Some?
    ensures var r := BookTrip.BookTripPost(st, parentId, tripId, studentId, dbError);
            var found := FindBooking(r.store, NatToString(r.bookingId), parentId);
            found.Some? && found.value.0 == BookTrip.NewBooking(st, parentId, tripId, studentId)
    ensures var r := BookTrip.BookTripPost(st, parentId, tripId, studentId, dbError);
            FirstPayment(r.store, r.bookingId).None?
  {
    var r := BookTrip.BookTripPost(st, parentId, tripId, studentId, dbError);
    var st2 := r.store;
    var nb := BookTrip.NewBooking(st, parentId, tripId, studentId);
    ParseDecimalRoundTrip(r.bookingId);
    TripAfterBooking(st, tripId);
    assert st2.trips == DecrementSeats(st.trips, tripId);
    assert TripById(st2, tripId) == TripById(st.(trips := DecrementSeats(st.trips, tripId)), tripId);
    assert UserById(st2, TripById(st, tripId).value.saccoId) == UserById(st, TripById(st, tripId).value.saccoId);
    assert StudentById(st2, studentId) == StudentById(st, studentId);
    assert Joined(st2, nb.id, parentId, nb);
    FindAppended(st2, st.bookings, nb, NatToString(r.bookingId), parentId);
    NoPaymentForNextBooking(st);
    assert FirstPayment(st2, r.bookingId) == FirstPayment(st, st.nextBookingId);
  }

  /** The whole round trip, page by page: a parent's booking POST that
      succeeds redirects to payment.php with the new id, and that page,
      loaded by the same session, shows the new booking with no payment and
      offers the form. */
  lemma BookThenPayPage(st: Store, sess: Session, today: int, req: BookTrip.BookRequest, dbError: string)
    requires Valid(st)
    requires ServerAuth.RequireRole(st, sess, "parent") == ServerAuth.Proceed
    requires BookTrip.BookTripPage(st, sess, today, Some(req), dbError).BookRedirect?
    requires TripById(st, req.tripId).Some? ==> UserById(st, TripById(st, req.tripId).value.saccoId).Some?
    ensures var b := BookTrip.BookTripPage(st, sess, today, Some(req), dbError);
            b.location == "payment.php?booking_id=" + NatToString(st.nextBookingId)
    ensures var b := BookTrip.BookTripPage(st, sess, today, Some(req), dbError);
            var u := ServerAuth.GetCurrentUser(st, sess).value;
            var p := Page(b.store, sess, Some(NatToString(st.nextBookingId)), None);
            && p.PayView? && p.store == b.store
            && p.booking == BookTrip.NewBooking(st, u.id, req.tripId, req.studentId)
            && p.payment.None? && p.formShown
  {
    var u := ServerAuth.GetCurrentUser(st, sess).value;
    var o := BookTrip.BookTripPost(st, u.id, req.tripId, req.studentId, dbError);
    assert o.Booked?;
    var st2 := o.store;
    assert st2.users == st.users;
    assert ServerAuth.GetCurrentUser(st2, sess) == ServerAuth.GetCurrentUser(st, sess);
    assert ServerAuth.RequireRole(st2, sess, "parent") == ServerAuth.RequireRole(st, sess, "parent");
    BookThenPay(st, u.id, req.tripId, req.studentId, dbError);
    NextBookingIdTruthy(st);
  }
}

=== FILE: phone.dfy ===
/** Kenyan phone numbers in the browser scripts: the validator of
    assets/js/main.js, the tel-input normaliser of assets/js/auth.js and
    formatPhoneNumber of assets/js/app.js. */
module Phone {
  import opened Common

  /** `replace(/\D/g, '')`: keeps the ASCII digits, in order. */
  function KeepDigits(s: string): (r: string)
    ensures AllDigits(r)
    ensures |r| <= |s|
    ensures AllDigits(s) ==> r == s
    ensures |s| == 1 ==> r == (if IsDigit(s[0]) then s else [])
  {
    if s == [] then []
    else (if IsDigit(s[0]) then [s[0]] else []) + KeepDigits(s[1..])
  }

  /** Together with the one-character case above, this fixes KeepDigits:
      the digits of a concatenation are the digits of each part, in
      order. */
  lemma {:induction false} KeepDigitsAppend(a: string, b: string)
    ensures KeepDigits(a + b) == KeepDigits(a) + KeepDigits(b)
  {
    if a == [] {
      assert a + b == b;
    } else {
      assert (a + b)[1..] == a[1..] + b;
      KeepDigitsAppend(a[1..], b);
    }
  }

  /** The nine characters after the prefix: `[17]\d{8}`. */
  predicate MobileTail(t: string) {
    |t| == 9 && (t[0] == '1' || t[0] == '7') && AllDigits(t[1..])
  }

  /** validatePhone, `/^(\+254|0)[17]\d{8}$/`, decided character by
      character. */
  function ValidatePhone(s: string): (r: bool)
    ensures r <==> || (|s| == 13 && s[..4] == "+254" && MobileTail(s[4..]))
                   || (|s| == 10 && s[0] == '0' && MobileTail(s[1..]))
  {
    if s == [] then false
    else if s[0] == '+' then
      |s| >= 4 && s[1] == '2' && s[2] == '5' && s[3] == '4' && MobileTail(s[4..])
    else if s[0] == '0' then
      MobileTail(s[1..])
    else
      false
  }

  /** Accepted numbers have 13 characters in international form and 10 in
      local form. */
  lemma ValidPhoneLength(s: string)
    requires ValidatePhone(s)
    ensures |s| == 13 || |s| == 10
    ensures |s| == 13 <==> s[0] == '+'
  {
  }

  /** The normaliser auth.js applies to every tel input: keep the digits,
      then prefix '+' to a number starting with 254, keep one starting with
      0, and prefix '0' to any other non-empty number. */
  function NormaliseTel(s: string): (r: string)
    ensures r == [] <==> KeepDigits(s) == []
    ensures r != [] ==> r[0] == '+' || r[0] == '0'
    ensures r != [] && r[0] == '+' ==> AllDigits(r[1..]) && "254" <= r[1..]
    ensures r != [] && r[0] == '0' ==> AllDigits(r)
    ensures var d := KeepDigits(s);
            KeepDigits(r) == if d == [] || "254" <= d || "0" <= d then d else "0" + d
  {
    var d := KeepDigits(s);
    if "254" <= d then KeepDigitsAppend("+", d); "+" + d
    else if "0" <= d then d
    else if |d| > 0 then KeepDigitsAppend("0", d); "0" + d
    else d
  }

  /** Normalising a normalised number changes nothing. */
  lemma NormaliseTelIdempotent(s: string)
    ensures NormaliseTel(NormaliseTel(s)) == NormaliseTel(s)
  {
    var d := KeepDigits(s);
    var r := NormaliseTel(s);
    if "254" <= d {
      KeepDigitsAppend("+", d);
      assert KeepDigits(r) == d;
    } else if "0" <= d {
      assert KeepDigits(r) == d;
    } else if |d| > 0 {
      KeepDigitsAppend("0", d);
      assert KeepDigits(r) == r;
      assert !("254" <= r);
    }
  }

  /** Every number validatePhone accepts is left as it is by the
      normaliser. */
  lemma ValidPhoneIsNormalised(s: string)
    requires ValidatePhone(s)
    ensures NormaliseTel(s) == s
  {
    if s[0] == '+' {
      InternationalIsNormalised(s);
    } else {
      LocalIsNormalised(s);
    }
  }

  lemma InternationalIsNormalised(s: string)
    requires |s| == 13 && s[..4] == "+254" && MobileTail(s[4..])
    ensures NormaliseTel(s) == s
  {
    var d := s[1..];
    assert d == "254" + s[4..];
    assert AllDigits(s[4..]) by {
      assert s[4..] == [s[4]] + s[4..][1..];
    }
    DigitsAfterPrefix("254", s[4..]);
    assert s == "+" + d;
    PlusNumberIsNormalised(d);
  }

  lemma DigitsAfterPrefix(p: string, t: string)
    requires AllDigits(p) && AllDigits(t)
    ensures AllDigits(p + t)
  {
    assert forall i :: 0 <= i < |p + t| ==> (p + t)[i] == if i < |p| then p[i] else t[i - |p|];
  }

  /** '+' followed by digits starting with 254 is left alone. */
  lemma PlusNumberIsNormalised(d: string)
    requires AllDigits(d) && "254" <= d
    ensures NormaliseTel("+" + d) == "+" + d
  {
    KeepDigitsAppend("+", d);
    assert KeepDigits("+" + d) == d;
  }

  lemma LocalIsNormalised(s: string)
    requires |s| == 10 && s[0] == '0' && MobileTail(s[1..])
    ensures NormaliseTel(s) == s
  {
    assert s == [s[0]] + s[1..];
    assert s[1..] == [s[1]] + s[2..];
    assert AllDigits(s);
  }

  /** formatPhoneNumber: keep the digits, drop one leading '0', keep at most
      nine digits, and put a '0' in front. */
  function FormatPhoneNumber(s: string): (r: string)
    ensures 1 <= |r| <= 10 && r[0] == '0' && AllDigits(r)
    ensures var d := KeepDigits(s);
            var t := if "0" <= d then d[1..] else d;
            r[1..] == t[..if |t| > 9 then 9 else |t|]
  {
    var d := KeepDigits(s);
    var t := if "0" <= d then d[1..] else d;
    var u := if |t| > 9 then t[..9] else t;
    "0" + u
  }

  /** Input with no digits at all, the empty input included, becomes "0". */
  lemma FormatDigitFree(s: string)
    requires KeepDigits(s) == []
    ensures FormatPhoneNumber(s) == "0"
  {
  }

  /** Formatting a formatted number changes nothing. */
  lemma FormatPhoneNumberIdempotent(s: string)
    ensures FormatPhoneNumber(FormatPhoneNumber(s)) == FormatPhoneNumber(s)
  {
    var r := FormatPhoneNumber(s);
    assert KeepDigits(r) == r;
    assert "0" <= r;
    assert r == "0" + r[1..];
  }

  /** A valid number in local form is kept by formatPhoneNumber. */
  lemma FormatKeepsLocalNumber(s: string)
    requires ValidatePhone(s) && s[0] == '0'
    ensures FormatPhoneNumber(s) == s
  {
    assert s == [s[0]] + s[1..];
    assert s[1..] == [s[1]] + s[2..];
    assert AllDigits(s);
  }

  lemma SampleInternationalIsValid()
    ensures ValidatePhone("+254712345678")
  {
    assert "+254712345678"[4..] == "712345678";
    assert MobileTail("712345678");
  }

  /** formatPhoneNumber does not understand the international form: every
      valid +254 number becomes "0254..." cut to ten characters, which
      validatePhone rejects. */
  lemma FormatBreaksInternationalNumber(s: string)
    requires ValidatePhone(s) && s[0] == '+'
    ensures FormatPhoneNumber(s) == "0" + s[1..10]
    ensures !ValidatePhone(FormatPhoneNumber(s))
  {
    assert AllDigits(s[1..]) by {
      assert s[1..] == s[1..4] + s[4..];
      assert s[4..] == [s[4]] + s[5..];
    }
    assert KeepDigits(s) == s[1..];
    var r := FormatPhoneNumber(s);
    assert r[1] == '2';
  }
}

=== FILE: register_page.dfy ===
/** register.php: the server-side checks of the sign-up form, in a fixed
    order, before the account is created through `register`. The value
    password_hash returns is an argument, as in the rest of the model. */
module RegisterPage {
  import opened Common
  import opened Store
  import ServerAuth

  /** The posted fields. `schoolId` is None when the form sends none. */
  datatype RegisterForm = RegisterForm(
    name: string, email: string, phone: string,
    password: string, confirmPassword: string,
    role: string, schoolId: Option<string>)

  /** PHP's `empty` on a string: "" and "0" are both empty. */
  predicate PhpEmpty(s: string) {
    s == "" || s == "0"
  }

  /** The reasons the page refuses a form before touching the store. */
  datatype Refusal = MissingField | PasswordMismatch | PasswordTooShort

  function RefusalMessage(r: Refusal): string {
    match r
    case MissingField => "Please fill in all fields"
    case PasswordMismatch => "Passwords do not match"
    case PasswordTooShort => "Password must be at least 6 characters"
  }

  const Registered := "Registration successful! You can now login."

  /** Name, e-mail and phone are trimmed; password, confirmation and role
      are taken as sent. */
  function Trimmed(f: RegisterForm): (g: RegisterForm)
    ensures g.password == f.password && g.confirmPassword == f.confirmPassword
    ensures g.role == f.role && g.schoolId == f.schoolId
  {
    f.(name := PhpTrim(f.name), email := PhpTrim(f.email), phone := PhpTrim(f.phone))
  }

  /** Trimming the fields again changes nothing. */
  lemma TrimmedIdempotent(f: RegisterForm)
    ensures Trimmed(Trimmed(f)) == Trimmed(f)
  {
    TrimIdempotent(f.name, IsPhpTrimChar);
    TrimIdempotent(f.email, IsPhpTrimChar);
    TrimIdempotent(f.phone, IsPhpTrimChar);
  }

  predicate AnyEmpty(f: RegisterForm) {
    PhpEmpty(f.name) || PhpEmpty(f.email) || PhpEmpty(f.phone) || PhpEmpty(f.password) || PhpEmpty(f.role)
  }

  /** The checks, first failing one wins. The length is PHP's `strlen`,
      which counts the bytes of the UTF-8 encoding, not characters. */
  function Check(f: RegisterForm): (r: Option<Refusal>)
    ensures r == Some(MissingField) <==> AnyEmpty(Trimmed(f))
    ensures r == Some(PasswordMismatch) <==> !AnyEmpty(Trimmed(f)) && f.password != f.confirmPassword
    ensures r == Some(PasswordTooShort) <==>
      !AnyEmpty(Trimmed(f)) && f.password == f.confirmPassword && Utf8Length(f.password) < 6
    ensures r.None? <==>
      !AnyEmpty(Trimmed(f)) && f.password == f.confirmPassword && Utf8Length(f.password) >= 6
  {
    var g := Trimmed(f);
    if AnyEmpty(g) then Some(MissingField)
    else if g.password != g.confirmPassword then Some(PasswordMismatch)
    else if Utf8Length(g.password) < 6 then Some(PasswordTooShort)
    else None
  }

  datatype RegisterResult = RegisterResult(store: Store, error: string, success: string)

  /** The whole request. `hashed` is what password_hash returned for the
      password, and `dbError` what the driver reports if the INSERT fails.
      A caught exception's message becomes the page's error. */
  function Page(st: Store, post: Option<RegisterForm>, hashed: string, dbError: Option<string>): (r: RegisterResult)
    ensures post.None? ==> r == RegisterResult(st, "", "")
    ensures post.Some? && Check(post.value).Some? ==>
      r == RegisterResult(st, RefusalMessage(Check(post.value).value), "")
    ensures post.Some? && Check(post.value).None? ==>
      var g := Trimmed(post.value);
      var reg := ServerAuth.Register(st, g.name, g.email, g.phone, hashed, g.role, g.schoolId, dbError);
      r == (if reg.Ok? then RegisterResult(reg.value, "", Registered)
            else RegisterResult(st, ServerAuth.RegisterMessage(reg.error), ""))
  {
    match post
    case None => RegisterResult(st, "", "")
    case Some(f) =>
      match Check(f)
      case Some(refusal) => RegisterResult(st, RefusalMessage(refusal), "")
      case None =>
        var g := Trimmed(f);
        match ServerAuth.Register(st, g.name, g.email, g.phone, hashed, g.role, g.schoolId, dbError)
        case Ok(st2) => RegisterResult(st2, "", Registered)
        case Err(failure) => RegisterResult(st, ServerAuth.RegisterMessage(failure), "")
  }

  // ---------------------------------------------------------------------
  // Properties
  // ---------------------------------------------------------------------

  /** The store changes exactly when every check passes, the address is
      new and the database accepts the row; then it gains one user, built
      from the trimmed fields. */
  lemma PageAddsOneUser(st: Store, f: RegisterForm, hashed: string, dbError: Option<string>)
    ensures var r := Page(st, Some(f), hashed, dbError);
            var g := Trimmed(f);
            r.success == Registered <==> Check(f).None? && UserByEmail(st, g.email).None? && dbError.None?
    ensures var r := Page(st, Some(f), hashed, dbError);
            var g := Trimmed(f);
            r.success == Registered ==>
              r.store.users == st.users + [User(st.nextUserId, g.name, g.email, g.phone, hashed, g.role, g.schoolId)]
    ensures var r := Page(st, Some(f), hashed, dbError);
            r.success != Registered ==> r.store == st && r.error != ""
  {
    var r := Page(st, Some(f), hashed, dbError);
    var g := Trimmed(f);
    assert Registered != "";
    if Check(f).Some? {
      assert r.success == "" && r.store == st;
      assert r.error == RefusalMessage(Check(f).value);
    } else {
      var reg := ServerAuth.Register(st, g.name, g.email, g.phone, hashed, g.role, g.schoolId, dbError);
      if reg.Ok? {
        assert UserByEmail(st, g.email).None? && dbError.None?;
        assert r.success == Registered && r.store == reg.value;
        assert reg.value.users == st.users + [reg.value.users[|st.users|]];
      } else {
        assert r.success == "" && r.store == st;
        assert r.error == ServerAuth.RegisterMessage(reg.error);
      }
    }
  }

  /** When the INSERT fails, the page shows executeQuery's message with the
      driver's text after it, and the store keeps no new user. */
  lemma FailedInsertShowsDriverMessage(st: Store, f: RegisterForm, hashed: string, driver: string)
    requires Check(f).None? && UserByEmail(st, PhpTrim(f.email)).None?
    ensures var r := Page(st, Some(f), hashed, Some(driver));
            r.store == st && r.success == "" && r.error == QueryFailed + driver
  {
  }

  /** The stored name, e-mail and phone carry no surrounding blanks. */
  lemma StoredFieldsTrimmed(st: Store, f: RegisterForm, hashed: string)
    requires Page(st, Some(f), hashed, None).success == Registered
    ensures var u := Page(st, Some(f), hashed, None).store.users[|st.users|];
            PhpTrim(u.name) == u.name && PhpTrim(u.email) == u.email && PhpTrim(u.phone) == u.phone
  {
    var g := Trimmed(f);
    var r := Page(st, Some(f), hashed, None);
    PageAddsOneUser(st, f, hashed, None);
    var u := User(st.nextUserId, g.name, g.email, g.phone, hashed, g.role, g.schoolId);
    assert r.store.users == st.users + [u];
    assert r.store.users[|st.users|] == u;
    TrimmedIdempotent(f);
  }

  /** A name of "0", with any blanks around it, counts as missing, since
      PHP's `empty` is applied after trimming. */
  lemma PaddedZeroIsMissing(st: Store, f: RegisterForm, hashed: string, before: string, after: string)
    requires forall k :: 0 <= k < |before| ==> IsPhpTrimChar(before[k])
    requires forall k :: 0 <= k < |after| ==> IsPhpTrimChar(after[k])
    requires f.name == before + "0" + after
    ensures Page(st, Some(f), hashed, None) == RegisterResult(st, "Please fill in all fields", "")
  {
    TrimPadded(before, "0", after, IsPhpTrimChar);
  }

  /** The length check counts bytes: three characters outside ASCII pass
      it, although the form's own rule asks for six characters. */
  lemma ThreeWideCharactersAreLongEnough(st: Store, f: RegisterForm, hashed: string)
    requires !AnyEmpty(Trimmed(f)) && f.password == f.confirmPassword
    requires |f.password| == 3 && forall k :: 0 <= k < 3 ==> f.password[k] as int >= 0x80
    ensures Check(f).None?
  {
    WideCharactersTakeTwoBytes(f.password);
  }

  /** Every character outside ASCII takes at least two bytes in UTF-8. */
  lemma {:induction false} WideCharactersTakeTwoBytes(p: string)
    requires forall k :: 0 <= k < |p| ==> p[k] as int >= 0x80
    ensures Utf8Length(p) >= 2 * |p|
  {
    if p != [] {
      WideCharactersTakeTwoBytes(p[1..]);
    }
  }

  /** Checks run in order: a form with an empty field is refused for that
      even when its passwords also differ or are short. */
  lemma MissingFieldFirst(f: RegisterForm)
    requires PhpEmpty(PhpTrim(f.email))
    ensures Check(f) == Some(MissingField)
  {
  }

  /** The account just created can log in with the e-mail address as
      stored (the trimmed one) and the password, when the hash verifies
      the password. */
  lemma RegisteredCanLogin(st: Store, sess: Session, f: RegisterForm, hashed: string,
                           verify: (string, string) -> bool)
    requires Page(st, Some(f), hashed, None).success == Registered
    requires verify(f.password, hashed)
    ensures var r := ServerAuth.Login(Page(st, Some(f), hashed, None).store, sess, PhpTrim(f.email), f.password, verify);
            r.ok && r.session.userId == Some(st.nextUserId) && r.session.userRole == Some(f.role)
  {
    var g := Trimmed(f);
    ServerAuth.RegisterThenLogin(st, sess, g.name, g.email, g.phone, f.password, hashed, g.role, g.schoolId, verify);
  }

  /** A successful registration keeps the store's integrity. */
  lemma PageKeepsValid(st: Store, post: Option<RegisterForm>, hashed: string, dbError: Option<string>)
    requires Valid(st)
    ensures Valid(Page(st, post, hashed, dbError).store)
  {
    if post.Some? && Check(post.value).None? {
      var g := Trimmed(post.value);
      if ServerAuth.Register(st, g.name, g.email, g.phone, hashed, g.role, g.schoolId, dbError).Ok? {
        ServerAuth.RegisterKeepsValid(st, g.name, g.email, g.phone, hashed, g.role, g.schoolId, dbError);
      }
    }
  }
}

=== FILE: server_auth.dfy ===
/** includes/auth.php: the session checks and guards every page starts
    with, login and account creation, and the notification helpers. Each
    function takes the store and session it reads and returns the ones it
    leaves behind. password_hash and password_verify are not modelled:
    the hash is an argument (it is salted, so not a function of the
    password) and verification is a parameter. */
module ServerAuth {
  import opened Common
  import opened Store

  /** isLoggedIn: the session holds a user id. */
  predicate IsLoggedIn(sess: Session) {
    sess.userId.Some?
  }

  /** getCurrentUser: the user row whose id the session holds, if any. */
  function GetCurrentUser(st: Store, sess: Session): (r: Option<User>)
    ensures !IsLoggedIn(sess) ==> r.None?
    ensures r.Some? ==> r.value in st.users && r.value.id == sess.userId.value
    ensures IsLoggedIn(sess) && r.None? ==> forall k :: 0 <= k < |st.users| ==> st.users[k].id != sess.userId.value
  {
    if !IsLoggedIn(sess) then None else UserById(st, sess.userId.value)
  }

  /** hasRole: there is a current user, and the role stored in its row (not
      the one in the session) is `role`. */
  function HasRole(st: Store, sess: Session, role: string): (r: bool)
    ensures r <==> GetCurrentUser(st, sess).Some? && GetCurrentUser(st, sess).value.role == role
  {
    match GetCurrentUser(st, sess)
    case None => false
    case Some(u) => u.role == role
  }

  /** The outcome of a guard: carry on with the page, or send a Location
      header and stop. */
  datatype Guard = Proceed | RedirectTo(location: string)

  const LoginLocation := "../login.php"
  const IndexLocation := "../index.php"

  /** requireLogin. */
  function RequireLogin(sess: Session): (g: Guard)
    ensures g == Proceed <==> IsLoggedIn(sess)
    ensures g != Proceed ==> g == RedirectTo(LoginLocation)
  {
    if !IsLoggedIn(sess) then RedirectTo(LoginLocation) else Proceed
  }

  /** requireRole: the login check first, then the role check. */
  function RequireRole(st: Store, sess: Session, role: string): (g: Guard)
    ensures !IsLoggedIn(sess) ==> g == RedirectTo(LoginLocation)
    ensures IsLoggedIn(sess) && !HasRole(st, sess, role) ==> g == RedirectTo(IndexLocation)
    ensures g == Proceed <==> HasRole(st, sess, role)
  {
    match RequireLogin(sess)
    case RedirectTo(l) => RedirectTo(l)
    case Proceed => if !HasRole(st, sess, role) then RedirectTo(IndexLocation) else Proceed
  }

  /** A page past requireRole has a current user in the store with that
      role; the role and name cached in the session play no part. */
  lemma RequireRoleGivesUser(st: Store, sess: Session, role: string, cachedRole: Option<string>, cachedName: Option<string>)
    requires RequireRole(st, sess, role) == Proceed
    ensures GetCurrentUser(st, sess).Some?
    ensures GetCurrentUser(st, sess).value in st.users && GetCurrentUser(st, sess).value.role == role
    ensures RequireRole(st, sess.(userRole := cachedRole, userName := cachedName), role) == Proceed
  {
  }

  /** A user whose row was deleted is sent to the index page, not the login
      page, although the session still names them. */
  lemma DeletedUserGoesToIndex(st: Store, sess: Session, role: string)
    requires IsLoggedIn(sess)
    requires forall k :: 0 <= k < |st.users| ==> st.users[k].id != sess.userId.value
    ensures RequireRole(st, sess, role) == RedirectTo(IndexLocation)
  {
  }

  // ---------------------------------------------------------------------
  // login and register
  // ---------------------------------------------------------------------

  datatype LoginResult = LoginResult(ok: bool, session: Session)

  /** login: the first user with that e-mail address, if the password
      verifies against its stored hash, is written into the session. */
  function Login(st: Store, sess: Session, email: string, password: string,
                 verify: (string, string) -> bool): (r: LoginResult)
    ensures r.ok <==> UserByEmail(st, email).Some? && verify(password, UserByEmail(st, email).value.passwordHash)
    ensures r.ok ==> var u := UserByEmail(st, email).value;
      r.session == sess.(userId := Some(u.id), userRole := Some(u.role), userName := Some(u.name))
      && u in st.users && u.email == email
    ensures !r.ok ==> r.session == sess
  {
    match UserByEmail(st, email)
    case None => LoginResult(false, sess)
    case Some(u) =>
      if verify(password, u.passwordHash)
      then LoginResult(true, sess.(userId := Some(u.id), userRole := Some(u.role), userName := Some(u.name)))
      else LoginResult(false, sess)
  }

  const EmailExists := "Email already exists"

  /** Why register threw: the address is taken, or the INSERT failed and
      executeQuery rethrew the driver's message behind its prefix. */
  datatype RegisterFailure = EmailTaken | InsertFailed(driverMessage: string)

  /** The message of the exception register throws. */
  function RegisterMessage(f: RegisterFailure): (m: string)
    ensures m != ""
    ensures f.InsertFailed? ==> QueryFailed <= m && m[|QueryFailed|..] == f.driverMessage
  {
    match f
    case EmailTaken => EmailExists
    case InsertFailed(driver) => QueryFailed + driver
  }

  /** register: refuses an address already in use; otherwise inserts one
      user row holding `hashed`, the value password_hash returned for the
      password, under the next id. The schema is not modelled: `dbError` is
      the driver's message when the database rejects the INSERT (a school
      id it cannot store, say), and `None` when it accepts it. */
  function Register(st: Store, name: string, email: string, phone: string, hashed: string,
                    role: string, schoolId: Option<string>, dbError: Option<string>): (r: Result<Store, RegisterFailure>)
    ensures r.Err? && r.error == EmailTaken <==> UserByEmail(st, email).Some?
    ensures r.Err? && r.error.InsertFailed? <==> UserByEmail(st, email).None? && dbError.Some?
    ensures r.Err? && r.error.InsertFailed? ==> r.error.driverMessage == dbError.value
    ensures r.Ok? <==> UserByEmail(st, email).None? && dbError.None?
    ensures r.Ok? ==>
      && |r.value.users| == |st.users| + 1
      && r.value.users[..|st.users|] == st.users
      && r.value.users[|st.users|] == User(st.nextUserId, name, email, phone, hashed, role, schoolId)
      && r.value == st.(users := r.value.users, nextUserId := st.nextUserId + 1)
  {
    if UserByEmail(st, email).Some? then Err(EmailTaken)
    else if dbError.Some? then Err(InsertFailed(dbError.value))
    else
      var u := User(st.nextUserId, name, email, phone, hashed, role, schoolId);
      Ok(st.(users := st.users + [u], nextUserId := st.nextUserId + 1))
  }

  /** A new account can log in at once with the password it was created
      with, provided the stored hash verifies that password. */
  lemma RegisterThenLogin(st: Store, sess: Session, name: string, email: string, phone: string,
                          password: string, hashed: string, role: string, schoolId: Option<string>,
                          verify: (string, string) -> bool)
    requires Register(st, name, email, phone, hashed, role, schoolId, None).Ok?
    requires verify(password, hashed)
    ensures var st2 := Register(st, name, email, phone, hashed, role, schoolId, None).value;
            var r := Login(st2, sess, email, password, verify);
            r.ok && r.session.userId == Some(st.nextUserId) && r.session.userRole == Some(role)
  {
    var st2 := Register(st, name, email, phone, hashed, role, schoolId, None).value;
    var p := (u: User) => u.email == email;
    var i := FirstIndex(st2.users, p);
    assert p(st2.users[|st.users|]);
    assert i.Some?;
    assert i.value == |st.users|;
  }

  /** Registering keeps the store's integrity. */
  lemma RegisterKeepsValid(st: Store, name: string, email: string, phone: string, hashed: string,
                           role: string, schoolId: Option<string>, dbError: Option<string>)
    requires Valid(st)
    requires Register(st, name, email, phone, hashed, role, schoolId, dbError).Ok?
    ensures Valid(Register(st, name, email, phone, hashed, role, schoolId, dbError).value)
  {
    var st2 := Register(st, name, email, phone, hashed, role, schoolId, dbError).value;
    forall id | HasUser(st, id) ensures HasUser(st2, id) {
      var k :| 0 <= k < |st.users| && st.users[k].id == id;
      assert st2.users[k].id == id;
    }
  }

  // ---------------------------------------------------------------------
  // Notifications
  // ---------------------------------------------------------------------

  /** addNotification: one unread notification appended under the next id. */
  function AddNotification(st: Store, userId: nat, message: string, kind: string): (r: Store)
    ensures |r.notifications| == |st.notifications| + 1
    ensures r.notifications[..|st.notifications|] == st.notifications
    ensures r.notifications[|st.notifications|] == Notification(st.nextNotificationId, userId, message, kind, false)
    ensures r == st.(notifications := r.notifications, nextNotificationId := st.nextNotificationId + 1)
  {
    var n := Notification(st.nextNotificationId, userId, message, kind, false);
    st.(notifications := st.notifications + [n], nextNotificationId := st.nextNotificationId + 1)
  }

  /** getUnreadNotificationsCount. */
  function UnreadCount(st: Store, userId: nat): (n: nat)
    ensures n <= |st.notifications|
  {
    UnreadOf(st.notifications, userId)
  }

  /** markNotificationAsRead: only the rows with that id change. */
  function MarkNotificationAsRead(st: Store, id: nat): (r: Store)
    ensures r == st.(notifications := r.notifications)
    ensures |r.notifications| == |st.notifications|
    ensures forall k :: 0 <= k < |st.notifications| ==>
      r.notifications[k] == if st.notifications[k].id == id then st.notifications[k].(read := true) else st.notifications[k]
  {
    st.(notifications := MarkRead(st.notifications, id))
  }

  /** A new notification adds one to its addressee's unread count and
      nothing to anyone else's. */
  lemma AddNotificationCounts(st: Store, userId: nat, message: string, kind: string, other: nat)
    ensures UnreadCount(AddNotification(st, userId, message, kind), other)
         == UnreadCount(st, other) + (if other == userId then 1 else 0)
  {
    UnreadOfAppend(st.notifications, Notification(st.nextNotificationId, userId, message, kind, false), other);
  }

  /** Whether a row with this id is an unread notification for the user. */
  ghost predicate UnreadFor(ns: seq<Notification>, id: nat, userId: nat) {
    exists k :: 0 <= k < |ns| && ns[k].id == id && ns[k].toUserId == userId && !ns[k].read
  }

  lemma {:induction false} UnreadOfMarkRead(ns: seq<Notification>, id: nat, userId: nat)
    requires forall i, j :: 0 <= i < j < |ns| ==> ns[i].id != ns[j].id
    ensures UnreadOf(MarkRead(ns, id), userId) == UnreadOf(ns, userId) - (if UnreadFor(ns, id, userId) then 1 else 0)
  {
    if ns != [] {
      var m := MarkRead(ns, id);
      assert m[1..] == MarkRead(ns[1..], id);
      UnreadOfMarkRead(ns[1..], id, userId);
      if UnreadFor(ns[1..], id, userId) {
        var k :| 0 <= k < |ns[1..]| && ns[1..][k].id == id && ns[1..][k].toUserId == userId && !ns[1..][k].read;
        assert ns[k + 1].id == id;
        assert ns[0].id != id;
      }
      if UnreadFor(ns, id, userId) && !(ns[0].id == id && ns[0].toUserId == userId && !ns[0].read) {
        var k :| 0 <= k < |ns| && ns[k].id == id && ns[k].toUserId == userId && !ns[k].read;
        assert k != 0;
        assert ns[1..][k - 1] == ns[k];
      }
    }
  }

  /** Marking a notification read takes one off the count of the user it
      was for if it was unread, and changes no other count. */
  lemma MarkReadCounts(st: Store, id: nat, userId: nat)
    requires Valid(st)
    ensures UnreadCount(MarkNotificationAsRead(st, id), userId)
         == UnreadCount(st, userId) - (if UnreadFor(st.notifications, id, userId) then 1 else 0)
  {
    UnreadOfMarkRead(st.notifications, id, userId);
  }

  /** Marking read twice is marking read once. */
  lemma MarkReadIdempotent(st: Store, id: nat)
    ensures MarkNotificationAsRead(MarkNotificationAsRead(st, id), id) == MarkNotificationAsRead(st, id)
  {
    var a := MarkNotificationAsRead(st, id);
    assert MarkNotificationAsRead(a, id).notifications == a.notifications;
  }

  lemma AddNotificationKeepsValid(st: Store, userId: nat, message: string, kind: string)
    requires Valid(st) && HasUser(st, userId)
    ensures Valid(AddNotification(st, userId, message, kind))
  {
  }

  lemma MarkReadKeepsValid(st: Store, id: nat)
    requires Valid(st)
    ensures Valid(MarkNotificationAsRead(st, id))
  {
  }
}

=== FILE: sorting.dfy ===
/** A comparison sort over sequences, parameterised by the "may come
    first" relation. It stands in for `Array.prototype.sort` with a
    comparator and for SQL's ORDER BY: whatever the relation, the result is
    a permutation of the input, and when the relation is a total preorder
    the result is ordered by it. */
module Sorting {

  ghost predicate Total<T(!new)>(le: (T, T) -> bool) {
    forall a, b :: le(a, b) || le(b, a)
  }

  ghost predicate Transitive<T(!new)>(le: (T, T) -> bool) {
    forall a, b, c :: le(a, b) && le(b, c) ==> le(a, c)
  }

  ghost predicate SortedBy<T>(s: seq<T>, le: (T, T) -> bool) {
    forall i, j :: 0 <= i < j < |s| ==> le(s[i], s[j])
  }

  /** Puts `x` in front of the first element it may precede. */
  function Insert<T>(x: T, s: seq<T>, le: (T, T) -> bool): (r: seq<T>)
    ensures |r| == |s| + 1
    ensures multiset(r) == multiset(s) + multiset{x}
  {
    if s == [] then [x]
    else if le(x, s[0]) then [x] + s
    else
      assert s == [s[0]] + s[1..];
      [s[0]] + Insert(x, s[1..], le)
  }

  /** Insertion sort: stable, and a permutation of its input for any
      relation, consistent or not. */
  function Sort<T>(s: seq<T>, le: (T, T) -> bool): (r: seq<T>)
    ensures |r| == |s|
    ensures multiset(r) == multiset(s)
  {
    if s == [] then []
    else
      assert s == [s[0]] + s[1..];
      Insert(s[0], Sort(s[1..], le), le)
  }

  lemma {:induction false} InsertSorted<T(!new)>(x: T, s: seq<T>, le: (T, T) -> bool)
    requires Total(le) && Transitive(le)
    requires SortedBy(s, le)
    ensures SortedBy(Insert(x, s, le), le)
  {
    if s == [] || le(x, s[0]) {
    } else {
      var tail := Insert(x, s[1..], le);
      InsertSorted(x, s[1..], le);
      assert le(s[0], x);
      assert forall k :: 0 <= k < |s[1..]| ==> le(s[0], s[1..][k]) by {
        assert forall k :: 0 <= k < |s[1..]| ==> s[1..][k] == s[k + 1];
      }
      InsertKeepsLowerBound(x, s[1..], le, s[0]);
      var r := [s[0]] + tail;
      forall i, j | 0 <= i < j < |r| ensures le(r[i], r[j]) {
        assert r[j] == tail[j - 1];
        if i > 0 {
          assert r[i] == tail[i - 1];
        }
      }
    }
  }

  /** A bound below the item and every element stays below the result. */
  lemma {:induction false} InsertKeepsLowerBound<T>(x: T, s: seq<T>, le: (T, T) -> bool, lo: T)
    requires le(lo, x)
    requires forall i :: 0 <= i < |s| ==> le(lo, s[i])
    ensures forall i :: 0 <= i < |Insert(x, s, le)| ==> le(lo, Insert(x, s, le)[i])
  {
    var r := Insert(x, s, le);
    if s == [] || le(x, s[0]) {
      forall i | 0 <= i < |r| ensures le(lo, r[i]) {
        if i > 0 {
          assert r[i] == s[i - 1];
        }
      }
    } else {
      var tail := Insert(x, s[1..], le);
      InsertKeepsLowerBound(x, s[1..], le, lo);
      assert r == [s[0]] + tail;
      forall i | 0 <= i < |r| ensures le(lo, r[i]) {
        if i > 0 {
          assert r[i] == tail[i - 1];
        }
      }
    }
  }

  /** With a total preorder the result is ordered. */
  lemma {:induction false} SortSorted<T(!new)>(s: seq<T>, le: (T, T) -> bool)
    requires Total(le) && Transitive(le)
    ensures SortedBy(Sort(s, le), le)
  {
    if s != [] {
      SortSorted(s[1..], le);
      InsertSorted(s[0], Sort(s[1..], le), le);
    }
  }

  /** Sorting keeps exactly the elements of the input. */
  lemma SortSameElements<T>(s: seq<T>, le: (T, T) -> bool)
    ensures forall x :: x in Sort(s, le) <==> x in s
  {
    var r := Sort(s, le);
    forall x ensures x in r <==> x in s {
      assert x in r <==> x in multiset(r);
      assert x in s <==> x in multiset(s);
    }
  }
}

=== FILE: store.dfy ===
/** The database rows the PHP pages read and write, and the PHP session.
    Each table is a sequence of rows in storage order: `getRow` returns the
    first row a query matches, so the order matters for lookups. Ids are
    given out by per-table counters, as AUTO_INCREMENT does. The database
    is taken to enforce the foreign keys of bookings, payments and
    notifications. */
module Store {
  import opened Common

  datatype User = User(id: nat, name: string, email: string, phone: string,
                       passwordHash: string, role: string, schoolId: Option<string>)

  datatype Student = Student(id: nat, parentId: nat, schoolId: nat, name: string)

  /** Dates are day numbers and times seconds since midnight; money is in
      whole shillings. */
  datatype Trip = Trip(id: nat, saccoId: nat, vehicleId: nat, driverId: nat, routeRegion: string,
                       departureDate: int, departureTime: int, availableSeats: int, costPerSeat: int)

  datatype BookingStatus = Pending | Confirmed | Cancelled | Completed

  datatype Booking = Booking(id: nat, tripId: nat, studentId: nat, parentId: nat, status: BookingStatus)

  datatype PaymentStatus = PaymentPending | PaymentCompleted | PaymentFailed

  datatype Payment = Payment(id: nat, bookingId: nat, amount: int, status: PaymentStatus,
                             paymentMethod: string, transactionRef: string, paymentDate: int)

  datatype Notification = Notification(id: nat, toUserId: nat, message: string, kind: string, read: bool)

  datatype Store = Store(
    users: seq<User>,
    schools: set<nat>, vehicles: set<nat>, drivers: set<nat>,
    students: seq<Student>, trips: seq<Trip>, bookings: seq<Booking>,
    payments: seq<Payment>, notifications: seq<Notification>,
    nextUserId: nat, nextBookingId: nat, nextPaymentId: nat, nextNotificationId: nat)

  /** `$_SESSION`: the keys login sets. */
  datatype Session = Session(userId: Option<nat>, userRole: Option<string>, userName: Option<string>)

  const NoSession := Session(None, None, None)

  // ---------------------------------------------------------------------
  // Queries
  // ---------------------------------------------------------------------

  /** The position of the first row satisfying `p`: what `getRow` fetches. */
  function FirstIndex<T>(xs: seq<T>, p: T -> bool): (r: Option<nat>)
    ensures r.None? <==> forall i :: 0 <= i < |xs| ==> !p(xs[i])
    ensures r.Some? ==> r.value < |xs| && p(xs[r.value])
    ensures r.Some? ==> forall i :: 0 <= i < r.value ==> !p(xs[i])
  {
    if xs == [] then None
    else if p(xs[0]) then Some(0)
    else match FirstIndex(xs[1..], p)
      case None => None
      case Some(i) => Some(i + 1)
  }

  /** executeQuery's wrapper puts this in front of the driver's message
      when a statement throws. */
  const QueryFailed := "Query execution failed: "

  /** The first row satisfying `p`. */
  function First<T>(xs: seq<T>, p: T -> bool): (r: Option<T>)
    ensures r.None? <==> forall i :: 0 <= i < |xs| ==> !p(xs[i])
    ensures r.Some? ==> r.value in xs && p(r.value)
  {
    match FirstIndex(xs, p)
    case None => None
    case Some(i) => Some(xs[i])
  }

  /** `a` can be read off `b` left to right, skipping rows of `b`: the
      rows of `a` occur in `b` in the same order. */
  predicate Subsequence<T(==)>(a: seq<T>, b: seq<T>)
    decreases |b|
  {
    a == [] || (b != [] && if a[0] == b[0] then Subsequence(a[1..], b[1..]) else Subsequence(a, b[1..]))
  }

  /** `getRows` with a WHERE clause: the rows satisfying `p`, in storage
      order, each as often as it is stored. */
  function Filter<T>(xs: seq<T>, p: T -> bool): (r: seq<T>)
    ensures forall i :: 0 <= i < |r| ==> r[i] in xs && p(r[i])
    ensures forall i :: 0 <= i < |xs| && p(xs[i]) ==> xs[i] in r
    ensures forall i :: 0 <= i < |xs| ==> multiset(r)[xs[i]] == if p(xs[i]) then multiset(xs)[xs[i]] else 0
    ensures Subsequence(r, xs)
    ensures |r| <= |xs|
  {
    if xs == [] then []
    else
      var rest := Filter(xs[1..], p);
      FilterStep(xs, rest, p);
      (if p(xs[0]) then [xs[0]] else []) + rest
  }

  /** Filter's contract carries over from the rows after the first to the
      whole table. */
  lemma FilterStep<T>(xs: seq<T>, rest: seq<T>, p: T -> bool)
    requires xs != []
    requires forall i :: 0 <= i < |rest| ==> rest[i] in xs[1..] && p(rest[i])
    requires forall i :: 0 <= i < |xs[1..]| && p(xs[1..][i]) ==> xs[1..][i] in rest
    requires forall i :: 0 <= i < |xs[1..]| ==>
      multiset(rest)[xs[1..][i]] == if p(xs[1..][i]) then multiset(xs[1..])[xs[1..][i]] else 0
    requires Subsequence(rest, xs[1..])
    requires |rest| <= |xs[1..]|
    ensures var r := (if p(xs[0]) then [xs[0]] else []) + rest;
      && (forall i :: 0 <= i < |r| ==> r[i] in xs && p(r[i]))
      && (forall i :: 0 <= i < |xs| && p(xs[i]) ==> xs[i] in r)
      && (forall i :: 0 <= i < |xs| ==> multiset(r)[xs[i]] == if p(xs[i]) then multiset(xs)[xs[i]] else 0)
      && Subsequence(r, xs)
      && |r| <= |xs|
  {
    FilterStepMembers(xs, rest, p);
    FilterStepCounts(xs, rest, p);
    FilterStepOrder(xs, rest, p);
  }

  /** One step of Filter keeps exactly the matching rows. */
  lemma FilterStepMembers<T>(xs: seq<T>, rest: seq<T>, p: T -> bool)
    requires xs != []
    requires forall i :: 0 <= i < |rest| ==> rest[i] in xs[1..] && p(rest[i])
    requires forall i :: 0 <= i < |xs[1..]| && p(xs[1..][i]) ==> xs[1..][i] in rest
    ensures var r := (if p(xs[0]) then [xs[0]] else []) + rest;
      && (forall i :: 0 <= i < |r| ==> r[i] in xs && p(r[i]))
      && (forall i :: 0 <= i < |xs| && p(xs[i]) ==> xs[i] in r)
  {
    var r := (if p(xs[0]) then [xs[0]] else []) + rest;
    forall i | 0 <= i < |r| ensures r[i] in xs && p(r[i]) {
      if !(p(xs[0]) && i == 0) {
        var k := if p(xs[0]) then i - 1 else i;
        assert r[i] == rest[k];
        var j :| 0 <= j < |xs[1..]| && xs[1..][j] == rest[k];
        assert xs[j + 1] == r[i];
      }
    }
    forall i | 0 <= i < |xs| && p(xs[i]) ensures xs[i] in r {
      if i > 0 {
        assert xs[1..][i - 1] == xs[i];
        var k :| 0 <= k < |rest| && rest[k] == xs[i];
        assert r[|r| - |rest| + k] == xs[i];
      }
    }
  }

  /** One step of Filter keeps the rows in storage order. */
  lemma FilterStepOrder<T>(xs: seq<T>, rest: seq<T>, p: T -> bool)
    requires xs != []
    requires Subsequence(rest, xs[1..])
    requires forall i :: 0 <= i < |rest| ==> p(rest[i])
    ensures Subsequence((if p(xs[0]) then [xs[0]] else []) + rest, xs)
  {
    if p(xs[0]) {
      var r := [xs[0]] + rest;
      assert r[0] == xs[0] && r[1..] == rest;
    } else {
      assert [] + rest == rest;
      if rest != [] {
        assert rest[0] != xs[0];
      }
    }
  }

  /** One step of Filter keeps the multiplicities right: a row is kept as
      often as it is stored when it matches, and dropped otherwise. */
  lemma FilterStepCounts<T>(xs: seq<T>, rest: seq<T>, p: T -> bool)
    requires xs != []
    requires forall i :: 0 <= i < |rest| ==> rest[i] in xs[1..] && p(rest[i])
    requires forall i :: 0 <= i < |xs[1..]| ==>
      multiset(rest)[xs[1..][i]] == if p(xs[1..][i]) then multiset(xs[1..])[xs[1..][i]] else 0
    ensures var r := (if p(xs[0]) then [xs[0]] else []) + rest;
            forall i :: 0 <= i < |xs| ==> multiset(r)[xs[i]] == if p(xs[i]) then multiset(xs)[xs[i]] else 0
  {
    var x, tail := xs[0], xs[1..];
    var r := (if p(x) then [x] else []) + rest;
    assert xs == [x] + tail;
    assert multiset(xs) == multiset{x} + multiset(tail);
    assert multiset(r) == (if p(x) then multiset{x} else multiset{}) + multiset(rest);
    forall i | 0 <= i < |xs|
      ensures multiset(r)[xs[i]] == if p(xs[i]) then multiset(xs)[xs[i]] else 0
    {
      var y := xs[i];
      if y in tail {
        var j :| 0 <= j < |tail| && tail[j] == y;
      } else {
        assert y == x;
        assert y !in rest;
      }
    }
  }

  function UserById(st: Store, id: nat): Option<User> {
    First(st.users, (u: User) => u.id == id)
  }

  function UserByEmail(st: Store, email: string): Option<User> {
    First(st.users, (u: User) => u.email == email)
  }

  function TripById(st: Store, id: nat): Option<Trip> {
    First(st.trips, (t: Trip) => t.id == id)
  }

  function StudentById(st: Store, id: nat): Option<Student> {
    First(st.students, (s: Student) => s.id == id)
  }

  /** The number of bookings on a trip, whatever their status. */
  function BookingsOn(bs: seq<Booking>, tripId: nat): (n: nat)
    ensures n <= |bs|
  {
    if bs == [] then 0 else (if bs[0].tripId == tripId then 1 else 0) + BookingsOn(bs[1..], tripId)
  }

  lemma {:induction false} BookingsOnAppend(bs: seq<Booking>, b: Booking, tripId: nat)
    ensures BookingsOn(bs + [b], tripId) == BookingsOn(bs, tripId) + (if b.tripId == tripId then 1 else 0)
  {
    if bs != [] {
      assert (bs + [b])[1..] == bs[1..] + [b];
      BookingsOnAppend(bs[1..], b, tripId);
    } else {
      assert [] + [b] == [b];
    }
  }

  /** The number of unread notifications addressed to a user. */
  function UnreadOf(ns: seq<Notification>, userId: nat): (n: nat)
    ensures n <= |ns|
  {
    if ns == [] then 0 else (if ns[0].toUserId == userId && !ns[0].read then 1 else 0) + UnreadOf(ns[1..], userId)
  }

  lemma {:induction false} UnreadOfAppend(ns: seq<Notification>, n: Notification, userId: nat)
    ensures UnreadOf(ns + [n], userId) == UnreadOf(ns, userId) + (if n.toUserId == userId && !n.read then 1 else 0)
  {
    if ns != [] {
      assert (ns + [n])[1..] == ns[1..] + [n];
      UnreadOfAppend(ns[1..], n, userId);
    } else {
      assert [] + [n] == [n];
    }
  }

  // ---------------------------------------------------------------------
  // Integrity of the store
  // ---------------------------------------------------------------------

  ghost predicate UserIdsOk(st: Store) {
    && st.nextUserId >= 1
    && (forall i :: 0 <= i < |st.users| ==> 1 <= st.users[i].id < st.nextUserId)
    && (forall i, j :: 0 <= i < j < |st.users| ==> st.users[i].id != st.users[j].id)
  }

  ghost predicate StudentAndTripIdsOk(st: Store) {
    && (forall i, j :: 0 <= i < j < |st.students| ==> st.students[i].id != st.students[j].id)
    && (forall i, j :: 0 <= i < j < |st.trips| ==> st.trips[i].id != st.trips[j].id)
  }

  ghost predicate BookingIdsOk(st: Store) {
    && st.nextBookingId >= 1
    && (forall i :: 0 <= i < |st.bookings| ==> 1 <= st.bookings[i].id < st.nextBookingId)
    && (forall i, j :: 0 <= i < j < |st.bookings| ==> st.bookings[i].id != st.bookings[j].id)
  }

  ghost predicate PaymentIdsOk(st: Store) {
    && st.nextPaymentId >= 1
    && (forall i :: 0 <= i < |st.payments| ==> 1 <= st.payments[i].id < st.nextPaymentId)
    && (forall i, j :: 0 <= i < j < |st.payments| ==> st.payments[i].id != st.payments[j].id)
  }

  ghost predicate NotificationIdsOk(st: Store) {
    && st.nextNotificationId >= 1
    && (forall i :: 0 <= i < |st.notifications| ==> 1 <= st.notifications[i].id < st.nextNotificationId)
    && (forall i, j :: 0 <= i < j < |st.notifications| ==> st.notifications[i].id != st.notifications[j].id)
  }

  ghost predicate HasUser(st: Store, id: nat) { exists k :: 0 <= k < |st.users| && st.users[k].id == id }
  ghost predicate HasTrip(st: Store, id: nat) { exists k :: 0 <= k < |st.trips| && st.trips[k].id == id }
  ghost predicate HasStudent(st: Store, id: nat) { exists k :: 0 <= k < |st.students| && st.students[k].id == id }
  ghost predicate HasBooking(st: Store, id: nat) { exists k :: 0 <= k < |st.bookings| && st.bookings[k].id == id }

  /** The foreign keys the database enforces. */
  ghost predicate ReferencesOk(st: Store) {
    && (forall i :: 0 <= i < |st.bookings| ==>
          HasTrip(st, st.bookings[i].tripId) && HasStudent(st, st.bookings[i].studentId)
          && HasUser(st, st.bookings[i].parentId))
    && (forall i :: 0 <= i < |st.payments| ==> HasBooking(st, st.payments[i].bookingId))
    && (forall i :: 0 <= i < |st.notifications| ==> HasUser(st, st.notifications[i].toUserId))
  }

  ghost predicate Valid(st: Store) {
    && UserIdsOk(st) && StudentAndTripIdsOk(st) && BookingIdsOk(st)
    && PaymentIdsOk(st) && NotificationIdsOk(st) && ReferencesOk(st)
  }

  /** With unique ids, the row `getRow` finds by id is the one at any
      position holding that id. */
  lemma UserByIdUnique(st: Store, k: nat)
    requires UserIdsOk(st) && k < |st.users|
    ensures UserById(st, st.users[k].id) == Some(st.users[k])
  {
    var r := FirstIndex(st.users, (u: User) => u.id == st.users[k].id);
    assert r.Some?;
  }

  // ---------------------------------------------------------------------
  // Row updates
  // ---------------------------------------------------------------------

  /** `UPDATE trips SET available_seats = available_seats - 1 WHERE id = ?`. */
  function DecrementSeats(trips: seq<Trip>, id: nat): (r: seq<Trip>)
    ensures |r| == |trips|
    ensures forall k :: 0 <= k < |trips| && trips[k].id == id ==>
      r[k] == trips[k].(availableSeats := trips[k].availableSeats - 1)
    ensures forall k :: 0 <= k < |trips| && trips[k].id != id ==> r[k] == trips[k]
  {
    seq(|trips|, k requires 0 <= k < |trips| =>
      if trips[k].id == id then trips[k].(availableSeats := trips[k].availableSeats - 1) else trips[k])
  }

  /** `UPDATE bookings SET status = 'confirmed' WHERE id = ?`. */
  function ConfirmBooking(bookings: seq<Booking>, id: nat): (r: seq<Booking>)
    ensures |r| == |bookings|
    ensures forall k :: 0 <= k < |bookings| && bookings[k].id == id ==> r[k] == bookings[k].(status := Confirmed)
    ensures forall k :: 0 <= k < |bookings| && bookings[k].id != id ==> r[k] == bookings[k]
  {
    seq(|bookings|, k requires 0 <= k < |bookings| =>
      if bookings[k].id == id then bookings[k].(status := Confirmed) else bookings[k])
  }

  /** `UPDATE notifications SET read_status = 1 WHERE id = ?`. */
  function MarkRead(ns: seq<Notification>, id: nat): (r: seq<Notification>)
    ensures |r| == |ns|
    ensures forall k :: 0 <= k < |ns| && ns[k].id == id ==> r[k] == ns[k].(read := true)
    ensures forall k :: 0 <= k < |ns| && ns[k].id != id ==> r[k] == ns[k]
  {
    seq(|ns|, k requires 0 <= k < |ns| => if ns[k].id == id then ns[k].(read := true) else ns[k])
  }

  /** Decrementing seats keeps every trip id, and the bookings a trip has. */
  lemma DecrementSeatsKeepsTrips(st: Store, id: nat, tid: nat)
    ensures HasTrip(st, tid) <==> HasTrip(st.(trips := DecrementSeats(st.trips, id)), tid)
  {
    var st2 := st.(trips := DecrementSeats(st.trips, id));
    if HasTrip(st, tid) {
      var k :| 0 <= k < |st.trips| && st.trips[k].id == tid;
      assert st2.trips[k].id == tid;
    }
    if HasTrip(st2, tid) {
      var k :| 0 <= k < |st2.trips| && st2.trips[k].id == tid;
      assert st.trips[k].id == tid;
    }
  }

  lemma ConfirmBookingKeepsBookings(st: Store, id: nat, bid: nat)
    ensures HasBooking(st, bid) <==> HasBooking(st.(bookings := ConfirmBooking(st.bookings, id)), bid)
  {
    var st2 := st.(bookings := ConfirmBooking(st.bookings, id));
    if HasBooking(st, bid) {
      var k :| 0 <= k < |st.bookings| && st.bookings[k].id == bid;
      assert st2.bookings[k].id == bid;
    }
    if HasBooking(st2, bid) {
      var k :| 0 <= k < |st2.bookings| && st2.bookings[k].id == bid;
      assert st.bookings[k].id == bid;
    }
  }
}

=== FILE: tables.dfy ===
/** Dashboard table and widget helpers of assets/js/dashboard.js and
    assets/js/app.js: the notification badge, the search and column
    filters, column sorting, the recent-activity list and status colours.
    A table is modelled by what these helpers read and write: row texts or
    cell texts, the `display` of each row, header marks. */
module Tables {
  import opened Common
  import Sorting

  // ---------------------------------------------------------------------
  // Reading numbers as parseInt does
  // ---------------------------------------------------------------------

  predicate IsHexDigit(c: char) {
    IsDigit(c) || ('a' <= c <= 'f') || ('A' <= c <= 'F')
  }

  function HexDigitValue(c: char): (d: nat)
    requires IsHexDigit(c)
    ensures d < 16
  {
    if IsDigit(c) then c as int - '0' as int
    else if 'a' <= c <= 'f' then c as int - 'a' as int + 10
    else c as int - 'A' as int + 10
  }

  function HexValue(s: string): nat
    requires forall i :: 0 <= i < |s| ==> IsHexDigit(s[i])
  {
    if s == [] then 0 else 16 * HexValue(s[..|s| - 1]) + HexDigitValue(s[|s| - 1])
  }

  /** The longest prefix whose characters all satisfy `p`. */
  function LeadingRun(s: string, p: char -> bool): (r: string)
    ensures r <= s
    ensures forall i :: 0 <= i < |r| ==> p(r[i])
    ensures |r| < |s| ==> !p(s[|r|])
  {
    if s != [] && p(s[0]) then [s[0]] + LeadingRun(s[1..], p) else []
  }

  /** `parseInt(s)` with no radix: skip leading white space, take an
      optional sign, read hexadecimal after a "0x"/"0X" prefix and decimal
      otherwise, and stop at the first character that is not a digit.
      `None` is NaN. */
  function JsParseInt(s: string): (r: Option<int>)
  {
    ReadSigned(TrimStart(s, IsJsSpace))
  }

  /** parseInt after the white space: an optional sign, then the magnitude. */
  function ReadSigned(t: string): Option<int> {
    var negative := t != [] && t[0] == '-';
    var u := if t != [] && (t[0] == '-' || t[0] == '+') then t[1..] else t;
    match ParseMagnitude(u)
    case None => None
    case Some(v) => Some(if negative then -(v as int) else v)
  }

  /** What follows the sign: hexadecimal digits after "0x"/"0X", decimal
      digits otherwise, read up to the first character that is not one.
      `None` when there is no digit. */
  function ParseMagnitude(u: string): Option<nat> {
    if |u| >= 2 && u[0] == '0' && (u[1] == 'x' || u[1] == 'X') then
      var digits := LeadingRun(u[2..], IsHexDigit);
      if digits == [] then None else Some(HexValue(digits))
    else
      var digits := LeadingRun(u, IsDigit);
      if digits == [] then None else Some(DigitsValue(digits))
  }

  /** Decimal digits alone read as their value. */
  lemma MagnitudeOfDigits(d: string)
    requires d != [] && AllDigits(d)
    ensures ParseMagnitude(d) == Some(DigitsValue(d))
  {
    assert !(|d| >= 2 && d[0] == '0' && (d[1] == 'x' || d[1] == 'X')) by {
      if |d| >= 2 {
        assert IsDigit(d[1]);
      }
    }
    assert LeadingRun(d, IsDigit) == d;
  }

  /** Blank text is NaN, and a negative number needs a leading '-' once the
      white space is skipped. */
  lemma JsParseIntSign(s: string)
    ensures TrimStart(s, IsJsSpace) == [] ==> JsParseInt(s).None?
    ensures JsParseInt(s).Some? && JsParseInt(s).value < 0 ==> TrimStart(s, IsJsSpace)[0] == '-'
  {
  }

  /** What parseInt reads back from a rendered count is that count. */
  lemma JsParseIntRoundTrip(n: nat)
    ensures JsParseInt(NatToString(n)) == Some(n)
  {
    JsParseIntOfDigits(NatToString(n));
    DigitsValueOfNatToString(n);
  }

  /** A string of decimal digits alone, with no sign, reads as its value. */
  lemma JsParseIntOfDigits(d: string)
    requires d != [] && AllDigits(d)
    ensures JsParseInt(d) == Some(DigitsValue(d) as int)
  {
    assert IsDigit(d[0]);
    TrimStartFixed(d, IsJsSpace);
    assert d[0] != '-' && d[0] != '+';
    MagnitudeOfDigits(d);
  }

  /** A read stops at the first non-digit: "12 new" is 12. (After a lone
      "0", an 'x' would start a hexadecimal number instead.) */
  lemma JsParseIntStopsAtNonDigit(n: nat, rest: string)
    requires rest == [] || (!IsDigit(rest[0]) && rest[0] != 'x' && rest[0] != 'X')
    ensures JsParseInt(NatToString(n) + rest) == Some(n)
  {
    var s := NatToString(n) + rest;
    TrimStartFixed(s, IsJsSpace);
    var d := NatToString(n);
    assert LeadingRun(s, IsDigit) == d by {
      var r := LeadingRun(s, IsDigit);
      assert r == s[..|r|];
      assert d == s[..|d|];
    }
    DigitsValueOfNatToString(n);
  }

  /** A negative number rendered with its minus sign reads back too: the
      sign is taken, and the digits after it never start "0x". */
  lemma JsParseIntReadsIntToString(i: int)
    ensures JsParseInt(IntToString(i)) == Some(i)
  {
    if i >= 0 {
      JsParseIntRoundTrip(i);
    } else {
      var d := NatToString(-i);
      assert IntToString(i) == "-" + d;
      JsParseIntNegative(d);
      DigitsValueOfNatToString(-i);
    }
  }

  /** A minus sign and then decimal digits read as minus their value. */
  lemma JsParseIntNegative(d: string)
    requires d != [] && AllDigits(d)
    ensures JsParseInt("-" + d) == Some(-(DigitsValue(d) as int))
  {
    var s := ['-'] + d;
    assert s[0] == '-' && s[1..] == d;
    TrimStartFixed(s, IsJsSpace);
    MagnitudeOfDigits(d);
  }

  // ---------------------------------------------------------------------
  // Notification badge
  // ---------------------------------------------------------------------

  /** The badge: its count, its text, and whether it is displayed. */
  datatype Badge = Badge(count: int, text: string, displayed: bool)

  /** `parseInt(text) || 0`: NaN and zero both read as 0, so any other
      reading is what parseInt found. */
  function ReadCount(text: string): (c: int)
    ensures c != 0 ==> JsParseInt(text) == Some(c)
    ensures JsParseInt(text).None? ==> c == 0
    ensures JsParseInt(text).Some? ==> c == JsParseInt(text).value
    ensures c < 0 ==> TrimStart(text, IsJsSpace)[0] == '-'
  {
    JsParseIntSign(text);
    match JsParseInt(text)
    case None => 0
    case Some(v) => v
  }

  /** updateNotificationCount: one fewer, never below zero, shown only
      while positive. */
  function UpdateNotificationCount(text: string): (b: Badge)
    ensures b.count == if ReadCount(text) - 1 > 0 then ReadCount(text) - 1 else 0
    ensures b.count >= 0 && b.text == NatToString(b.count)
    ensures b.displayed <==> b.count > 0
  {
    var c := ReadCount(text) - 1;
    var count := if c > 0 then c else 0;
    Badge(count, NatToString(count), count > 0)
  }

  /** Two clicks take two off the count: the text written by the first is
      read back exactly by the second. */
  lemma TwoClicks(text: string)
    ensures UpdateNotificationCount(UpdateNotificationCount(text).text).count
         == if ReadCount(text) - 2 > 0 then ReadCount(text) - 2 else 0
  {
    var b := UpdateNotificationCount(text);
    JsParseIntRoundTrip(b.count);
  }

  /** Once the count reaches zero, further clicks keep it at zero and the
      badge hidden. */
  lemma ZeroIsStable(text: string)
    requires ReadCount(text) <= 1
    ensures UpdateNotificationCount(text) == Badge(0, "0", false)
    ensures UpdateNotificationCount(UpdateNotificationCount(text).text) == Badge(0, "0", false)
  {
    JsParseIntRoundTrip(0);
  }

  /** updateNotificationBadge of app.js: shows a count fetched from the
      server, displayed only while positive. The text it writes is read
      back as that count by `parseInt(text) || 0`. */
  function UpdateNotificationBadge(count: int): (b: Badge)
    ensures ReadCount(b.text) == count
    ensures b.displayed <==> ReadCount(b.text) > 0
  {
    JsParseIntReadsIntToString(count);
    Badge(count, IntToString(count), count > 0)
  }

  /** Both badges use the same display rule, and the text app.js writes
      for a non-negative count reads back as that count under dashboard.js's
      reading. That dashboard.js reads what app.js wrote assumes that
      `.notification-badge` (app.js) and `.navbar .badge` (dashboard.js)
      select the same element, which the markup would have to provide. */
  lemma BadgesAgree(count: nat)
    ensures UpdateNotificationBadge(count).displayed == UpdateNotificationCount(NatToString(count + 1)).displayed
    ensures ReadCount(UpdateNotificationBadge(count).text) == count
  {
    JsParseIntRoundTrip(count + 1);
    JsParseIntRoundTrip(count);
  }

  // ---------------------------------------------------------------------
  // Filters
  // ---------------------------------------------------------------------

  /** filterTable: a body row is shown when the term is empty or occurs in
      the lower-cased row text. The term arrives already lower-cased. */
  function FilterTable(rowTexts: seq<string>, term: string): (shown: seq<bool>)
    ensures |shown| == |rowTexts|
    ensures forall i :: 0 <= i < |rowTexts| ==>
      (shown[i] <==> term == "" || Contains(Lower(rowTexts[i]), term))
  {
    seq(|rowTexts|, i requires 0 <= i < |rowTexts| => term == "" || Contains(Lower(rowTexts[i]), term))
  }

  /** What one input event leaves behind: the `display` flag of each row,
      and whether the listener ended in an uncaught TypeError. */
  datatype SearchPass = SearchPass(shown: seq<bool>, typeError: bool)

  /** The search box listener as written. It is wrapped in debounce, whose
      delayed call is a plain `func(...args)` (main.js:210), so inside the
      listener `this` is not the input: `this.value` is undefined and
      `.toLowerCase()` throws before filterTable is reached. Every event
      ends in a TypeError and no row changes. */
  function SearchListener(shown: seq<bool>, typed: string): (r: SearchPass)
    ensures r.typeError
    ensures r.shown == shown
  {
    SearchPass(shown, true)
  }

  /** The listener as written filters nothing: with every row visible, as
      the page loads, a search that some row does not match leaves that
      row shown, where the intended listener would hide it. */
  lemma SearchListenerNeverFilters(rowTexts: seq<string>, typed: string, i: int)
    requires 0 <= i < |rowTexts|
    requires typed != "" && !Contains(Lower(rowTexts[i]), Lower(typed))
    ensures var shown := seq(|rowTexts|, _ => true);
            SearchListener(shown, typed).shown[i] && !Search(rowTexts, typed)[i]
    ensures var shown := seq(|rowTexts|, _ => true);
            SearchListener(shown, typed).shown != Search(rowTexts, typed)
  {
    var shown := seq(|rowTexts|, _ => true);
    assert SearchListener(shown, typed).shown[i] != Search(rowTexts, typed)[i];
  }

  /** The search box listener with `this` bound to the input (an arrow
      function reading the event target, say): lower-cases what was typed
      and filters, so letter case plays no part on either side. */
  function Search(rowTexts: seq<string>, typed: string): (shown: seq<bool>)
    ensures |shown| == |rowTexts|
    ensures forall i :: 0 <= i < |rowTexts| ==>
      (shown[i] <==> typed == "" || Contains(Lower(rowTexts[i]), Lower(typed)))
  {
    FilterTable(rowTexts, Lower(typed))
  }

  /** A row whose text contains what was typed, in any letter case, stays
      visible, and an empty search box shows every row. */
  lemma SearchFindsMatches(rowTexts: seq<string>, typed: string, i: int)
    requires 0 <= i < |rowTexts|
    requires Contains(rowTexts[i], typed) || Contains(Lower(rowTexts[i]), Lower(typed))
    ensures Search(rowTexts, typed)[i]
  {
    if Contains(rowTexts[i], typed) {
      ContainsLower(rowTexts[i], typed);
    }
  }

  /** Typing more only hides rows: if the longer search contains the
      shorter one, every row shown for the longer is shown for the shorter. */
  lemma LongerSearchShowsFewer(rowTexts: seq<string>, short: string, long: string, i: int)
    requires 0 <= i < |rowTexts|
    requires Contains(long, short)
    requires Search(rowTexts, long)[i]
    ensures Search(rowTexts, short)[i]
  {
    assert |short| <= |long| by {
      var k :| OccursAt(long, short, k);
    }
    if Lower(short) != "" {
      ContainsLower(long, short);
      ContainsTransitive(Lower(rowTexts[i]), Lower(long), Lower(short));
    }
  }

  /** The text a column filter compares: the lower-cased cell, or "" when
      the row has no cell at that index. */
  function CellText(row: seq<string>, col: int): string {
    if 0 <= col < |row| then Lower(row[col]) else ""
  }

  /** filterTableByColumn. */
  function FilterByColumn(rows: seq<seq<string>>, col: int, filter: string): (shown: seq<bool>)
    ensures |shown| == |rows|
    ensures forall i :: 0 <= i < |rows| ==>
      (shown[i] <==> filter == "" || Contains(CellText(rows[i], col), Lower(filter)))
  {
    seq(|rows|, i requires 0 <= i < |rows| => filter == "" || Contains(CellText(rows[i], col), Lower(filter)))
  }

  /** A row without the filtered column is hidden by any non-empty filter
      and shown by the empty one. */
  lemma MissingCellHidden(rows: seq<seq<string>>, col: int, filter: string, i: int)
    requires 0 <= i < |rows| && !(0 <= col < |rows[i]|)
    ensures FilterByColumn(rows, col, filter)[i] <==> filter == ""
  {
  }

  /** The column a filter select targets: `parseInt(data-column) || 0`. */
  function ColumnOf(dataColumn: string): int {
    ReadCount(dataColumn)
  }

  /** A `data-column` attribute holding a column index in decimal selects
      that column; one that holds no number selects the first. */
  lemma ColumnOfIndex(n: nat, junk: string)
    requires TrimStart(junk, IsJsSpace) == []
    ensures ColumnOf(NatToString(n)) == n
    ensures ColumnOf(junk) == 0
  {
    JsParseIntRoundTrip(n);
  }

  /** searchTable of app.js: every row after the first is shown exactly when
      one of its data cells contains the lower-cased filter; the first row
      keeps its display. */
  function SearchTable(cells: seq<seq<string>>, shown: seq<bool>, typed: string): (r: seq<bool>)
    requires |shown| == |cells|
    ensures |r| == |cells|
    ensures |cells| > 0 ==> r[0] == shown[0]
    ensures forall i :: 1 <= i < |cells| ==>
      (r[i] <==> exists j :: 0 <= j < |cells[i]| && Contains(Lower(cells[i][j]), Lower(typed)))
  {
    seq(|cells|, i requires 0 <= i < |cells| =>
      if i == 0 then shown[0]
      else exists j :: 0 <= j < |cells[i]| && Contains(Lower(cells[i][j]), Lower(typed)))
  }

  /** With an empty filter, searchTable still hides the rows that have no
      data cell at all: `indexOf('')` is 0 only when there is a cell to
      search. */
  lemma EmptySearchHidesCelllessRows(cells: seq<seq<string>>, shown: seq<bool>, i: int)
    requires |shown| == |cells| && 1 <= i < |cells|
    ensures SearchTable(cells, shown, "")[i] <==> |cells[i]| > 0
  {
    if |cells[i]| > 0 {
      ContainsEmpty(Lower(cells[i][0]));
    }
  }

  // ---------------------------------------------------------------------
  // Sorting by a column
  // ---------------------------------------------------------------------

  datatype HeaderMark = Unsorted | SortedAsc | SortedDesc

  /** What sortTable reads and writes: the table's `data-sort-order`, the
      sort marks of the header cells, and the body rows in order. */
  datatype Table<R> = Table(sortOrder: Option<string>, headers: seq<HeaderMark>, rows: seq<R>)

  /** The order of a click: ascending unless the table was last sorted
      ascending. */
  function Ascending<R>(t: Table<R>): bool {
    t.sortOrder != Some("asc")
  }

  /** Whether `a` may come before `b` for the comparator `cmp` of the
      clicked column, turned round when sorting descending. */
  function Precedes<R>(ascending: bool, cmp: (R, R) -> int): (R, R) -> bool {
    (a: R, b: R) => if ascending then cmp(a, b) <= 0 else cmp(b, a) <= 0
  }

  /** sortTable. The comparator (numbers where both cells parse, otherwise
      locale order) is a parameter. */
  function SortTable<R>(t: Table<R>, col: nat, cmp: (R, R) -> int): (r: Table<R>)
    requires col < |t.headers|
    ensures r.sortOrder == Some(if Ascending(t) then "asc" else "desc")
    ensures |r.headers| == |t.headers|
    ensures r.headers[col] == (if Ascending(t) then SortedAsc else SortedDesc)
    ensures forall i :: 0 <= i < |r.headers| && i != col ==> r.headers[i] == Unsorted
    ensures multiset(r.rows) == multiset(t.rows)
  {
    var asc := Ascending(t);
    var rows := Sorting.Sort(t.rows, Precedes(asc, cmp));
    var headers := seq(|t.headers|, i requires 0 <= i < |t.headers| =>
      if i == col then (if asc then SortedAsc else SortedDesc) else Unsorted);
    Table(Some(if asc then "asc" else "desc"), headers, rows)
  }

  /** With a consistent comparator the rows come out in the clicked order. */
  lemma SortTableOrders<R(!new)>(t: Table<R>, col: nat, cmp: (R, R) -> int)
    requires col < |t.headers|
    requires Sorting.Total(Precedes(Ascending(t), cmp)) && Sorting.Transitive(Precedes(Ascending(t), cmp))
    ensures Sorting.SortedBy(SortTable(t, col, cmp).rows, Precedes(Ascending(t), cmp))
  {
    Sorting.SortSorted(t.rows, Precedes(Ascending(t), cmp));
  }

  /** Clicks alternate, whichever column is clicked: a table never sorted
      is sorted ascending first, then descending, then ascending again. */
  lemma ClicksAlternate<R>(t: Table<R>, col: nat, col2: nat, cmp: (R, R) -> int)
    requires col < |t.headers| && col2 < |t.headers|
    ensures Ascending(SortTable(t, col, cmp)) == !Ascending(t)
    ensures t.sortOrder.None? ==>
      SortTable(t, col, cmp).sortOrder == Some("asc")
      && SortTable(SortTable(t, col, cmp), col2, cmp).sortOrder == Some("desc")
  {
  }

  // ---------------------------------------------------------------------
  // Recent activity
  // ---------------------------------------------------------------------

  /** What one pass of the timer leaves behind: the list, and whether the
      callback ended in an uncaught ReferenceError. */
  datatype ActivityPass<A> = ActivityPass(items: seq<A>, referenceError: bool)

  /** updateRecentActivity as written. Inside the block of the 30% draw the
      name `activities` is bound by the block's own `const` further down,
      so the first statement of the block, which picks the random item from
      `activities`, reads that binding before its declaration and throws.
      Nothing after it runs: the list is never touched. `fires` is the draw. */
  function UpdateRecentActivity<A>(items: seq<A>, fires: bool): (r: ActivityPass<A>)
    ensures r.referenceError <==> fires
    ensures r.items == items
  {
    if fires then ActivityPass(items, true) else ActivityPass(items, false)
  }

  /** The timer as written never shows a new activity: whatever the draw,
      an empty list stays empty, where the intended block would have added
      the item. */
  lemma RecentActivityNeverAdds<A>(items: seq<A>, item: A, fires: bool)
    ensures UpdateRecentActivity(items, fires).items == items
    ensures fires && |items| < 5 ==>
      UpdateRecentActivity(items, fires).items != UpdateRecentActivityFixed(items, fires, item)
  {
    if fires && |items| < 5 {
      assert |UpdateRecentActivityFixed(items, fires, item)| == |items| + 1;
    }
  }

  /** The block with the inner binding renamed, so the item is picked from
      the outer list: the new item goes in front, and if the list then holds
      more than five the last is removed. */
  function AddActivity<A>(items: seq<A>, item: A): (r: seq<A>)
    ensures r != [] && r[0] == item
    ensures r <= [item] + items
    ensures |r| == if |items| + 1 > 5 then |items| else |items| + 1
  {
    var added := [item] + items;
    if |added| > 5 then added[..|added| - 1] else added
  }

  /** One pass of the timer with the block corrected: `fires` is the 30%
      draw and `item` the activity it picks. */
  function UpdateRecentActivityFixed<A>(items: seq<A>, fires: bool, item: A): (r: seq<A>)
    ensures !fires ==> r == items
    ensures fires ==> r != [] && r[0] == item && r[1..] <= items
    ensures fires ==> |r| == if |items| < 5 then |items| + 1 else |items|
  {
    if fires then AddActivity(items, item) else items
  }

  /** A list of at most five items keeps at most five; a full list loses
      its oldest item. */
  lemma ActivityCap<A>(items: seq<A>, item: A)
    requires |items| <= 5
    ensures |AddActivity(items, item)| <= 5
    ensures |items| == 5 ==> AddActivity(items, item) == [item] + items[..4]
  {
    if |items| == 5 {
      assert ([item] + items)[..5] == [item] + items[..4];
    }
  }

  /** Only one item is ever removed, so a list that starts longer than five
      never shrinks back to five. */
  lemma LongListKeepsLength<A>(items: seq<A>, item: A)
    requires |items| > 5
    ensures |AddActivity(items, item)| == |items|
  {
  }

  // ---------------------------------------------------------------------
  // Status colours
  // ---------------------------------------------------------------------

  /** getStatusColor: the Bootstrap colour of a status badge. */
  function StatusColor(status: string): (c: string)
    ensures c in {"warning", "success", "danger", "info", "secondary", "primary"}
    ensures (status !in {"pending", "confirmed", "cancelled", "completed", "approved",
                         "rejected", "not_started", "in_progress"}) ==> c == "secondary"
  {
    match status
    case "pending" => "warning"
    case "confirmed" => "success"
    case "cancelled" => "danger"
    case "completed" => "info"
    case "approved" => "success"
    case "rejected" => "danger"
    case "not_started" => "secondary"
    case "in_progress" => "primary"
    case _ => "secondary"
  }

  /** Good outcomes are green and bad ones red. */
  lemma StatusColorGroups()
    ensures StatusColor("confirmed") == StatusColor("approved") == "success"
    ensures StatusColor("cancelled") == StatusColor("rejected") == "danger"
    ensures StatusColor("pending") == "warning" && StatusColor("completed") == "info"
    ensures StatusColor("in_progress") == "primary" && StatusColor("not_started") == "secondary"
  {
  }

  /** Only the two good outcomes show green and only the two bad ones red;
      every other status, listed or not, shows another colour. */
  lemma StatusColorMeaning(status: string)
    ensures StatusColor(status) == "success" <==> status == "confirmed" || status == "approved"
    ensures StatusColor(status) == "danger" <==> status == "cancelled" || status == "rejected"
    ensures StatusColor(status) == "warning" <==> status == "pending"
  {
  }
}
